=== FILE: README.md ===
# ai_ocr_wrappers in Dafny

This project models the deterministic core of the `ai_ocr_wrappers` scripts. These are
command-line wrappers that send images or PDF files to hosted OCR and PDF-to-Markdown
services and write the answer to a file, plus two helper scripts:

- **PDF page-size example** (`misc/code_samples/process_pdf_pages_one_by_one_as_image_example.py`),
  module `PdfPages`:
  - the `vprint` diagnostics gate and the global verbosity level;
  - the page-count fallback over PyPDF2, pypdf and `pdfinfo`, including the parse of `pdfinfo` output;
  - the page-rendering fallback over ImageMagick and `pdftoppm`;
  - the loop that renders each requested page to a temporary PNG.
- **DeepSeek-OCR on DeepInfra** (`imgextractors/deepseek_ocr_deepinfra.py`), module `DeepinfraOcr`:
  - the key-file and environment token check (`KeyFile`);
  - output naming (`FileNames`), task prompts and the image MIME type;
  - the `data:` URL of the image (`DataUrls`), the chat request and the skip rule.
- **DeepSeek-OCR on Replicate** (`imgextractors/lucataco_deepseek_ocr_replicate.py`), module `LucatacoOcr`:
  - key file, naming and skip rule;
  - `truncate_long_string`;
  - how string or list output becomes file content.
- **OCR-Surya**, **Nougat** and **Marker** on Replicate: modules `SuryaOcr`, `NougatPdf` and `MarkerPdf`.
  These cover output naming, the request sent, and which service answers are written.
- **Jina Reader download** (`docs/try_with_jina.ai.py`), module `Jina`:
  - the guessed file name;
  - the `url2path.csv` mapping: load, save, append and lookup;
  - the `r.jina.ai` request;
  - batch mode.

Shared Python behaviour is modelled once:

- `PyStr`: `strip`, `split`, `join`, `replace`, `lower`, `int()` and `in`.
- `PyPath`: `os.path.basename` and `os.path.splitext`.
- `Fallback`: the "first method that answers" loop.
- `Runs`: the outcome of one wrapper run.

State the scripts update in place is modelled with classes:

- `PdfPages.Diagnostics`: the global `verbose_level`.
- `KeyFile.Environ`: `os.environ`.
- `Jina.CsvFile`: a CSV file.

Loops are methods, each proved equal to a specification function. Everything the scripts
ask of the outside world is a parameter of the model:

- library and tool answers;
- subprocess exit status;
- file contents and existing files;
- service replies;
- HTTP downloads.

The fallback loops are modelled exactly as the scripts write them:

- There is no renderer registry or duplicate check.
- There is no separate error for an empty method list.
- Failures are not aggregated: the first decisive answer ends the loop.

## Model

| member | source | states |
|---|---|---|
| PdfPages.VPrintLine | misc/code_samples/process_pdf_pages_one_by_one_as_image_example.py:36-45 | a line is written exactly when the configured level is at least the call's level, and it starts with the level's prefix and a colon |
| PdfPages.LevelPrefix | misc/code_samples/process_pdf_pages_one_by_one_as_image_example.py:39-44 | a level has a non-empty prefix exactly when it lies between INFO and DEBUG |
| PdfPages.EmittedLinesMonotone | misc/code_samples/process_pdf_pages_one_by_one_as_image_example.py:36-45 | raising the verbosity never suppresses a line: the lines written at a lower level are a sub-multiset of those at a higher one |
| PdfPages.ConfiguredLevel | misc/code_samples/process_pdf_pages_one_by_one_as_image_example.py:180 | `-q` gives QUIET; otherwise the level is one above the `-v` count, capped at DEBUG and never below INFO |
| PdfPages.Diagnostics.constructor | misc/code_samples/process_pdf_pages_one_by_one_as_image_example.py:34 | the global level starts at INFO |
| PdfPages.Diagnostics.Configure | misc/code_samples/process_pdf_pages_one_by_one_as_image_example.py:179-180 | `main` sets the global level to the configured level |
| PdfPages.Diagnostics.VPrint | misc/code_samples/process_pdf_pages_one_by_one_as_image_example.py:38 | `vprint` prints exactly when the global level is at least the call's level |
| PdfPages.GetNoOfPagesPdf | misc/code_samples/process_pdf_pages_one_by_one_as_image_example.py:89-100 | the count is the first non-None answer, and exactly the methods up to that one are called (all of them when none answers) |
| PdfPages.DefaultCounterOrder | misc/code_samples/process_pdf_pages_one_by_one_as_image_example.py:83-87 | PyPDF2's answer wins alone; pypdf runs only after PyPDF2 fails; pdfinfo runs only after both fail |
| PdfPages.DefaultPageCounters | misc/code_samples/process_pdf_pages_one_by_one_as_image_example.py:83-87 | the methods are PyPDF2, pypdf and pdfinfo in that order; the pdfinfo method has no count when the tool cannot run, and otherwise parses its output |
| PdfPages.PagesOfPdfinfoLines | misc/code_samples/process_pdf_pages_one_by_one_as_image_example.py:76-78 | output without a `Pages:` line gives no count |
| PdfPages.ParsePdfinfoOutput | misc/code_samples/process_pdf_pages_one_by_one_as_image_example.py:76-81 | the line loop computes the count the pdfinfo parse specifies |
| PdfPages.FirstMarkedLineDecides | misc/code_samples/process_pdf_pages_one_by_one_as_image_example.py:76-78 | the first line containing `Pages:` decides the result, whatever follows it |
| PdfPages.PdfinfoReportsCount | misc/code_samples/process_pdf_pages_one_by_one_as_image_example.py:76-78 | a `Pages:` line padded with spaces and followed by a number reports exactly that number |
| PdfPages.PagesLineValue | misc/code_samples/process_pdf_pages_one_by_one_as_image_example.py:78 | `int(line.split(':')[1].strip())` reads the number back from a padded `Pages:` line |
| PdfPages.RenderPageTrueIff | misc/code_samples/process_pdf_pages_one_by_one_as_image_example.py:130-135 | True exactly when some renderer produces the image and every earlier one declined; False exactly when all decline, including for an empty list |
| PdfPages.RenderPage | misc/code_samples/process_pdf_pages_one_by_one_as_image_example.py:130-135 | an exception comes from a renderer that raised, all renderers before it having declined |
| PdfPages.PdfPageAsPngImage | misc/code_samples/process_pdf_pages_one_by_one_as_image_example.py:130-135 | the renderer loop returns the specified result and calls renderers only up to the first decisive one |
| PdfPages.PdftoppmPrefix | misc/code_samples/process_pdf_pages_one_by_one_as_image_example.py:116 | `rsplit('.', 1)[0]` is a prefix of the temp name |
| PdfPages.ImagemagickAttempt | misc/code_samples/process_pdf_pages_one_by_one_as_image_example.py:102-110 | ImageMagick produces the page exactly on exit status 0, and raises exactly when the binary is missing |
| PdfPages.PdftoppmAttempt | misc/code_samples/process_pdf_pages_one_by_one_as_image_example.py:112-123 | pdftoppm produces the page exactly on exit status 0 with its output renamed, declines exactly on a non-zero exit, and raises the rename error exactly when status 0 left no file to rename |
| PdfPages.ZeroPad | misc/code_samples/process_pdf_pages_one_by_one_as_image_example.py:117 | the padded text is the digits preceded by zeros up to the width |
| PdfPages.PdftoppmPrefixOfPng | misc/code_samples/process_pdf_pages_one_by_one_as_image_example.py:116-119 | for `<stem>.png` the prefix is the stem, and the file the script renames is `<stem>-1.png` |
| PdfPages.PdftoppmRenameFindsOnlyPageOne | misc/code_samples/process_pdf_pages_one_by_one_as_image_example.py:117-119 | the renamed file is the one pdftoppm wrote exactly for page 1 of a document with fewer than ten pages |
| PdfPages.NatToStringSingleDigit | misc/code_samples/process_pdf_pages_one_by_one_as_image_example.py:117 | a number has one digit exactly when it is below ten |
| PdfPages.DefaultRenderers | misc/code_samples/process_pdf_pages_one_by_one_as_image_example.py:125-128 | ImageMagick is tried first and pdftoppm second, pdftoppm's rename finding its file exactly when the written name is `<prefix>-1.png` |
| PdfPages.MissingImagemagickAborts | misc/code_samples/process_pdf_pages_one_by_one_as_image_example.py:105-110 | as written, a missing `magick` binary raises out of the renderer loop after one attempt, so pdftoppm is never tried |
| PdfPages.RenameFindsOnlyPageOne | misc/code_samples/process_pdf_pages_one_by_one_as_image_example.py:116-119 | for the temporary `<stem>.png`, the rename finds pdftoppm's file exactly on page 1 of a document with fewer than ten pages |
| PdfPages.DeclinedMagickFallsToPdftoppm | misc/code_samples/process_pdf_pages_one_by_one_as_image_example.py:105-123 | where ImageMagick exits non-zero and pdftoppm exits 0, the page renders exactly when the rename finds its file, and otherwise raises the rename error |
| PdfPages.PdftoppmRunStops | misc/code_samples/process_pdf_pages_one_by_one_as_image_example.py:112-156 | as written, with ImageMagick failing and pdftoppm succeeding, a run over two or more pages raises on the rename: at page 1 for ten pages or more, otherwise at page 2 after reporting page 1 |
| PdfPages.RenderersFallBack | misc/code_samples/process_pdf_pages_one_by_one_as_image_example.py:125-135 | with the corrected handlers, a page renders exactly when either tool exits with status 0, and rendering never raises |
| PdfPages.PdftoppmRunConvertsAll | misc/code_samples/process_pdf_pages_one_by_one_as_image_example.py:112-156 | corrected: when pdftoppm succeeds on every page, the run converts and reports every requested page and raises nothing |
| PdfPages.PageRunOf | misc/code_samples/process_pdf_pages_one_by_one_as_image_example.py:139-141 | without a page count the run reports nothing and ends with an error |
| PdfPages.FirstPage | misc/code_samples/process_pdf_pages_one_by_one_as_image_example.py:143 | the first page is never 0: it is the requested page, or 1 |
| PdfPages.LastPage | misc/code_samples/process_pdf_pages_one_by_one_as_image_example.py:144 | a requested non-zero last page is used; otherwise the last page is the page count |
| PdfPages.FilesizeOfEachPage | misc/code_samples/process_pdf_pages_one_by_one_as_image_example.py:137-160 | counts the pages with the fallback, then reports the page range as specified |
| PdfPages.ConvertPages | misc/code_samples/process_pdf_pages_one_by_one_as_image_example.py:151-160 | the page loop produces the specified reports and stops at a raising renderer |
| PdfPages.VisitPagesStep | misc/code_samples/process_pdf_pages_one_by_one_as_image_example.py:152-156 | one page: a raise ends the run; otherwise the page's report comes before the rest |
| PdfPages.VisitPagesAscending | misc/code_samples/process_pdf_pages_one_by_one_as_image_example.py:151-159 | the i-th report is for page first+i, within the range, converted exactly when rendering gave True, and copied exactly when an output directory was given |
| PdfPages.VisitPagesCovers | misc/code_samples/process_pdf_pages_one_by_one_as_image_example.py:143-156 | a run without error reports every page from first to last; a run with error stopped at the page whose rendering raised |
| Fallback.FirstSome | misc/code_samples/process_pdf_pages_one_by_one_as_image_example.py:93-97 | the first answer that is not None, None only when all are None |
| Fallback.Attempts | misc/code_samples/process_pdf_pages_one_by_one_as_image_example.py:94-97 | the number of calls made: up to and including the first answer, or all of them; every call before the last one answered None |
| Fallback.LaterCandidatesIgnored | misc/code_samples/process_pdf_pages_one_by_one_as_image_example.py:96-97 | once a method answers, appending more methods changes neither the result nor the calls |
| Fallback.EmptyCandidatesSkipped | misc/code_samples/process_pdf_pages_one_by_one_as_image_example.py:94-97 | methods that answer None are passed over, each costing one call |
| Fallback.ScanFirst | imgextractors/deepseek_ocr_deepinfra.py:46-53 | the scan loop returns the first answer and the number of items read: an answer is the value of the last item read, no answer means every item was read |
| PyStr.Strip | imgextractors/deepseek_ocr_deepinfra.py:47 | `strip` keeps a contiguous middle piece with undropped ends, everything cut being dropped characters |
| PyStr.StripSpace | imgextractors/deepseek_ocr_deepinfra.py:47 | `strip()` never lengthens and leaves no white space at either end |
| PyStr.StripChar | imgextractors/deepseek_ocr_deepinfra.py:51 | `strip(c)` never lengthens and leaves no `c` at either end |
| PyStr.StripUnique | imgextractors/deepseek_ocr_deepinfra.py:51 | that middle piece is unique |
| PyStr.StripIdempotent | imgextractors/deepseek_ocr_deepinfra.py:51 | stripping twice equals stripping once |
| PyStr.SplitPieces | misc/code_samples/process_pdf_pages_one_by_one_as_image_example.py:76 | no split piece contains the separator; there is more than one piece iff the separator occurs |
| PyStr.JoinSplit | misc/code_samples/process_pdf_pages_one_by_one_as_image_example.py:76 | joining the pieces of a split gives the string back |
| PyStr.SplitJoin | imgextractors/lucataco_deepseek_ocr_replicate.py:142 | splitting a join of separator-free pieces gives the pieces back |
| PyStr.JoinSplitReplace | docs/try_with_jina.ai.py:24-25 | splitting on one character and joining with another replaces the first by the second |
| PyStr.ParseDigitsOfNat | misc/code_samples/process_pdf_pages_one_by_one_as_image_example.py:78 | `int()` reads back the decimal text of any natural number |
| PyStr.ParseIntOfString | misc/code_samples/process_pdf_pages_one_by_one_as_image_example.py:78 | `int(str(n)) == n` for every integer |
| PyStr.IndexOf | imgextractors/deepseek_ocr_deepinfra.py:51 | the cut position of `split(c, 1)`: the first position holding `c`, or the length when it is absent |
| PyStr.LastIndexOf | imgextractors/deepseek_ocr_deepinfra.py:69 | `rfind` of a character: the last position holding it, or -1 |
| PyStr.LowerStr | imgextractors/deepseek_ocr_deepinfra.py:70 | `lower` keeps the length, raises each capital to its small letter, keeps every other character, and leaves no capital |
| PyStr.LowerStrIdempotent | imgextractors/deepseek_ocr_deepinfra.py:70 | lower-casing twice is lower-casing once |
| PyStr.LowerStrFixed | imgextractors/deepseek_ocr_deepinfra.py:70 | a string is its own lower case exactly when it holds no capital |
| PyStr.Split | misc/code_samples/process_pdf_pages_one_by_one_as_image_example.py:78 | `split` on a character always gives at least one piece |
| PyStr.Replace | docs/try_with_jina.ai.py:24-25 | `replace` of one character keeps the length |
| PyStr.ParseInt | misc/code_samples/process_pdf_pages_one_by_one_as_image_example.py:78 | `int()` accepts only text that, after stripping, is an optional leading `+` or `-` followed by digits, where every `_` has a digit on each side |
| PyStr.DoubledUnderscoreRefused | misc/code_samples/process_pdf_pages_one_by_one_as_image_example.py:78 | `int("1__2")` fails: two underscores in a row are refused |
| PyPath.PlainName | imgextractors/deepseek_ocr_deepinfra.py:69 | a name without `/` or `.` is its own basename and has no extension |
| PyStr.ContainsIff | misc/code_samples/process_pdf_pages_one_by_one_as_image_example.py:77 | `sub in s` holds exactly when `sub` occurs at some position |
| PyPath.Basename | imgextractors/deepseek_ocr_deepinfra.py:69 | the basename is the suffix after the last `/` and contains no `/` |
| PyPath.SplitExt | imgextractors/deepseek_ocr_deepinfra.py:138 | `splitext` splits the path into two parts that concatenate back to it |
| PyPath.SplitExtShape | imgextractors/deepseek_ocr_deepinfra.py:138 | an extension is a `.` followed by neither `.` nor `/` |
| PyPath.SplitExtKeepsName | imgextractors/deepseek_ocr_deepinfra.py:69 | when an extension is split off, the name in front still has a character that is not a dot |
| PyPath.SplitExtOfBasename | imgextractors/deepseek_ocr_deepinfra.py:69 | the extension of a path is the extension of its basename |
| PyPath.SplitExtAppend | pdfextractors/cuuupid_marker_replicate.py:35 | appending an extension to a named path splits back into the path and that extension |
| PyPath.BasenameUnderDirectory | imgextractors/deepseek_ocr_deepinfra.py:69 | a leading directory does not change the basename |
| FileNames.NormalizeFilename | imgextractors/deepseek_ocr_deepinfra.py:67-71 | at most 64 characters (the length of the stem, capped), each a lower-case ASCII letter, digit or `_` |
| FileNames.Stem | imgextractors/deepseek_ocr_deepinfra.py:69 | the stem is a prefix of the basename and holds no `/` |
| FileNames.NormalizeChar | imgextractors/deepseek_ocr_deepinfra.py:70 | each character becomes a name character, name characters stay, and `_` appears exactly for a character that is not a letter or digit |
| FileNames.NormalizeFilenameAt | imgextractors/deepseek_ocr_deepinfra.py:70 | each character is the stem's character, lower-cased or replaced by `_` |
| FileNames.NormalizeIdempotent | imgextractors/deepseek_ocr_deepinfra.py:67-71 | normalizing a normalized name changes nothing |
| FileNames.NoSeparators | imgextractors/deepseek_ocr_deepinfra.py:70 | a normalized name holds neither `/` nor `.` |
| FileNames.NormalizeIgnoresDirectory | imgextractors/deepseek_ocr_deepinfra.py:69 | the directory part of the input does not matter |
| FileNames.NormalizeEmptyIff | imgextractors/deepseek_ocr_deepinfra.py:67-71 | the normalized name is empty exactly when the basename is empty |
| FileNames.OutputOrDefault | imgextractors/cudanexus_ocr_surya_replicate.py:27-32 | a non-empty `-o` is used as is; otherwise the name is at most 64 characters plus the extension |
| FileNames.DefaultNameSplits | imgextractors/cudanexus_ocr_surya_replicate.py:32 | the default name splits back into the normalized stem and the extension |
| FileNames.TaskOutputFilename | imgextractors/deepseek_ocr_deepinfra.py:73-83 | a non-empty `-o` wins over the task-derived name |
| FileNames.TaskOutputExtension | imgextractors/deepseek_ocr_deepinfra.py:78-83 | the default extension is `.md` exactly when the task name contains "markdown" in any case, `.txt` otherwise |
| FileNames.DefaultTaskIsMarkdown | imgextractors/deepseek_ocr_deepinfra.py:108 | the default task writes a `.md` file |
| KeyFile.ScanKeyFile | imgextractors/deepseek_ocr_deepinfra.py:46-53 | the line loop returns the token of the first assigning line and stops there, reading every line when none assigns |
| KeyFile.LaterLinesIgnored | imgextractors/deepseek_ocr_deepinfra.py:53 | lines after the first token line do not matter |
| KeyFile.UnrelatedLinesSkipped | imgextractors/deepseek_ocr_deepinfra.py:47-50 | lines that assign none of the names are passed over |
| KeyFile.AssignmentHasEquals | imgextractors/deepseek_ocr_deepinfra.py:50-51 | a line assigning a listed name has an `=` to split on |
| KeyFile.TokenOfLine | imgextractors/deepseek_ocr_deepinfra.py:47-51 | a line gives a token exactly when, after stripping and removing `export `, it assigns one of the names |
| KeyFile.TokenFromFile | imgextractors/deepseek_ocr_deepinfra.py:44-53 | a token comes only from a readable key file, and is the token of one of its lines |
| KeyFile.KeyFileError | imgextractors/deepseek_ocr_deepinfra.py:39-56 | the exit message starts with `ERROR: ` and ends with the missing path or the read error |
| KeyFile.KeyLineRoundTrip | imgextractors/deepseek_ocr_deepinfra.py:47-51 | `export NAME="token"` (any quote or none) yields exactly the token |
| KeyFile.CleanQuoted | imgextractors/deepseek_ocr_deepinfra.py:51 | stripping spaces and quotes removes exactly one pair of quotes around a clean token |
| KeyFile.CheckApiToken | imgextractors/cudanexus_ocr_surya_replicate.py:15-19 | the Replicate wrappers without a key file stop exactly when REPLICATE_API_TOKEN is unset, with the first line of the key-file wrappers' message |
| KeyFile.DeepinfraTokenCheck | imgextractors/deepseek_ocr_deepinfra.py:34-65 | exits exactly for a missing or unreadable key file, or when neither the file nor either variable gives a token |
| KeyFile.DeepinfraEnvironment | imgextractors/deepseek_ocr_deepinfra.py:58-65 | on success DEEPINFRA_API_TOKEN is set and no other variable changes |
| KeyFile.DeepinfraKeyFileWins | imgextractors/deepseek_ocr_deepinfra.py:50-52 | a token from the key file overrides the environment |
| KeyFile.DeepinfraEnvironmentFallback | imgextractors/deepseek_ocr_deepinfra.py:63-65 | without a file token, DEEPINFRA_TOKEN is copied into DEEPINFRA_API_TOKEN only when the latter is unset |
| KeyFile.ReplicateTokenCheck | imgextractors/lucataco_deepseek_ocr_replicate.py:35-62 | exits exactly for a missing or unreadable key file or no token; on success the token is set and nothing else changes |
| KeyFile.ReplicateCheckOnly | imgextractors/lucataco_deepseek_ocr_replicate.py:59-62 | without a key file the environment is left unchanged |
| KeyFile.Environ.constructor | imgextractors/deepseek_ocr_deepinfra.py:58 | `os.environ` with its initial variables |
| KeyFile.Environ.CheckDeepinfraToken | imgextractors/deepseek_ocr_deepinfra.py:34-65 | updates `os.environ` as the check specifies, or exits leaving it unchanged |
| KeyFile.Environ.CheckReplicateToken | imgextractors/lucataco_deepseek_ocr_replicate.py:35-62 | the same for the Replicate token |
| DataUrls.ParseDataUrl | imgextractors/deepseek_ocr_deepinfra.py:162 | a parsed URL rebuilds to the same `data:` URL, with a MIME type free of `;` |
| DataUrls.ParseDataUrlOfDataUrl | imgextractors/deepseek_ocr_deepinfra.py:162 | a `data:` URL parses back to its MIME type and payload |
| DeepinfraOcr.TaskPrompt | imgextractors/deepseek_ocr_deepinfra.py:90-103 | a custom prompt wins; otherwise the task's own prompt, or "Free OCR" for an unknown task, always starting with the image tag |
| DeepinfraOcr.BuiltInPromptsShowImage | imgextractors/deepseek_ocr_deepinfra.py:95-101 | every built-in task prompt starts with the image tag |
| DeepinfraOcr.TaskPromptsDistinct | imgextractors/deepseek_ocr_deepinfra.py:95-101 | different built-in tasks send different prompts |
| DeepinfraOcr.MimeType | imgextractors/deepseek_ocr_deepinfra.py:138-146 | the MIME type is always an `image/` type |
| DeepinfraOcr.MimeTypeDefault | imgextractors/deepseek_ocr_deepinfra.py:146 | an extension the table does not list, and a name with no extension at all, get `image/jpeg` |
| DeepinfraOcr.MimeTypeOfBasename | imgextractors/deepseek_ocr_deepinfra.py:138 | the MIME type depends only on the file's basename |
| DeepinfraOcr.MimeTypeOfExtension | imgextractors/deepseek_ocr_deepinfra.py:138-146 | a named file with a listed extension, in any case, gets that extension's type |
| DeepinfraOcr.ImageUrl | imgextractors/deepseek_ocr_deepinfra.py:162 | the image URL parses back to the file's MIME type and the payload |
| DeepinfraOcr.Extract | imgextractors/deepseek_ocr_deepinfra.py:105-196 | skips exactly when the output exists and `--force` is absent; skip and write use the same output name |
| DeepinfraOcr.SkipMakesNoRequest | imgextractors/deepseek_ocr_deepinfra.py:121-123 | a skipped run does not depend on the service |
| Runs.ShouldSkip | imgextractors/deepseek_ocr_deepinfra.py:121 | only an existing output file is skipped, and never under `--force` |
| DeepinfraOcr.ExtractSendsImage | imgextractors/deepseek_ocr_deepinfra.py:154-173 | a run that goes ahead sends the model, the image URL, the prompt and the token limit, and writes the reply |
| LucatacoOcr.TruncateDefault | imgextractors/lucataco_deepseek_ocr_replicate.py:87-91 | with the default limit a long string shrinks to 135 characters that keep its first and last 64 |
| LucatacoOcr.TruncateBound | imgextractors/lucataco_deepseek_ocr_replicate.py:87-91 | the result never exceeds the input length or 135 characters |
| LucatacoOcr.OutputContent | imgextractors/lucataco_deepseek_ocr_replicate.py:136-147 | a string or a non-empty list is accepted; anything else is an error |
| LucatacoOcr.ListOutputRoundTrip | imgextractors/lucataco_deepseek_ocr_replicate.py:140-142 | list output joined with newlines splits back into the same items |
| LucatacoOcr.SingleItemLikeText | imgextractors/lucataco_deepseek_ocr_replicate.py:136-142 | a one-item list writes the same content as that string |
| LucatacoOcr.Extract | imgextractors/lucataco_deepseek_ocr_replicate.py:93-161 | skip rule and name as above; what is written is the accepted content of the service's reply |
| LucatacoOcr.ExtractOutcome | imgextractors/lucataco_deepseek_ocr_replicate.py:106-154 | a run that goes ahead writes exactly when the image is readable, the call succeeds and its output is accepted, and then writes that content; otherwise it exits with the service error or the unexpected-format message |
| LucatacoOcr.SkipMakesNoRequest | imgextractors/lucataco_deepseek_ocr_replicate.py:108-110 | a skipped run does not depend on the service |
| LucatacoOcr.EmptyListExits | imgextractors/lucataco_deepseek_ocr_replicate.py:140-147 | an empty list exits with the unexpected-format message naming `<class 'list'>` |
| SuryaOcr.OutputFilename | imgextractors/cudanexus_ocr_surya_replicate.py:27-32 | a non-empty `-o` is used as is |
| SuryaOcr.DefaultIsText | imgextractors/cudanexus_ocr_surya_replicate.py:32 | the default name is the normalized stem with `.txt` |
| SuryaOcr.Request | imgextractors/cudanexus_ocr_surya_replicate.py:54-57 | the image is always sent as an `image/jpeg` `data:` URL holding the payload |
| SuryaOcr.Extract | imgextractors/cudanexus_ocr_surya_replicate.py:39-78 | skips exactly under the skip rule; a written file holds the `text` entry of the reply to the request |
| SuryaOcr.ExtractOutcome | imgextractors/cudanexus_ocr_surya_replicate.py:43-78 | a run that goes ahead exits when the image cannot be read; otherwise it writes exactly when the reply is a dictionary with a `text` entry, and writes that entry; a failing call exits with its error, any other reply with the unexpected-format message |
| SuryaOcr.SkipMakesNoRequest | imgextractors/cudanexus_ocr_surya_replicate.py:45-47 | a skipped run does not depend on the service |
| SuryaOcr.OnlyRecordsAccepted | imgextractors/cudanexus_ocr_surya_replicate.py:72-74 | a string or list reply exits with the unexpected-format message |
| NougatPdf.OutputFilename | pdfextractors/cudanexus_nougat_replicate.py:34-39 | a non-empty `-o` is used as is |
| NougatPdf.DefaultIsMarkdown | pdfextractors/cudanexus_nougat_replicate.py:39 | the default name is the normalized stem with `.md` |
| NougatPdf.PdfFile | pdfextractors/cudanexus_nougat_replicate.py:61-63 | the PDF is sent as an `application/pdf` `data:` URL holding the payload |
| NougatPdf.ConvertAsWritten | pdfextractors/cudanexus_nougat_replicate.py:46-83 | as written: skips exactly under the skip rule |
| NougatPdf.SuccessReportsErrorAsWritten | pdfextractors/cudanexus_nougat_replicate.py:70 | as written, a successful conversion still reports "Unexpected output format" |
| NougatPdf.AsWrittenAlwaysReports | pdfextractors/cudanexus_nougat_replicate.py:65-71 | as written, every run that reaches the service reports that message first |
| NougatPdf.Convert | pdfextractors/cudanexus_nougat_replicate.py:46-83 | skip rule and name; a written file holds the download of the URL the service returned |
| NougatPdf.ConvertReportsOnlyRealErrors | pdfextractors/cudanexus_nougat_replicate.py:70-83 | corrected: a written file reports nothing, an exit reports exactly its message, and every as-written success is unchanged |
| NougatPdf.ConvertOutcome | pdfextractors/cudanexus_nougat_replicate.py:52-83 | corrected: a run that goes ahead exits when the PDF cannot be read; otherwise it writes exactly when the call returns a URL that downloads, and writes the download; a failing call or download exits with its error, any other reply with the unexpected-format message |
| NougatPdf.SkipMakesNoRequest | pdfextractors/cudanexus_nougat_replicate.py:52-54 | a skipped run does not depend on the service |
| MarkerPdf.SkipChecksFinalName | pdfextractors/cuuupid_marker_replicate.py:28-30 | the existence check looks at exactly the file that would be written |
| MarkerPdf.BaseName | pdfextractors/cuuupid_marker_replicate.py:32-37 | a given `-o` loses only its extension; otherwise the base is a normalized name of at most 64 name characters |
| MarkerPdf.FinalName | pdfextractors/cuuupid_marker_replicate.py:32-44 | the output always ends in `.md`, and a given `-o` that already ends in `.md` is used as is |
| MarkerPdf.OutputGetsMarkdownExtension | pdfextractors/cuuupid_marker_replicate.py:32-44 | a given `-o` with any extension keeps its directory and stem and gets `.md` instead: `-o notes.txt` writes `notes.md` |
| MarkerPdf.FinalNameStable | pdfextractors/cuuupid_marker_replicate.py:32-44 | the output's extension is `.md`, and passing the output back as `-o` targets the same file |
| MarkerPdf.Convert | pdfextractors/cuuupid_marker_replicate.py:39-76 | skips exactly when `<base>.md` exists without `--force`; a written file is `<base>.md` and holds the download of the `markdown` URL |
| MarkerPdf.ConvertOutcome | pdfextractors/cuuupid_marker_replicate.py:46-76 | a run that goes ahead writes exactly when the reply is a dictionary with a `markdown` URL that downloads, and writes the download; a failing call or download exits with its error, any other reply with the unexpected-format message |
| MarkerPdf.SkipMatchesWrittenFile | pdfextractors/cuuupid_marker_replicate.py:43-48 | Marker's skip agrees with the shared skip rule applied to the file written |
| MarkerPdf.SkipMakesNoRequest | pdfextractors/cuuupid_marker_replicate.py:46-48 | a skipped run neither calls the service nor downloads |
| Jina.GetTopic | docs/try_with_jina.ai.py:22-25 | the topic is the path with `/` stripped at both ends and each inner `/` replaced by `_`, so it holds no `/` |
| Jina.GuessFilename | docs/try_with_jina.ai.py:27-30 | the guess starts with the host and a `/`, and for a host without `/` the part after it holds no `/` |
| Jina.GuessFilenameShape | docs/try_with_jina.ai.py:27-30 | for a host without `/`, the guess is `<host>_<topic>.md` in directory `<host>`, with extension `.md` |
| Jina.DictGet | docs/try_with_jina.ai.py:79 | `get` finds nothing exactly when no item has the key, and with distinct keys finds the item's value |
| Jina.DictPut | docs/try_with_jina.ai.py:40 | assignment sets the key, leaves other keys alone, keeps an existing key in place, appends a new key last, and keeps keys distinct |
| Jina.FoldRows | docs/try_with_jina.ai.py:39-40 | the row fold keeps keys distinct |
| Jina.LoadRows | docs/try_with_jina.ai.py:32-50 | loading always yields a dictionary, with distinct keys |
| Jina.FoldAppend | docs/try_with_jina.ai.py:39-40 | a later row for the same URL overwrites the earlier value |
| Jina.ShortRowStopsLoading | docs/try_with_jina.ai.py:40-43 | a row without a path raises, and the rows read before it are kept |
| Jina.LoadSaved | docs/try_with_jina.ai.py:52-59 | loading a saved dictionary gives the same dictionary in the same order |
| Jina.AddRows | docs/try_with_jina.ai.py:63-72 | the header is written only into an empty file, and the new row goes last |
| Jina.LoadAfterAdd | docs/try_with_jina.ai.py:63-72 | loading after an append gives the old mapping with that URL set to that path |
| Jina.RecordedPathFound | docs/try_with_jina.ai.py:74-82 | after a URL's row is appended, looking it up finds its path |
| Jina.TargetFilename | docs/try_with_jina.ai.py:151-160 | a non-empty path argument decides the file name |
| Jina.UnrecordedUrlGetsGuess | docs/try_with_jina.ai.py:153-155 | a URL never recorded gets the guessed name in a non-interactive run |
| Jina.SecondRunReusesPath | docs/try_with_jina.ai.py:151-181 | after a run records a URL, a second non-interactive run targets the same file |
| Jina.CsvFile.constructor | docs/try_with_jina.ai.py:36 | a CSV file with its rows |
| Jina.CsvFile.Load | docs/try_with_jina.ai.py:32-43 | the row loop builds the loaded dictionary |
| Jina.CsvFile.Save | docs/try_with_jina.ai.py:52-61 | the file's rows become the saved rows |
| Jina.CsvFile.Add | docs/try_with_jina.ai.py:63-72 | the file's rows become the appended rows |
| Jina.DownloadRequest | docs/try_with_jina.ai.py:84-100 | only URLs starting with `http` are sent, as the reader prefix followed by the URL, with a bearer token exactly when an API key is given |
| Jina.DownloadMarkdown | docs/try_with_jina.ai.py:84-114 | a URL not starting with `http` is an error; for every `http` URL the result is the server's reply to the request |
| Jina.NonHttpMakesNoRequest | docs/try_with_jina.ai.py:86-90 | a refused URL does not depend on the server |
| Jina.Batch | docs/try_with_jina.ai.py:136-146 | the batch loop records at most one pair per entry |
| Jina.BatchKeeps | docs/try_with_jina.ai.py:134-147 | the batch loop keeps the pairs recorded before it and every file, and a file no later entry names keeps its content |
| Jina.BatchWritesEntry | docs/try_with_jina.ai.py:134-147 | in a batch that ends without error every entry was downloaded and its file written; a non-empty page is recorded, and the file holds it unless a later entry names the same file |
| Jina.BatchRecordsDownloads | docs/try_with_jina.ai.py:134-147 | every pair the batch loop records is an entry whose download succeeded with a non-empty page |
| Jina.BatchRowsAsWritten | docs/try_with_jina.ai.py:144 | as written, each recorded row carries `args.url` |
| Jina.BatchLosesUrlAsWritten | docs/try_with_jina.ai.py:144 | as written, a batch run without a positional URL records the empty URL, so a lookup of the downloaded URL falls back to the default |
| Jina.BatchRows | docs/try_with_jina.ai.py:134-147 | corrected: rows are recorded under each downloaded URL |
| Jina.RunBatch | docs/try_with_jina.ai.py:134-147 | the batch loop writes the specified files, stops at the specified error, and appends the specified rows to `url2path.csv` |
| Jina.LoadAfterAddAll | docs/try_with_jina.ai.py:63-72 | loading after several appends gives each pair set in order |
| Jina.PutAllFinds | docs/try_with_jina.ai.py:79 | with distinct keys, every pair set is found afterwards |
| Jina.BatchRecordsUnique | docs/try_with_jina.ai.py:136-144 | a batch over distinct URLs records each URL at most once |
| Jina.BatchRecordsFound | docs/try_with_jina.ai.py:134-147 | corrected: after a batch run, every saved URL is found in `url2path.csv` with the file it was saved to |

## Left out

- Network, subprocess and file reading are parameters of the model:
  - library and tool calls, `replicate.run`, the OpenAI client and `requests`/`urllib` downloads;
  - `os.path.exists` and file reading.
- A failing write of the output file is not modelled: every write succeeds. In the four Replicate wrappers and the DeepInfra one, such a failure would be the `Error:` exit; in the Jina batch, a crash.
- Base64 encoding: the payload is given as a string, or `None` when reading failed.
- URL parsing: `urlparse` is out, so the host and the path are given.
- PyStr.ParseInt: reads ASCII digits only, with single `_` between digits as Python allows. Python's `int()` also accepts other Unicode decimal digits; the page counts it parses are ASCII.
- `isalnum` and `lower` are ASCII-only. Python also keeps non-ASCII letters and digits; the model turns them into `_`.
- `str()` of list items that are not strings: list items are strings.
- Dictionary values in service replies are strings. A non-string `text` entry, which makes `write` raise, is not modelled.
- PdfPages.VisitPages: a plain specification function without its own contract. Its properties are the lemmas VisitPagesStep, VisitPagesAscending and VisitPagesCovers.
- PyStr.Join: a plain definition without its own contract. Its properties are the lemmas JoinSplit, SplitJoin and JoinSplitReplace.
- Floating-point size formatting (`size_kb:.1f`), `temperature`, and the token-usage report.
- The temporary file's creation and deletion, and `shutil.copy` failures. Copying is a flag on each page report.
- `verbose_print` and other stderr and stdout text of the wrappers, except where a finding is about it (Nougat's stderr).
- `argparse`, `main`'s file-existence check and exit codes. The interactive loop is also out: `input()` prompts, the overwrite loop and `$EDITOR`.
- Key files: `~` expansion and the split into lines. A key file is given as its lines, or as missing or unreadable.
- CSV quoting and encoding: `url2path.csv` is modelled at the level of rows of cells. A missing file reads as no rows.
- `os.makedirs` failures other than for a name without a directory.
- The single-URL run's writing of the file and of `raw/<file>`: only its choice of file name and its recording of the URL are modelled.
- `Jina.CsvFile`: the batch CSV and `url2path.csv` are separate objects; a run whose batch CSV is `url2path.csv` itself is not modelled.

## Findings

| source | as written | input that shows it | evidently intended | confidence | as-written member | corrected member |
|---|---|---|---|---|---|---|
| misc/code_samples/process_pdf_pages_one_by_one_as_image_example.py:105-110 | only `subprocess.SubprocessError` is caught, so a missing `magick` binary (`FileNotFoundError`) escapes the renderer loop | a machine without ImageMagick: the page run ends with an error at the first page and `pdftoppm` is never tried | a renderer that cannot run declines, so the next one is tried | high, not executed | PdfPages.MissingImagemagickAborts | PdfPages.RenderersFallBack |
| pdfextractors/cudanexus_nougat_replicate.py:70 | "Error: Unexpected output format from the API." is printed on every run that reaches the service | a reply that is a URL which downloads fine: the file is written and the error is still reported | the message only when the reply is not a usable URL | high, not executed | NougatPdf.SuccessReportsErrorAsWritten | NougatPdf.ConvertReportsOnlyRealErrors |
| docs/try_with_jina.ai.py:144 | batch mode records `args.url`, which is `None` (written as an empty cell) when only `-b` is given, instead of the URL just downloaded | `-b list.csv` holding a header line `url,path` and one row `https://example.com/a,example.com/a.md`: `url2path.csv` gets `,example.com/a.md`, and a later lookup of the URL misses | record the loop's `url` | high, not executed | Jina.BatchLosesUrlAsWritten | Jina.BatchRecordsFound |
| misc/code_samples/process_pdf_pages_one_by_one_as_image_example.py:117-119 | the script renames `<prefix>-1.png`, but `pdftoppm -png -f N -l N` writes `<prefix>-N.png` with N zero-padded to the digits of the document's page count, and the `FileNotFoundError` of the rename is not caught | ImageMagick exits non-zero and pdftoppm succeeds: a 2-page document raises at page 2, a 10-page one at page 1 | rename the file pdftoppm wrote for the requested page | high, not executed | PdfPages.PdftoppmRunStops | PdfPages.PdftoppmRunConvertsAll |

=== FILE: dataurls.dfy ===
/** `data:` URLs with base64 content (section 3 of RFC 2397), which the
    wrappers hand to the services in place of a file. The base64 encoding
    itself (section 4 of RFC 4648) is taken as a given string. */
module DataUrls {
  import opened Wrappers
  import opened PyStr

  /** A `data:` URL: the media type, then `;base64,`, then the encoded payload. */
  function DataUrl(mime: string, payload: string): string {
    "data:" + mime + ";base64," + payload
  }

  /** Reads a `data:` URL back into its media type, which runs up to the first
      `;`, and its payload, which follows the `;base64,` marker. */
  function ParseDataUrl(url: string): (r: Option<(string, string)>)
    ensures r.Some? ==> ';' !in r.value.0 && DataUrl(r.value.0, r.value.1) == url
  {
    if !("data:" <= url) then None
    else
      var rest := url[5..];
      var i := IndexOf(rest, ';');
      if i < |rest| && ";base64," <= rest[i..] then
        DataUrlParts(url, i);
        Some((rest[..i], rest[i + 8..]))
      else None
  }

  /** A `data:` URL whose `;base64,` marker starts at position `i` of the part
      after `data:` is rebuilt from the two pieces around the marker. */
  lemma DataUrlParts(url: string, i: nat)
    requires "data:" <= url && 5 + i + 8 <= |url| && ";base64," <= url[5..][i..]
    ensures url == DataUrl(url[5..][..i], url[5..][i + 8..])
  {
    var rest := url[5..];
    assert url == "data:" + rest;
    assert rest[i..] == ";base64," + rest[i + 8..];
    assert rest == rest[..i] + ";base64," + rest[i + 8..];
  }

  /** A media type without `;` and any payload come back out of their URL. */
  lemma ParseDataUrlOfDataUrl(mime: string, payload: string)
    requires ';' !in mime
    ensures ParseDataUrl(DataUrl(mime, payload)) == Some((mime, payload))
  {
    var url := DataUrl(mime, payload);
    var rest := mime + ";base64," + payload;
    assert "data:" <= url;
    assert url[5..] == rest;
    assert IndexOf(rest, ';') == |mime| by {
      assert rest[|mime|] == ';';
      forall k | 0 <= k < |mime| ensures rest[k] != ';' {
        assert rest[k] == mime[k];
      }
    }
    assert rest[|mime|..] == ";base64," + payload;
    assert rest[..|mime|] == mime;
    assert rest[|mime| + 8..] == payload;
  }
}

=== FILE: deepinfra.dfy ===
/** The DeepSeek-OCR wrapper for DeepInfra's OpenAI-compatible API
    (imgextractors/deepseek_ocr_deepinfra.py): the prompt for a task, the MIME
    type of the image, the chat request, and one run of the script. The token
    check lives in `KeyFile`, the output name in `FileNames`. */
module DeepinfraOcr {
  import opened Wrappers
  import opened PyStr
  import opened PyPath
  import opened FileNames
  import opened DataUrls
  import opened Runs

  /** The placeholder line every built-in prompt opens with. */
  const ImageTag: string := "<image>\n"

  const FreeOcrPrompt: string := ImageTag + "Free OCR."

  /** The `prompts` table of `get_task_prompt`. */
  const TaskPrompts: map<string, string> := map[
    "Convert to Markdown" := ImageTag + "<|grounding|>Convert the document to markdown.",
    "Free OCR" := FreeOcrPrompt,
    "Parse Figure" := ImageTag + "Parse the figure.",
    "Extract Tables" := ImageTag + "Extract all tables from this document.",
    "Extract Formulas" := ImageTag + "Extract all mathematical formulas in LaTeX format."
  ]

  predicate ImagePrompt(p: string) {
    ImageTag <= p
  }

  /** `get_task_prompt(task_type, custom_prompt)` */
  function TaskPrompt(task: string, custom: Option<string>): (r: string)
    ensures Given(custom) ==> r == custom.value
    ensures !Given(custom) ==> ImagePrompt(r)
    ensures !Given(custom) && task in TaskPrompts ==> r == TaskPrompts[task]
    ensures !Given(custom) && task !in TaskPrompts ==> r == FreeOcrPrompt
  {
    if Given(custom) then custom.value
    else if task in TaskPrompts then
      BuiltInPromptsShowImage(task);
      TaskPrompts[task]
    else FreeOcrPrompt
  }

  lemma BuiltInPromptsShowImage(task: string)
    requires task in TaskPrompts
    ensures ImagePrompt(TaskPrompts[task])
  {
    assert task in {"Convert to Markdown", "Free OCR", "Parse Figure", "Extract Tables", "Extract Formulas"};
  }

  /** Different built-in tasks ask for different things: the prompt identifies the task. */
  lemma TaskPromptsDistinct(t1: string, t2: string)
    requires t1 in TaskPrompts && t2 in TaskPrompts && t1 != t2
    ensures TaskPrompt(t1, None) != TaskPrompt(t2, None)
  {
    var p1, p2 := TaskPrompts[t1], TaskPrompts[t2];
    assert p1[8] != p2[8] || |p1| != |p2|;
  }

  /** The `mime_types` table, keyed by lower-cased extension. */
  const MimeTypes: map<string, string> := map[
    ".jpg" := "image/jpeg",
    ".jpeg" := "image/jpeg",
    ".png" := "image/png",
    ".gif" := "image/gif",
    ".webp" := "image/webp"
  ]

  const DefaultMimeType: string := "image/jpeg"

  /** The media type sent for an image: looked up by its lower-cased extension,
      JPEG for an extension the table does not list. */
  function MimeType(path: string): (r: string)
    ensures "image/" <= r && ';' !in r
  {
    var ext := LowerStr(SplitExt(path).1);
    var r := if ext in MimeTypes then MimeTypes[ext] else DefaultMimeType;
    MimeTypeValues(ext);
    ImageMime(r);
    r
  }

  /** The table's entries and the default are the four image types. */
  lemma MimeTypeValues(ext: string)
    ensures ext in MimeTypes ==> MimeTypes[ext] in ImageMimes
    ensures DefaultMimeType in ImageMimes
  {
  }

  const ImageMimes: set<string> := {"image/jpeg", "image/png", "image/gif", "image/webp"}

  lemma ImageMime(m: string)
    requires m in ImageMimes
    ensures "image/" <= m && ';' !in m
  {
  }

  /** Only the last component of the path decides the MIME type. */
  lemma MimeTypeOfBasename(path: string)
    ensures MimeType(Basename(path)) == MimeType(path)
  {
    SplitExtOfBasename(path);
  }

  /** An extension the table does not list, or none at all, gets JPEG. */
  lemma MimeTypeDefault(path: string)
    ensures LowerStr(SplitExt(path).1) !in MimeTypes ==> MimeType(path) == "image/jpeg"
    ensures '.' !in Basename(path) ==> MimeType(path) == "image/jpeg"
  {
    var b := Basename(path);
    if '.' !in b {
      SplitExtOfBasename(path);
      LastIndexOfUnique(b, '.', -1);
      assert SplitExt(b).1 == "";
      assert LowerStr("") == "";
    }
  }

  /** A known extension in any letter case selects its entry; the file name
      in front of it does not matter. */
  lemma MimeTypeOfExtension(name: string, ext: string)
    requires !OnlyDots(Basename(name))
    requires ext != [] && ext[0] == '.' && ExtensionTail(ext)
    requires LowerStr(ext) in MimeTypes
    ensures MimeType(name + ext) == MimeTypes[LowerStr(ext)]
  {
    SplitExtAppend(name, ext);
  }

  /** The data URL the request carries: the image's media type and its Base64 text. */
  function ImageUrl(path: string, payload: string): (r: string)
    ensures ParseDataUrl(r) == Some((MimeType(path), payload))
  {
    ParseDataUrlOfDataUrl(MimeType(path), payload);
    DataUrl(MimeType(path), payload)
  }

  const Model: string := "deepseek-ai/DeepSeek-OCR"
  const BaseUrl: string := "https://api.deepinfra.com/v1/openai"

  /** The one `chat.completions.create` request: a user message holding the
      image URL and the prompt. The temperature is left out (a float). */
  datatype ChatRequest = ChatRequest(model: string, imageUrl: string, prompt: string, maxTokens: int)

  /** `extract_with_deepseek_ocr`, from the output name on. `payload` is the
      base64 text of the input, `None` when reading it failed; `call` is the
      service, answering the message content or an error. */
  function Extract(input: string, output: Option<string>, task: string, custom: Option<string>, maxTokens: int,
                   force: bool, existing: set<string>, payload: Option<string>,
                   call: ChatRequest -> Result<string>): (r: RunOutcome)
    ensures r.Skipped? <==> ShouldSkip(TaskOutputFilename(input, output, task), force, existing)
    ensures r.Skipped? || r.Wrote? ==> r.name == TaskOutputFilename(input, output, task)
  {
    var name := TaskOutputFilename(input, output, task);
    if ShouldSkip(name, force, existing) then Skipped(name)
    else if payload.None? then ErrorExit("cannot read " + input)
    else
      var request := ChatRequest(Model, ImageUrl(input, payload.value), TaskPrompt(task, custom), maxTokens);
      match call(request)
      case Ok(content) => Wrote(name, content)
      case Err(e) => ErrorExit(e)
  }

  /** A skipped run makes no request: its outcome is the same whatever the
      service would have answered. */
  lemma SkipMakesNoRequest(input: string, output: Option<string>, task: string, custom: Option<string>, maxTokens: int,
                           force: bool, existing: set<string>, payload: Option<string>,
                           call1: ChatRequest -> Result<string>, call2: ChatRequest -> Result<string>)
    requires ShouldSkip(TaskOutputFilename(input, output, task), force, existing)
    ensures Extract(input, output, task, custom, maxTokens, force, existing, payload, call1)
         == Extract(input, output, task, custom, maxTokens, force, existing, payload, call2)
  {
  }

  /** A run that is not skipped and can read its input sends exactly one
      request, carrying the image as a `data:` URL of its MIME type and the
      task's prompt, and writes the service's answer to the output name. */
  lemma ExtractSendsImage(input: string, output: Option<string>, task: string, custom: Option<string>, maxTokens: int,
                          force: bool, existing: set<string>, payload: string, call: ChatRequest -> Result<string>)
    requires !ShouldSkip(TaskOutputFilename(input, output, task), force, existing)
    ensures var request := ChatRequest(Model, ImageUrl(input, payload), TaskPrompt(task, custom), maxTokens);
      && ParseDataUrl(request.imageUrl) == Some((MimeType(input), payload))
      && Extract(input, output, task, custom, maxTokens, force, existing, Some(payload), call)
         == (if call(request).Ok? then Wrote(TaskOutputFilename(input, output, task), call(request).value)
             else ErrorExit(call(request).error))
  {
  }
}

=== FILE: fallback.dfy ===
/** Ordered-fallback resolution: a fixed list of candidates is tried in order
    and the first one that produces a value wins. A candidate's answer on one
    input is an `Option`: `None` means "try the next one". */
module Fallback {
  import opened Wrappers

  /** Index of the first present value, or `|xs|` when there is none. */
  function FirstIndex<T>(xs: seq<Option<T>>): (i: nat)
    ensures i <= |xs|
    ensures i < |xs| ==> xs[i].Some?
    ensures forall k :: 0 <= k < i ==> xs[k].None?
  {
    if xs == [] then 0 else if xs[0].Some? then 0 else 1 + FirstIndex(xs[1..])
  }

  /** `FirstIndex` is the only index with its defining property. */
  lemma {:induction false} FirstIndexUnique<T>(xs: seq<Option<T>>, i: nat)
    requires i <= |xs|
    requires i < |xs| ==> xs[i].Some?
    requires forall k :: 0 <= k < i ==> xs[k].None?
    ensures FirstIndex(xs) == i
  {
    if xs != [] && i > 0 {
      FirstIndexUnique(xs[1..], i - 1);
    }
  }

  /** The value the list resolves to: the first present one, or `None` when
      every candidate came back empty (an empty list included). */
  function FirstSome<T>(xs: seq<Option<T>>): (r: Option<T>)
    ensures r.None? <==> forall k :: 0 <= k < |xs| ==> xs[k].None?
    ensures r.Some? ==> FirstIndex(xs) < |xs| && xs[FirstIndex(xs)] == r
  {
    var i := FirstIndex(xs);
    if i < |xs| then xs[i] else None
  }

  /** How many candidates a resolution invokes: those up to and including the
      first that succeeds, or all of them when none does. */
  function Attempts<T>(xs: seq<Option<T>>): (n: nat)
    ensures n <= |xs|
    ensures FirstSome(xs).Some? ==> n >= 1 && xs[n - 1] == FirstSome(xs)
    ensures FirstSome(xs).None? ==> n == |xs|
    ensures forall k :: 0 <= k < n - 1 ==> xs[k].None?
  {
    var i := FirstIndex(xs);
    if i < |xs| then i + 1 else |xs|
  }

  /** A candidate after the winner has no influence on the result. */
  lemma {:induction false} LaterCandidatesIgnored<T>(xs: seq<Option<T>>, ys: seq<Option<T>>)
    requires FirstSome(xs).Some?
    ensures FirstSome(xs + ys) == FirstSome(xs)
    ensures Attempts(xs + ys) == Attempts(xs)
  {
    var i := FirstIndex(xs);
    FirstIndexUnique(xs + ys, i);
  }

  /** Candidates that all came back empty in front of the list change nothing
      but the number of attempts. */
  lemma {:induction false} EmptyCandidatesSkipped<T>(xs: seq<Option<T>>, ys: seq<Option<T>>)
    requires forall k :: 0 <= k < |xs| ==> xs[k].None?
    ensures FirstSome(xs + ys) == FirstSome(ys)
    ensures Attempts(xs + ys) == |xs| + Attempts(ys)
  {
    var j := FirstIndex(ys);
    FirstIndexUnique(xs + ys, |xs| + j);
  }

  /** The answers of one candidate function on each input, in order. */
  function Candidates<A, T>(f: A -> Option<T>, inputs: seq<A>): (xs: seq<Option<T>>)
    ensures |xs| == |inputs|
    ensures forall i :: 0 <= i < |inputs| ==> xs[i] == f(inputs[i])
  {
    seq(|inputs|, i requires 0 <= i < |inputs| => f(inputs[i]))
  }

  lemma CandidatesAppend<A, T>(f: A -> Option<T>, inputs: seq<A>, more: seq<A>)
    ensures Candidates(f, inputs + more) == Candidates(f, inputs) + Candidates(f, more)
  {
  }

  /** A loop over `inputs` that stops at the first one `f` answers; `scanned`
      counts the inputs looked at. */
  method ScanFirst<A, T>(f: A -> Option<T>, inputs: seq<A>) returns (r: Option<T>, scanned: nat)
    ensures r == FirstSome(Candidates(f, inputs))
    ensures scanned == Attempts(Candidates(f, inputs))
    ensures r.Some? ==> 1 <= scanned <= |inputs| && f(inputs[scanned - 1]) == r
    ensures r.None? ==> scanned == |inputs|
  {
    ghost var xs := Candidates(f, inputs);
    scanned := 0;
    while scanned < |inputs|
      invariant scanned <= |inputs|
      invariant forall k :: 0 <= k < scanned ==> xs[k].None?
    {
      r := f(inputs[scanned]);
      scanned := scanned + 1;
      if r.Some? {
        FirstIndexUnique(xs, scanned - 1);
        return;
      }
    }
    FirstIndexUnique(xs, |xs|);
    r := None;
  }
}

=== FILE: filenames.dfy ===
/** Output-name derivation shared by the five OCR and PDF wrappers: every one of
    them carries the same `normalize_filename`, and they differ only in how the
    default name's extension is chosen (imgextractors/deepseek_ocr_deepinfra.py,
    imgextractors/lucataco_deepseek_ocr_replicate.py,
    imgextractors/cudanexus_ocr_surya_replicate.py,
    pdfextractors/cudanexus_nougat_replicate.py,
    pdfextractors/cuuupid_marker_replicate.py). */
module FileNames {
  import opened Wrappers
  import opened PyStr
  import opened PyPath

  /** The `max_length=64` default of `normalize_filename`. */
  const DefaultMaxLength: nat := 64

  function Min(a: int, b: int): int { if a <= b then a else b }

  /** The part of a path that `normalize_filename` keeps: the last component
      with its extension removed. */
  function Stem(filename: string): (r: string)
    ensures r <= Basename(filename)
    ensures '/' !in r
  {
    SplitExt(Basename(filename)).0
  }

  /** The characters a normalized name is made of. */
  predicate IsNameChar(c: char) {
    IsDigit(c) || 'a' <= c <= 'z' || c == '_'
  }

  /** One character of a normalized name: a letter or digit in lower case,
      anything else replaced by an underscore. */
  function NormalizeChar(c: char): (r: char)
    ensures IsNameChar(r)
    ensures IsNameChar(c) ==> r == c
    ensures r == '_' <==> !IsAsciiAlnum(c)
  {
    if IsAsciiAlnum(c) then Lower(c) else '_'
  }

  /** `normalize_filename(filename, max_length)` */
  function NormalizeFilename(filename: string, maxLength: nat): (r: string)
    ensures |r| <= maxLength
    ensures |r| == Min(|Stem(filename)|, maxLength)
    ensures forall i :: 0 <= i < |r| ==> IsNameChar(r[i])
  {
    var base := Stem(filename);
    var n := NormalizeChars(base);
    NameCharsPrefix(n, Min(|base|, maxLength));
    n[..Min(|base|, maxLength)]
  }

  /** Every character of a prefix of a string of name characters is one. */
  lemma NameCharsPrefix(n: string, m: nat)
    requires m <= |n|
    requires forall i :: 0 <= i < |n| ==> IsNameChar(n[i])
    ensures forall i :: 0 <= i < m ==> IsNameChar(n[..m][i])
  {
  }

  /** Every character of `s` mapped through `NormalizeChar`, in order. */
  function NormalizeChars(s: string): (r: string)
    ensures |r| == |s|
    ensures forall i :: 0 <= i < |s| ==> r[i] == NormalizeChar(s[i])
    ensures forall i :: 0 <= i < |r| ==> IsNameChar(r[i])
  {
    if s == [] then [] else [NormalizeChar(s[0])] + NormalizeChars(s[1..])
  }

  /** Character by character, the normalized name is the stem mapped through
      `NormalizeChar`, cut at `maxLength`. */
  lemma NormalizeFilenameAt(filename: string, maxLength: nat, i: int)
    requires 0 <= i < |NormalizeFilename(filename, maxLength)|
    ensures NormalizeFilename(filename, maxLength)[i] == NormalizeChar(Stem(filename)[i])
  {
  }

  /** A normalized name has no `/` and no `.`, so normalizing it again changes nothing. */
  lemma NormalizeIdempotent(filename: string, maxLength: nat)
    ensures var r := NormalizeFilename(filename, maxLength);
      NormalizeFilename(r, maxLength) == r
  {
    var r := NormalizeFilename(filename, maxLength);
    NoSeparators(r);
    PlainName(r);
    assert Stem(r) == r;
    var r2 := NormalizeFilename(r, maxLength);
    assert |r2| == |r|;
    forall i | 0 <= i < |r| ensures r2[i] == r[i] {
      NormalizeFilenameAt(r, maxLength, i);
    }
  }

  lemma NoSeparators(r: string)
    requires forall i :: 0 <= i < |r| ==> IsNameChar(r[i])
    ensures '/' !in r && '.' !in r
  {
  }

  /** The directory part of the input never reaches the output name. */
  lemma NormalizeIgnoresDirectory(dir: string, name: string, maxLength: nat)
    ensures NormalizeFilename(dir + "/" + name, maxLength) == NormalizeFilename(name, maxLength)
  {
    BasenameUnderDirectory(dir, name);
  }

  /** The normalized name is empty exactly when the input's last component is
      empty (an input ending in `/`), given a positive length limit. */
  lemma NormalizeEmptyIff(filename: string, maxLength: nat)
    requires maxLength > 0
    ensures NormalizeFilename(filename, maxLength) == "" <==> Basename(filename) == ""
  {
    var b := Basename(filename);
    if SplitExt(b).1 != [] {
      SplitExtKeepsName(b);
      assert Stem(filename) != [];
    } else {
      assert Stem(filename) == b;
    }
  }

  // ---------------------------------------------------------------- default names

  /** `if output_filename:` treats both `None` and the empty string as absent. */
  predicate Given(output: Option<string>) {
    output.Some? && output.value != ""
  }

  /** `output_filename` when given, else the normalized input stem plus `ext`:
      the shape of every `generate_output_filename` except that of the marker
      wrapper. */
  function OutputOrDefault(input: string, output: Option<string>, ext: string): (r: string)
    ensures Given(output) ==> r == output.value
    ensures !Given(output) ==> |r| <= DefaultMaxLength + |ext|
  {
    if Given(output) then output.value else NormalizeFilename(input, DefaultMaxLength) + ext
  }

  /** A default name lies in the current directory and splits back into the
      normalized input stem and the chosen extension, whenever the input's
      last component is not empty. */
  lemma DefaultNameSplits(input: string, ext: string)
    requires Basename(input) != ""
    requires ext != [] && ext[0] == '.' && ExtensionTail(ext)
    ensures var r := OutputOrDefault(input, None, ext);
      '/' !in r && SplitExt(r) == (NormalizeFilename(input, DefaultMaxLength), ext)
  {
    var stem := NormalizeFilename(input, DefaultMaxLength);
    NormalizeEmptyIff(input, DefaultMaxLength);
    NoSeparators(stem);
    SplitExtOfJoin(stem, ext);
    assert '/' !in stem + ext by {
      assert forall k :: 0 <= k < |ext| ==> ext[k] != '/';
    }
  }

  /** Whether the task name mentions Markdown, in any mix of cases. */
  predicate IsMarkdownTask(task: string) {
    Contains(LowerStr(task), "markdown")
  }

  /** `generate_output_filename(input, output, task_type)` of the two DeepSeek-OCR
      wrappers: `.md` for a markdown task, `.txt` otherwise. */
  function TaskOutputFilename(input: string, output: Option<string>, task: string): (r: string)
    ensures Given(output) ==> r == output.value
  {
    OutputOrDefault(input, output, if IsMarkdownTask(task) then ".md" else ".txt")
  }

  /** Without an explicit output, the extension is `.md` exactly for a task
      whose name contains "markdown" in any letter case, and `.txt` otherwise. */
  lemma TaskOutputExtension(input: string, task: string)
    requires Basename(input) != ""
    ensures SplitExt(TaskOutputFilename(input, None, task)).1
      == if IsMarkdownTask(task) then ".md" else ".txt"
  {
    var ext := if IsMarkdownTask(task) then ".md" else ".txt";
    DefaultNameSplits(input, ext);
  }

  /** The default task "Convert to Markdown" writes a `.md` file. */
  lemma DefaultTaskIsMarkdown(input: string)
    ensures TaskOutputFilename(input, None, "Convert to Markdown")
      == NormalizeFilename(input, DefaultMaxLength) + ".md"
  {
    var t := LowerStr("Convert to Markdown");
    assert t[11..19] == "markdown" by {
      assert forall i :: 11 <= i < 19 ==> t[i] == Lower("Convert to Markdown"[i]);
    }
    ContainsIff(t, "markdown");
    assert OccursAt(t, "markdown", 11);
  }
}

=== FILE: jina.dfy ===
/** The Jina Reader download script (docs/try_with_jina.ai.py): the file name
    guessed from a URL, the `url2path.csv` mapping from URLs to saved paths
    (loaded into an insertion-ordered dictionary, saved, appended to), the
    `r.jina.ai` request, and the batch mode that downloads every URL of a CSV
    file and records what it saved. */
module Jina {
  import opened Wrappers
  import opened PyStr
  import opened PyPath

  // ---------------------------------------------------------------- file names

  /** `get_topic(url)` on the URL's path component: strip `/` at both ends and
      join the remaining pieces with `_`. */
  function GetTopic(path: string): (r: string)
    ensures r == Replace(StripChar(path, '/'), '/', '_')
    ensures '/' !in r
  {
    var s := StripChar(path, '/');
    JoinSplitReplace(s, '/', '_');
    var r := Join(Split(s, '/'), '_');
    assert forall k :: 0 <= k < |r| ==> r[k] != '/' by {
      forall k | 0 <= k < |r| ensures r[k] != '/' {
        assert r[k] == if s[k] == '/' then '_' else s[k];
      }
    }
    r
  }

  /** `guess_filename(url)`, given the URL's network location and path: a
      file directly inside the directory named after the host. */
  function GuessFilename(netloc: string, path: string): (r: string)
    ensures |r| > |netloc| && r[..|netloc| + 1] == netloc + "/"
    ensures '/' !in netloc ==> '/' !in r[|netloc| + 1..]
  {
    var r := netloc + "/" + netloc + "_" + GetTopic(path) + ".md";
    assert '/' !in netloc ==> '/' !in netloc + "_" + GetTopic(path) + ".md" by {
      if '/' !in netloc {
        NoSlash(netloc, GetTopic(path), ".md");
      }
    }
    assert r[|netloc| + 1..] == netloc + "_" + GetTopic(path) + ".md";
    r
  }

  /** The guessed file lies in a directory named after the host, is named
      `<host>_<topic>` and has the extension `.md`. */
  lemma GuessFilenameShape(netloc: string, path: string)
    requires '/' !in netloc
    ensures var topic := GetTopic(path);
      && Basename(GuessFilename(netloc, path)) == netloc + "_" + topic + ".md"
      && SplitExt(GuessFilename(netloc, path)) == (netloc + "/" + netloc + "_" + topic, ".md")
  {
    HostTopicShape(netloc, GetTopic(path));
  }

  lemma HostTopicShape(netloc: string, topic: string)
    requires '/' !in netloc && '/' !in topic
    ensures Basename(netloc + "/" + netloc + "_" + topic + ".md") == netloc + "_" + topic + ".md"
    ensures SplitExt(netloc + "/" + netloc + "_" + topic + ".md") == (netloc + "/" + netloc + "_" + topic, ".md")
  {
    var stem := netloc + "_" + topic;
    NoSlash(netloc, topic, "");
    assert stem + "" == stem;
    NoSlash(netloc, topic, ".md");
    NotOnlyDots(stem, |netloc|);
    MarkdownInDirectory(netloc, stem);
    assert netloc + "/" + stem + ".md" == netloc + "/" + netloc + "_" + topic + ".md";
  }

  /** `<dir>/<stem>.md` has basename `<stem>.md` and extension `.md`. */
  lemma MarkdownInDirectory(dir: string, stem: string)
    requires '/' !in stem && '/' !in stem + ".md" && !OnlyDots(stem)
    ensures Basename(dir + "/" + stem + ".md") == stem + ".md"
    ensures SplitExt(dir + "/" + stem + ".md") == (dir + "/" + stem, ".md")
  {
    var name := stem + ".md";
    assert dir + "/" + stem + ".md" == dir + "/" + name;
    FileInDirectory(dir, name);
    FileInDirectory(dir, stem);
    SplitExtAppend(dir + "/" + stem, ".md");
  }

  /** A name without `/` under a directory is the basename of the whole. */
  lemma FileInDirectory(dir: string, name: string)
    requires '/' !in name
    ensures Basename(dir + "/" + name) == name
  {
    BasenameUnderDirectory(dir, name);
    LastIndexOfUnique(name, '/', -1);
  }

  lemma NoSlash(netloc: string, topic: string, ext: string)
    requires '/' !in netloc && '/' !in topic && '/' !in ext
    ensures '/' !in netloc + "_" + topic + ext
  {
    var s := netloc + "_" + topic + ext;
    forall k | 0 <= k < |s| ensures s[k] != '/' {
      if k < |netloc| {
        assert s[k] == netloc[k];
      } else if |netloc| < k < |netloc| + 1 + |topic| {
        assert s[k] == topic[k - |netloc| - 1];
      } else if k >= |netloc| + 1 + |topic| {
        assert s[k] == ext[k - |netloc| - 1 - |topic|];
      }
    }
  }

  /** A name without `/` is its own basename. */
  lemma NoSlashBasename(s: string)
    requires '/' !in s
    ensures Basename(s) == s
  {
    LastIndexOfUnique(s, '/', -1);
  }

  /** A string with a character other than `.` is not made of dots only. */
  lemma {:induction false} NotOnlyDots(s: string, k: nat)
    requires k < |s| && s[k] != '.'
    ensures !OnlyDots(s)
  {
    if k > 0 {
      NotOnlyDots(s[1..], k - 1);
    }
  }

  // ---------------------------------------------------------------- dictionaries

  /** A Python `dict` from strings to strings, as its items in insertion order. */
  type Dict = seq<(string, string)>

  predicate UniqueKeys(d: Dict) {
    forall i, j :: 0 <= i < j < |d| ==> d[i].0 != d[j].0
  }

  /** The position of key `k` in `d`, or `|d|` when it is absent. */
  function KeyIndex(d: Dict, k: string): (i: nat)
    ensures i <= |d|
    ensures i < |d| ==> d[i].0 == k
    ensures forall j :: 0 <= j < i ==> d[j].0 != k
  {
    if d == [] then 0 else if d[0].0 == k then 0 else 1 + KeyIndex(d[1..], k)
  }

  /** `d.get(k)` */
  function DictGet(d: Dict, k: string): (r: Option<string>)
    ensures r.None? <==> forall i :: 0 <= i < |d| ==> d[i].0 != k
    ensures UniqueKeys(d) ==> forall i :: 0 <= i < |d| && d[i].0 == k ==> r == Some(d[i].1)
  {
    var i := KeyIndex(d, k);
    if i == |d| then None else Some(d[i].1)
  }

  /** `d[k] = v`: an existing key keeps its place and gets the new value, a new
      key goes last. */
  function DictPut(d: Dict, k: string, v: string): (r: Dict)
    ensures DictGet(r, k) == Some(v)
    ensures forall k' :: k' != k ==> DictGet(r, k') == DictGet(d, k')
    ensures DictGet(d, k).None? ==> r == d + [(k, v)]
    ensures DictGet(d, k).Some? ==> |r| == |d| && forall i :: 0 <= i < |d| ==> r[i].0 == d[i].0
    ensures UniqueKeys(d) ==> UniqueKeys(r)
  {
    var i := KeyIndex(d, k);
    var r := if i == |d| then d + [(k, v)] else d[i := (k, v)];
    KeyIndexUnique(r, k, i);
    forall k' | k' != k ensures DictGet(r, k') == DictGet(d, k') {
      var j := KeyIndex(d, k');
      if j < |d| {
        assert r[j] == d[j];
        KeyIndexUnique(r, k', j);
      } else if i == |d| {
        KeyIndexUnique(r, k', |r|);
      } else {
        KeyIndexUnique(r, k', |r|);
      }
    }
    r
  }

  /** `KeyIndex` is the only index with its defining property. */
  lemma {:induction false} KeyIndexUnique(d: Dict, k: string, i: nat)
    requires i <= |d|
    requires i < |d| ==> d[i].0 == k
    requires forall j :: 0 <= j < i ==> d[j].0 != k
    ensures KeyIndex(d, k) == i
  {
    if d != [] && i > 0 {
      KeyIndexUnique(d[1..], k, i - 1);
    }
  }

  // ---------------------------------------------------------------- url2path.csv

  /** A CSV file as its rows of cells; a file that does not exist reads as no rows. */
  type Rows = seq<seq<string>>

  const Header: seq<string> := ["url", "path"]

  /** Every row after the first (the header) has a URL and a path. */
  predicate WellFormedBody(rows: Rows) {
    forall i :: 1 <= i < |rows| ==> |rows[i]| >= 2
  }

  /** The loop of `load_url2path_csv` from dictionary `acc` on: each row maps
      its first cell to its second; a row with fewer than two cells raises,
      and the handler returns the dictionary built so far. */
  function FoldRows(rows: Rows, acc: Dict): (r: Dict)
    ensures UniqueKeys(acc) ==> UniqueKeys(r)
  {
    if rows == [] || |rows[0]| < 2 then acc
    else FoldRows(rows[1..], DictPut(acc, rows[0][0], rows[0][1]))
  }

  /** `load_url2path_csv(csv_db)`: skip the header, fold the rest; an empty
      or missing file gives the empty dictionary. */
  function LoadRows(rows: Rows): (r: Dict)
    ensures UniqueKeys(r)
  {
    if rows == [] then [] else FoldRows(rows[1..], [])
  }

  /** The rows `save_url2path_csv` writes: the header, then one row per item. */
  function SaveRows(d: Dict): Rows {
    [Header] + PairRows(d)
  }

  function PairRows(d: Dict): (rows: Rows)
    ensures |rows| == |d|
    ensures forall i :: 0 <= i < |d| ==> rows[i] == [d[i].0, d[i].1]
  {
    seq(|d|, i requires 0 <= i < |d| => [d[i].0, d[i].1])
  }

  /** The rows after `add_to_url2path_csv(url, path)`: the header first when
      the file was empty, then the new row at the end. */
  function AddRows(rows: Rows, url: string, path: string): (r: Rows)
    ensures |r| == |rows| + (if rows == [] then 2 else 1) && r[|r| - 1] == [url, path]
    ensures rows == [] ==> r == [Header, [url, path]]
    ensures rows != [] ==> r == rows + [[url, path]]
    ensures WellFormedBody(rows) ==> WellFormedBody(r)
  {
    (if rows == [] then [Header] else rows) + [[url, path]]
  }

  /** A later row for the same URL overwrites the earlier one, in place. */
  lemma {:induction false} FoldAppend(rows: Rows, row: seq<string>, acc: Dict)
    requires forall i :: 0 <= i < |rows| ==> |rows[i]| >= 2
    requires |row| >= 2
    ensures FoldRows(rows + [row], acc) == DictPut(FoldRows(rows, acc), row[0], row[1])
  {
    if rows != [] {
      assert (rows + [row])[1..] == rows[1..] + [row];
      FoldAppend(rows[1..], row, DictPut(acc, rows[0][0], rows[0][1]));
    }
  }

  /** Loading stops at the first row without a path: what follows is ignored. */
  lemma {:induction false} ShortRowStopsLoading(rows: Rows, short: seq<string>, rest: Rows, acc: Dict)
    requires forall i :: 0 <= i < |rows| ==> |rows[i]| >= 2
    requires |short| < 2
    ensures FoldRows(rows + [short] + rest, acc) == FoldRows(rows, acc)
  {
    if rows == [] {
      assert ([short] + rest)[0] == short;
    } else {
      assert (rows + [short] + rest)[1..] == rows[1..] + [short] + rest;
      ShortRowStopsLoading(rows[1..], short, rest, DictPut(acc, rows[0][0], rows[0][1]));
    }
  }

  /** Saving a dictionary and loading it back gives the same dictionary, in
      the same order. */
  lemma LoadSaved(d: Dict)
    requires UniqueKeys(d)
    ensures LoadRows(SaveRows(d)) == d
  {
    assert SaveRows(d)[1..] == PairRows(d);
    FoldPairs([], d);
    assert [] + d == d;
  }

  lemma {:induction false} FoldPairs(done: Dict, todo: Dict)
    requires UniqueKeys(done + todo)
    ensures FoldRows(PairRows(todo), done) == done + todo
    decreases |todo|
  {
    if todo != [] {
      var e := todo[0];
      assert (done + todo)[|done|] == e;
      assert DictGet(done, e.0).None? by {
        forall i | 0 <= i < |done| ensures done[i].0 != e.0 {
          assert (done + todo)[i] == done[i];
        }
      }
      assert PairRows(todo)[1..] == PairRows(todo[1..]);
      assert (done + [e]) + todo[1..] == done + todo;
      FoldPairs(done + [e], todo[1..]);
    }
  }

  /** Adding a row and loading gives the old mapping with that URL set to
      that path. */
  lemma LoadAfterAdd(rows: Rows, url: string, path: string)
    requires WellFormedBody(rows)
    ensures LoadRows(AddRows(rows, url, path)) == DictPut(LoadRows(rows), url, path)
  {
    if rows != [] {
      assert AddRows(rows, url, path)[1..] == rows[1..] + [[url, path]];
      assert forall i :: 0 <= i < |rows[1..]| ==> |rows[1..][i]| >= 2 by {
        forall i | 0 <= i < |rows[1..]| ensures |rows[1..][i]| >= 2 {
          assert rows[1..][i] == rows[i + 1];
        }
      }
      FoldAppend(rows[1..], [url, path], []);
    } else {
      var r := AddRows(rows, url, path);
      assert r[1..] == [[url, path]];
      assert FoldRows(r[1..], []) == FoldRows([], DictPut([], url, path));
    }
  }

  /** `get_path_from_mapping_or_default(url, default_path, url2path)`: the
      mapping given, or the one loaded from `url2path.csv` (`dbRows`). */
  function PathFromMappingOrDefault(url: string, defaultPath: string, mapping: Option<Dict>, dbRows: Rows): string {
    var m := if mapping.Some? then mapping.value else LoadRows(dbRows);
    match DictGet(m, url)
    case Some(p) => p
    case None => defaultPath
  }

  /** Once a download is recorded, a later lookup of its URL finds its path. */
  lemma RecordedPathFound(rows: Rows, url: string, path: string, defaultPath: string)
    requires WellFormedBody(rows)
    ensures PathFromMappingOrDefault(url, defaultPath, None, AddRows(rows, url, path)) == path
  {
    LoadAfterAdd(rows, url, path);
  }

  /** The file name the single-URL branch of `main` starts from: the `path`
      argument when given; otherwise the guess, replaced by the path recorded
      for the URL in `url2path.csv` (`dbRows`), then by the user's answer when
      the run is interactive and the answer is not empty (`answer` is `None`
      with `-y`). */
  function TargetFilename(url: string, netloc: string, urlPath: string, pathArg: Option<string>,
                          dbRows: Rows, answer: Option<string>): (r: string)
    ensures pathArg.Some? && pathArg.value != "" ==> r == pathArg.value
  {
    if pathArg.Some? && pathArg.value != "" then pathArg.value
    else
      var guessed := PathFromMappingOrDefault(url, GuessFilename(netloc, urlPath), None, dbRows);
      if answer.Some? && answer.value != "" then answer.value else guessed
  }

  /** A URL never recorded gets the guessed name in a non-interactive run. */
  lemma UnrecordedUrlGetsGuess(url: string, netloc: string, urlPath: string, dbRows: Rows)
    requires forall i :: 0 <= i < |LoadRows(dbRows)| ==> LoadRows(dbRows)[i].0 != url
    ensures TargetFilename(url, netloc, urlPath, None, dbRows, None) == GuessFilename(netloc, urlPath)
  {
  }

  /** After a run that saved `url` to `filename` and recorded it, a second
      non-interactive run without a path targets the same file. */
  lemma SecondRunReusesPath(url: string, netloc: string, urlPath: string, dbRows: Rows, filename: string)
    requires WellFormedBody(dbRows)
    ensures TargetFilename(url, netloc, urlPath, None, AddRows(dbRows, url, filename), None) == filename
  {
    RecordedPathFound(dbRows, url, filename, GuessFilename(netloc, urlPath));
  }

  /** The file `url2path.csv` (or any CSV mapping) as its rows. */
  class CsvFile {
    var rows: Rows

    constructor(initial: Rows)
      ensures rows == initial
    {
      rows := initial;
    }

    /** `load_url2path_csv`: builds the dictionary row by row. */
    method Load() returns (d: Dict)
      ensures d == LoadRows(rows)
      ensures UniqueKeys(d)
    {
      d := [];
      if rows == [] {
        return;
      }
      var i := 1;
      while i < |rows|
        invariant 1 <= i <= |rows|
        invariant FoldRows(rows[i..], d) == LoadRows(rows)
      {
        if |rows[i]| < 2 {
          return;
        }
        assert rows[i..][1..] == rows[i + 1..];
        d := DictPut(d, rows[i][0], rows[i][1]);
        i := i + 1;
      }
    }

    /** `save_url2path_csv`: the header, then one row per item. */
    method Save(d: Dict)
      modifies this
      ensures rows == SaveRows(d)
    {
      rows := [Header];
      var i := 0;
      while i < |d|
        invariant 0 <= i <= |d|
        invariant rows == [Header] + PairRows(d[..i])
      {
        assert PairRows(d[..i + 1]) == PairRows(d[..i]) + [[d[i].0, d[i].1]];
        rows := rows + [[d[i].0, d[i].1]];
        i := i + 1;
      }
      assert d[..i] == d;
    }

    /** `add_to_url2path_csv(url, path)` */
    method Add(url: string, path: string)
      modifies this
      ensures rows == AddRows(old(rows), url, path)
    {
      if rows == [] {
        rows := [Header];
      }
      rows := rows + [[url, path]];
    }
  }

  // ---------------------------------------------------------------- download

  const ReaderPrefix: string := "https://r.jina.ai/"

  /** The request `download_markdown(url, api_key)` sends. */
  datatype ReaderRequest = ReaderRequest(url: string, userAgent: string, authorization: Option<string>)

  /** Only URLs starting with `http` are sent, prefixed with the reader's
      address; an API key adds a bearer token. */
  function DownloadRequest(url: string, apiKey: Option<string>): (r: Result<ReaderRequest>)
    ensures r.Ok? <==> "http" <= url
    ensures r.Ok? ==> ReaderPrefix <= r.value.url && r.value.url[|ReaderPrefix|..] == url
    ensures r.Ok? ==> (r.value.authorization.Some? <==> apiKey.Some? && apiKey.value != "")
  {
    if "http" <= url then
      Ok(ReaderRequest(ReaderPrefix + url, "curl/8.8.0",
                       if apiKey.Some? && apiKey.value != "" then Some("Bearer " + apiKey.value) else None))
    else Err("ERROR: Url does not start with http(s) : '" + url + "'")
  }

  /** `download_markdown`: the decoded body, or the error the script exits with. */
  function DownloadMarkdown(url: string, apiKey: Option<string>, fetch: ReaderRequest -> Result<string>): (r: Result<string>)
    ensures !("http" <= url) ==> r.Err?
    ensures "http" <= url ==> r == fetch(DownloadRequest(url, apiKey).value)
  {
    match DownloadRequest(url, apiKey)
    case Err(e) => Err(e)
    case Ok(req) => fetch(req)
  }

  /** A URL that does not start with `http` is refused before any request. */
  lemma NonHttpMakesNoRequest(url: string, apiKey: Option<string>,
                              fetch1: ReaderRequest -> Result<string>, fetch2: ReaderRequest -> Result<string>)
    requires !("http" <= url)
    ensures DownloadMarkdown(url, apiKey, fetch1) == DownloadMarkdown(url, apiKey, fetch2)
  {
  }

  // ---------------------------------------------------------------- batch mode

  /** What the batch loop has done so far: files written, `(url, path)` pairs
      recorded in `url2path.csv`, and the error that stopped it. */
  datatype BatchState = BatchState(files: map<string, string>, recorded: Dict, error: Option<string>)

  const NoDirectory: string := "[Errno 2] No such file or directory: ''"

  /** The batch loop over `entries` from state `st`: download, create the
      directory (`os.makedirs('')` raises for a name without one), write, and
      record the pair when something was written. A failed download or a
      missing directory ends the run. */
  function Batch(entries: Dict, apiKey: Option<string>, fetch: ReaderRequest -> Result<string>, st: BatchState): (r: BatchState)
    ensures st.error.None? ==> |r.recorded| <= |st.recorded| + |entries|
    decreases |entries|
  {
    if entries == [] then st
    else
      var (url, filename) := entries[0];
      match DownloadMarkdown(url, apiKey, fetch)
      case Err(e) => st.(error := Some(e))
      case Ok(content) =>
        if '/' !in filename then st.(error := Some(NoDirectory))
        else
          var recorded := if content != "" then st.recorded + [entries[0]] else st.recorded;
          Batch(entries[1..], apiKey, fetch, BatchState(st.files[filename := content], recorded, st.error))
  }

  /** The loop only adds to what it has done: earlier records stay in front,
      written files stay written, and a file no later entry names keeps its
      content. */
  lemma {:induction false} BatchKeeps(entries: Dict, apiKey: Option<string>, fetch: ReaderRequest -> Result<string>,
                                      st: BatchState, f: string)
    ensures var r := Batch(entries, apiKey, fetch, st);
      && |st.recorded| <= |r.recorded| && r.recorded[..|st.recorded|] == st.recorded
      && (f in st.files ==> f in r.files)
      && (f in st.files && (forall j :: 0 <= j < |entries| ==> entries[j].1 != f) ==> r.files[f] == st.files[f])
    decreases |entries|
  {
    if entries != [] {
      var (url, filename) := entries[0];
      var c := DownloadMarkdown(url, apiKey, fetch);
      if c.Ok? && '/' in filename {
        var recorded := if c.value != "" then st.recorded + [entries[0]] else st.recorded;
        var next := BatchState(st.files[filename := c.value], recorded, st.error);
        BatchKeeps(entries[1..], apiKey, fetch, next, f);
        var r := Batch(entries[1..], apiKey, fetch, next);
        assert recorded[..|st.recorded|] == st.recorded;
        assert r.recorded[..|st.recorded|] == r.recorded[..|recorded|][..|st.recorded|];
        if f in st.files && (forall j :: 0 <= j < |entries| ==> entries[j].1 != f) {
          assert entries[0].1 != f;
          forall j | 0 <= j < |entries[1..]| ensures entries[1..][j].1 != f {
            assert entries[1..][j] == entries[j + 1];
          }
        }
      }
    }
  }

  /** In a batch run that ends without error, every entry was downloaded and
      written to its file, a non-empty page is recorded with its file name,
      and the file holds that page unless a later entry names the same file. */
  lemma {:induction false} BatchWritesEntry(entries: Dict, apiKey: Option<string>, fetch: ReaderRequest -> Result<string>,
                                            st: BatchState, i: nat)
    requires i < |entries| && st.error.None?
    requires Batch(entries, apiKey, fetch, st).error.None?
    ensures var r := Batch(entries, apiKey, fetch, st);
      var c := DownloadMarkdown(entries[i].0, apiKey, fetch);
      && c.Ok? && '/' in entries[i].1 && entries[i].1 in r.files
      && (c.value != "" ==> entries[i] in r.recorded)
      && ((forall j :: i < j < |entries| ==> entries[j].1 != entries[i].1) ==> r.files[entries[i].1] == c.value)
    decreases |entries|
  {
    var (url, filename) := entries[0];
    var c := DownloadMarkdown(url, apiKey, fetch);
    assert c.Ok? && '/' in filename;
    var recorded := if c.value != "" then st.recorded + [entries[0]] else st.recorded;
    var next := BatchState(st.files[filename := c.value], recorded, st.error);
    var r := Batch(entries[1..], apiKey, fetch, next);
    assert Batch(entries, apiKey, fetch, st) == r;
    if i == 0 {
      BatchKeeps(entries[1..], apiKey, fetch, next, filename);
      if c.value != "" {
        assert r.recorded[..|recorded|][|st.recorded|] == entries[0];
      }
      if forall j :: 0 < j < |entries| ==> entries[j].1 != filename {
        forall j | 0 <= j < |entries[1..]| ensures entries[1..][j].1 != filename {
          assert entries[1..][j] == entries[j + 1];
        }
      }
    } else {
      assert entries[1..][i - 1] == entries[i];
      BatchWritesEntry(entries[1..], apiKey, fetch, next, i - 1);
      if forall j :: i < j < |entries| ==> entries[j].1 != entries[i].1 {
        forall j | i - 1 < j < |entries[1..]| ensures entries[1..][j].1 != entries[i].1 {
          assert entries[1..][j] == entries[j + 1];
        }
      }
    }
  }

  /** Only pages that downloaded and were not empty are recorded, each under
      one of the entries read. */
  lemma {:induction false} BatchRecordsDownloads(entries: Dict, apiKey: Option<string>, fetch: ReaderRequest -> Result<string>,
                                                 st: BatchState, k: nat)
    requires |st.recorded| <= k < |Batch(entries, apiKey, fetch, st).recorded|
    ensures var p := Batch(entries, apiKey, fetch, st).recorded[k];
      && p in entries && DownloadMarkdown(p.0, apiKey, fetch).Ok? && DownloadMarkdown(p.0, apiKey, fetch).value != ""
    decreases |entries|
  {
    var (url, filename) := entries[0];
    var c := DownloadMarkdown(url, apiKey, fetch);
    assert c.Ok? && '/' in filename;
    var recorded := if c.value != "" then st.recorded + [entries[0]] else st.recorded;
    var next := BatchState(st.files[filename := c.value], recorded, st.error);
    var r := Batch(entries[1..], apiKey, fetch, next);
    assert Batch(entries, apiKey, fetch, st) == r;
    if k < |recorded| {
      BatchKeeps(entries[1..], apiKey, fetch, next, filename);
      assert r.recorded[k] == r.recorded[..|recorded|][k] == recorded[k] == entries[0];
    } else {
      BatchRecordsDownloads(entries[1..], apiKey, fetch, next, k);
      assert r.recorded[k] in entries[1..];
    }
  }

  function Start(): BatchState {
    BatchState(map[], [], None)
  }

  /** The rows of `url2path.csv` after adding every pair of `ps` in order. */
  function AddAll(rows: Rows, ps: Dict): (r: Rows)
    ensures |r| >= |rows| + |ps|
    ensures WellFormedBody(rows) ==> WellFormedBody(r)
  {
    if ps == [] then rows
    else AddRows(AddAll(rows, ps[..|ps| - 1]), ps[|ps| - 1].0, ps[|ps| - 1].1)
  }

  /** As written, the batch loop records `args.url` (written as the empty
      string when absent) instead of the URL it downloaded. */
  function BatchRowsAsWritten(rows: Rows, entries: Dict, argUrl: Option<string>, apiKey: Option<string>,
                              fetch: ReaderRequest -> Result<string>): (r: Rows)
    ensures |r| >= |rows|
  {
    var argText := if argUrl.Some? then argUrl.value else "";
    AddAll(rows, Relabel(Batch(entries, apiKey, fetch, Start()).recorded, argText))
  }

  function Relabel(ps: Dict, argText: string): (r: Dict)
    ensures |r| == |ps|
    ensures forall i :: 0 <= i < |ps| ==> r[i] == (argText, ps[i].1)
  {
    seq(|ps|, i requires 0 <= i < |ps| => (argText, ps[i].1))
  }

  /** As written, a downloaded page is recorded under the wrong URL: after a
      batch run without a positional URL, looking up the URL just downloaded
      falls back to the default path. */
  lemma BatchLosesUrlAsWritten()
    ensures var entries := [("https://example.com/a", "example.com/a.md")];
      var fetch := (req: ReaderRequest) => Ok("# A");
      var rows := BatchRowsAsWritten([], entries, None, None, fetch);
      && rows == [Header, ["", "example.com/a.md"]]
      && PathFromMappingOrDefault("https://example.com/a", "fallback.md", None, rows) == "fallback.md"
  {
    var url, filename := "https://example.com/a", "example.com/a.md";
    var fetch := (req: ReaderRequest) => Ok("# A");
    assert "http" <= url;
    assert '/' in filename by {
      assert filename[11] == '/';
    }
    assert DownloadMarkdown(url, None, fetch) == Ok("# A");
    OneEntryBatch(url, filename, "# A", fetch);
    OneRowAsWritten(url, filename);
    LoadOneRow("", filename);
    assert "" != url;
  }

  /** A batch of one entry that downloads a non-empty page records that entry. */
  lemma OneEntryBatch(url: string, filename: string, content: string, fetch: ReaderRequest -> Result<string>)
    requires '/' in filename && content != ""
    requires DownloadMarkdown(url, None, fetch) == Ok(content)
    ensures Batch([(url, filename)], None, fetch, Start()).recorded == [(url, filename)]
  {
    var entries := [(url, filename)];
    assert entries[1..] == [];
  }

  /** As written, one recorded pair becomes the header and a row without its URL. */
  lemma OneRowAsWritten(url: string, filename: string)
    ensures AddAll([], Relabel([(url, filename)], "")) == [Header, ["", filename]]
  {
    var ps := Relabel([(url, filename)], "");
    assert ps == [("", filename)];
    assert ps[..0] == [];
  }

  /** A file holding the header and one row loads as that one pair. */
  lemma LoadOneRow(url: string, filename: string)
    ensures LoadRows([Header, [url, filename]]) == [(url, filename)]
  {
    var rows := [Header, [url, filename]];
    assert rows[1..] == [[url, filename]];
    assert FoldRows(rows[1..], []) == FoldRows([], DictPut([], url, filename));
  }

  /** The batch rows as evidently intended: each pair recorded under its own URL. */
  function BatchRows(rows: Rows, entries: Dict, apiKey: Option<string>, fetch: ReaderRequest -> Result<string>): (r: Rows)
    ensures |r| >= |rows|
  {
    AddAll(rows, Batch(entries, apiKey, fetch, Start()).recorded)
  }

  /** The batch-mode branch of `main` with the recording corrected: downloads
      each entry in order, writes it and appends its row to `db`. */
  method RunBatch(entries: Dict, apiKey: Option<string>, fetch: ReaderRequest -> Result<string>, db: CsvFile)
    returns (files: map<string, string>, error: Option<string>)
    modifies db
    ensures var b := Batch(entries, apiKey, fetch, Start());
      files == b.files && error == b.error && db.rows == AddAll(old(db.rows), b.recorded)
  {
    files, error := map[], None;
    ghost var recorded: Dict := [];
    ghost var rows0 := db.rows;
    var i := 0;
    while i < |entries|
      invariant 0 <= i <= |entries|
      invariant Batch(entries[i..], apiKey, fetch, BatchState(files, recorded, None)) == Batch(entries, apiKey, fetch, Start())
      invariant db.rows == AddAll(rows0, recorded)
    {
      var (url, filename) := entries[i];
      assert entries[i..][0] == entries[i] && entries[i..][1..] == entries[i + 1..];
      var content := DownloadMarkdown(url, apiKey, fetch);
      if content.Err? {
        error := Some(content.error);
        return;
      }
      if '/' !in filename {
        error := Some(NoDirectory);
        return;
      }
      files := files[filename := content.value];
      if content.value != "" {
        db.Add(url, filename);
        assert (recorded + [entries[i]])[..|recorded|] == recorded;
        recorded := recorded + [entries[i]];
      }
      i := i + 1;
    }
  }

  /** The dictionary a load gives after adding pairs: each pair set in order. */
  function PutAll(d: Dict, ps: Dict): (r: Dict)
    ensures UniqueKeys(d) ==> UniqueKeys(r)
  {
    if ps == [] then d
    else DictPut(PutAll(d, ps[..|ps| - 1]), ps[|ps| - 1].0, ps[|ps| - 1].1)
  }

  lemma {:induction false} LoadAfterAddAll(rows: Rows, ps: Dict)
    requires WellFormedBody(rows)
    ensures LoadRows(AddAll(rows, ps)) == PutAll(LoadRows(rows), ps)
  {
    if ps != [] {
      LoadAfterAddAll(rows, ps[..|ps| - 1]);
      LoadAfterAdd(AddAll(rows, ps[..|ps| - 1]), ps[|ps| - 1].0, ps[|ps| - 1].1);
    }
  }

  /** With distinct keys, every pair put is found afterwards. */
  lemma {:induction false} PutAllFinds(d: Dict, ps: Dict, i: nat)
    requires UniqueKeys(ps) && i < |ps|
    ensures DictGet(PutAll(d, ps), ps[i].0) == Some(ps[i].1)
  {
    var n := |ps| - 1;
    if i < n {
      assert ps[i].0 != ps[n].0;
      assert UniqueKeys(ps[..n]) by {
        forall a, b | 0 <= a < b < n ensures ps[..n][a].0 != ps[..n][b].0 {
          assert ps[..n][a] == ps[a] && ps[..n][b] == ps[b];
        }
      }
      PutAllFinds(d, ps[..n], i);
      assert ps[..n][i] == ps[i];
    }
  }

  /** The batch loop records each URL at most once when the URLs it reads
      are distinct, as they are in a loaded dictionary. */
  lemma {:induction false} BatchRecordsUnique(entries: Dict, apiKey: Option<string>, fetch: ReaderRequest -> Result<string>, st: BatchState)
    requires UniqueKeys(st.recorded + entries)
    ensures UniqueKeys(Batch(entries, apiKey, fetch, st).recorded)
    decreases |entries|
  {
    if entries == [] {
      assert st.recorded + entries == st.recorded;
    } else {
      var (url, filename) := entries[0];
      var content := DownloadMarkdown(url, apiKey, fetch);
      if content.Ok? && '/' in filename {
        var recorded := if content.value != "" then st.recorded + [entries[0]] else st.recorded;
        assert UniqueKeys(recorded + entries[1..]) by {
          if content.value != "" {
            assert recorded + entries[1..] == st.recorded + entries;
          } else {
            DropKeepsUnique(st.recorded, entries);
          }
        }
        BatchRecordsUnique(entries[1..], apiKey, fetch, BatchState(st.files[filename := content.value], recorded, st.error));
      } else {
        assert UniqueKeys(st.recorded) by {
          forall a, b | 0 <= a < b < |st.recorded| ensures st.recorded[a].0 != st.recorded[b].0 {
            assert (st.recorded + entries)[a] == st.recorded[a] && (st.recorded + entries)[b] == st.recorded[b];
          }
        }
      }
    }
  }

  lemma DropKeepsUnique(a: Dict, b: Dict)
    requires b != [] && UniqueKeys(a + b)
    ensures UniqueKeys(a + b[1..])
  {
    var s, t := a + b, a + b[1..];
    forall x, y | 0 <= x < y < |t| ensures t[x].0 != t[y].0 {
      var x', y' := if x < |a| then x else x + 1, if y < |a| then y else y + 1;
      assert t[x] == s[x'] && t[y] == s[y'];
    }
  }

  /** Corrected batch mode: after the run, each URL it saved is found in
      `url2path.csv` with the file it was saved to. */
  lemma BatchRecordsFound(rows: Rows, entries: Dict, apiKey: Option<string>,
                          fetch: ReaderRequest -> Result<string>, i: nat, defaultPath: string)
    requires WellFormedBody(rows) && UniqueKeys(entries)
    requires i < |Batch(entries, apiKey, fetch, Start()).recorded|
    ensures var p := Batch(entries, apiKey, fetch, Start()).recorded[i];
      PathFromMappingOrDefault(p.0, defaultPath, None, BatchRows(rows, entries, apiKey, fetch)) == p.1
  {
    var ps := Batch(entries, apiKey, fetch, Start()).recorded;
    assert [] + entries == entries;
    BatchRecordsUnique(entries, apiKey, fetch, Start());
    LoadAfterAddAll(rows, ps);
    PutAllFinds(LoadRows(rows), ps, i);
  }
}

=== FILE: keyfile.dfy ===
/** `check_api_token` of the two DeepSeek-OCR wrappers
    (imgextractors/deepseek_ocr_deepinfra.py, imgextractors/lucataco_deepseek_ocr_replicate.py)
    and of the three Replicate wrappers that take no key file: the token is
    read from the first matching line of an optional key file into the
    process environment, which is then checked. */
module KeyFile {
  import opened Wrappers
  import opened PyStr
  import opened Fallback

  const DeepinfraApiToken: string := "DEEPINFRA_API_TOKEN"
  const DeepinfraToken: string := "DEEPINFRA_TOKEN"
  const ReplicateApiToken: string := "REPLICATE_API_TOKEN"

  /** What `--key-file` leads to: no option (or an empty one), a path that does
      not exist, a file whose reading fails, or the lines the file holds. */
  datatype KeyFileArg = NoKeyFile | Missing(path: string) | Unreadable(path: string, reason: string) | Lines(lines: seq<string>)

  /** `line.strip()`, then a leading `export ` removed. */
  function Unexported(line: string): string {
    var l := StripSpace(line);
    if "export " <= l then l[7..] else l
  }

  /** `l.startswith(name + '=')` for one of `names`. */
  predicate AssignsOneOf(l: string, names: seq<string>) {
    names != [] && (names[0] + "=" <= l || AssignsOneOf(l, names[1..]))
  }

  lemma {:induction false} AssignmentHasEquals(l: string, names: seq<string>)
    requires AssignsOneOf(l, names)
    ensures '=' in l
  {
    if names[0] + "=" <= l {
      assert l[|names[0]|] == (names[0] + "=")[|names[0]|];
    } else {
      AssignmentHasEquals(l, names[1..]);
    }
  }

  lemma {:induction false} AssignsListed(l: string, name: string, names: seq<string>)
    requires name in names && name + "=" <= l
    ensures AssignsOneOf(l, names)
  {
    if names[0] != name {
      AssignsListed(l, name, names[1..]);
    }
  }

  /** `l.split('=', 1)[1]`: everything after the first `=`. */
  function ValueAfterEquals(l: string): (r: string)
    requires '=' in l
    ensures |r| < |l| && r == l[|l| - |r|..] && l[|l| - |r| - 1] == '='
  {
    l[IndexOf(l, '=') + 1..]
  }

  /** A key-file value with surrounding white space, then double quotes, then
      single quotes cut off. */
  function CleanValue(v: string): string {
    StripChar(StripChar(StripSpace(v), '"'), '\'')
  }

  /** The token one key-file line sets, if it assigns one of `names`. */
  function TokenOfLine(line: string, names: seq<string>): (r: Option<string>)
    ensures r.Some? <==> AssignsOneOf(Unexported(line), names)
  {
    var l := Unexported(line);
    if AssignsOneOf(l, names) then
      AssignmentHasEquals(l, names);
      Some(CleanValue(ValueAfterEquals(l)))
    else None
  }

  /** `TokenOfLine` for one list of names, as a candidate function. */
  function TokenReader(names: seq<string>): string -> Option<string> {
    line => TokenOfLine(line, names)
  }

  /** The token of the first line that assigns one of `names`; the `break`
      leaves later lines unread. */
  function KeyFileToken(lines: seq<string>, names: seq<string>): Option<string> {
    FirstSome(Candidates(TokenReader(names), lines))
  }

  /** The `for line in f` loop of `check_api_token`; `read` counts the lines
      looked at. */
  method ScanKeyFile(lines: seq<string>, names: seq<string>) returns (token: Option<string>, read: nat)
    ensures token == KeyFileToken(lines, names)
    ensures token.Some? ==> 1 <= read <= |lines| && TokenOfLine(lines[read - 1], names) == token
    ensures token.None? ==> read == |lines|
  {
    token, read := ScanFirst(TokenReader(names), lines);
  }

  /** Lines after the first assignment are never looked at. */
  lemma LaterLinesIgnored(lines: seq<string>, more: seq<string>, names: seq<string>)
    requires KeyFileToken(lines, names).Some?
    ensures KeyFileToken(lines + more, names) == KeyFileToken(lines, names)
  {
    CandidatesAppend(TokenReader(names), lines, more);
    LaterCandidatesIgnored(Candidates(TokenReader(names), lines), Candidates(TokenReader(names), more));
  }

  /** Lines that assign nothing in front of the file change nothing. */
  lemma UnrelatedLinesSkipped(lines: seq<string>, more: seq<string>, names: seq<string>)
    requires forall i :: 0 <= i < |lines| ==> TokenOfLine(lines[i], names).None?
    ensures KeyFileToken(lines + more, names) == KeyFileToken(more, names)
  {
    CandidatesAppend(TokenReader(names), lines, more);
    EmptyCandidatesSkipped(Candidates(TokenReader(names), lines), Candidates(TokenReader(names), more));
  }

  /** The usual shell line `export NAME="token"`, with `quote` one of `"`, `'`
      or nothing. */
  function KeyLine(name: string, quote: string, token: string): string {
    "export " + Assignment(name, quote + token + quote)
  }

  /** `NAME=value` */
  function Assignment(name: string, value: string): string {
    name + "=" + value
  }

  predicate IsQuote(q: string) {
    q == "" || q == "\"" || q == "'"
  }

  /** A token written as `export NAME=<quote>token<quote>` reads back as the
      token, whenever its ends are neither blank nor a quote character. */
  lemma KeyLineRoundTrip(name: string, quote: string, token: string, names: seq<string>)
    requires name in names && '=' !in name && name != [] && !IsSpace(name[0])
    requires IsQuote(quote)
    requires token != [] && !IsSpace(token[0]) && !IsSpace(token[|token| - 1])
    requires token[0] != '"' && token[0] != '\'' && token[|token| - 1] != '"' && token[|token| - 1] != '\''
    ensures TokenOfLine(KeyLine(name, quote, token), names) == Some(token)
  {
    var value := quote + token + quote;
    var l := Assignment(name, value);
    assert value[|value| - 1] == (if quote == "" then token[|token| - 1] else quote[0]);
    assert l[0] == name[0] && l[|l| - 1] == value[|value| - 1];
    UnexportedLine(l);
    AssignsListed(l, name, names);
    AssignmentValue(name, value);
    CleanQuoted(quote, token);
  }

  /** `strip` and the `export ` removal leave the assignment of an exported line. */
  lemma UnexportedLine(l: string)
    requires l != [] && !IsSpace(l[0]) && !IsSpace(l[|l| - 1])
    ensures Unexported("export " + l) == l
  {
    var line := "export " + l;
    assert line[|line| - 1] == l[|l| - 1];
    StripKeeps(line, IsSpace);
    assert line[..7] == "export ";
    assert line[7..] == l;
  }

  /** The value of `NAME=value` is everything after the `=` when the name has none. */
  lemma AssignmentValue(name: string, value: string)
    requires '=' !in name
    ensures '=' in Assignment(name, value)
    ensures ValueAfterEquals(Assignment(name, value)) == value
  {
    var l := Assignment(name, value);
    assert l[|name|] == '=';
    assert IndexOf(l, '=') == |name| by {
      forall k | 0 <= k < |name| ensures l[k] != '=' {
        assert l[k] == name[k];
      }
    }
    assert l[|name| + 1..] == value;
  }

  lemma CleanQuoted(quote: string, token: string)
    requires IsQuote(quote)
    requires token != [] && !IsSpace(token[0]) && !IsSpace(token[|token| - 1])
    requires token[0] != '"' && token[0] != '\'' && token[|token| - 1] != '"' && token[|token| - 1] != '\''
    ensures CleanValue(quote + token + quote) == token
  {
    if quote == "" {
      assert quote + token + quote == token;
      CleanPlain(token);
    } else {
      assert quote + token + quote == [quote[0]] + token + [quote[0]];
      CleanPair(token, quote[0]);
    }
  }

  lemma CleanPlain(token: string)
    requires token != [] && !IsSpace(token[0]) && !IsSpace(token[|token| - 1])
    requires token[0] != '"' && token[0] != '\'' && token[|token| - 1] != '"' && token[|token| - 1] != '\''
    ensures CleanValue(token) == token
  {
    StripKeeps(token, IsSpace);
    StripCharKeeps(token, '"');
    StripCharKeeps(token, '\'');
  }

  lemma CleanPair(token: string, q: char)
    requires q == '"' || q == '\''
    requires token != [] && !IsSpace(token[0]) && !IsSpace(token[|token| - 1])
    requires token[0] != '"' && token[0] != '\'' && token[|token| - 1] != '"' && token[|token| - 1] != '\''
    ensures CleanValue([q] + token + [q]) == token
  {
    var v := [q] + token + [q];
    assert v[0] == q && v[|v| - 1] == q;
    StripKeeps(v, IsSpace);
    StripCharPair(token, q);
    StripCharKeeps(token, '\'');
    if q == '\'' {
      StripCharKeeps(v, '"');
    }
  }

  /** `s.strip(c)` leaves alone a string that neither starts nor ends with `c`. */
  lemma StripCharKeeps(s: string, c: char)
    requires s != [] ==> s[0] != c && s[|s| - 1] != c
    ensures StripChar(s, c) == s
  {
    StripKeeps(s, Is(c));
  }

  /** `s.strip(c)` removes one `c` from each end of a string that otherwise
      neither starts nor ends with `c`. */
  lemma StripCharPair(t: string, c: char)
    requires t != [] && t[0] != c && t[|t| - 1] != c
    ensures StripChar([c] + t + [c], c) == t
  {
    var v := [c] + t + [c];
    assert v[1..1 + |t|] == t;
    StripUnique(v, t, 1, Is(c));
  }

  // ---------------------------------------------------------------- the environment

  /** The token the key file supplies, if any. */
  function TokenFromFile(keyFile: KeyFileArg, names: seq<string>): (r: Option<string>)
    ensures r.Some? ==> keyFile.Lines?
    ensures r.Some? ==> exists i :: 0 <= i < |keyFile.lines| && TokenOfLine(keyFile.lines[i], names) == r
  {
    if keyFile.Lines? then KeyFileToken(keyFile.lines, names) else None
  }

  const NotSetDeepinfra: string :=
    "ERROR: DEEPINFRA_API_TOKEN is not set\nSet it via environment variable or use --key-file option"
  const ReplicateNotSet: string := "ERROR: REPLICATE_API_TOKEN is not set"
  const NotSetReplicate: string := ReplicateNotSet + "\nSet it via environment variable or use --key-file option"

  /** `check_api_token()` of the Replicate wrappers that take no key file: the
      message the script exits with, or `None` when it goes on. Its message is
      the first line of the key-file wrappers' one. */
  function CheckApiToken(env: map<string, string>): (r: Option<string>)
    ensures r.None? <==> ReplicateApiToken in env
    ensures r.Some? ==> r.value <= NotSetReplicate
  {
    if ReplicateApiToken in env then None else Some(ReplicateNotSet)
  }

  /** The exit message for a key file that is not there or cannot be read:
      it names the path, or the reason the read failed. */
  function KeyFileError(keyFile: KeyFileArg): (r: string)
    requires keyFile.Missing? || keyFile.Unreadable?
    ensures "ERROR: " <= r
    ensures keyFile.Missing? ==> |keyFile.path| < |r| && r[|r| - |keyFile.path|..] == keyFile.path
    ensures keyFile.Unreadable? ==> |keyFile.reason| < |r| && r[|r| - |keyFile.reason|..] == keyFile.reason
  {
    if keyFile.Missing? then "ERROR: Key file not found: " + keyFile.path
    else "ERROR: Failed to read key file: " + keyFile.reason
  }

  const DeepinfraNames: seq<string> := [DeepinfraApiToken, DeepinfraToken]

  /** `check_api_token(key_file)` of the DeepInfra wrapper, on the environment
      `env`: the new environment, or the message of the exit. */
  function DeepinfraTokenCheck(env: map<string, string>, keyFile: KeyFileArg): (r: Result<map<string, string>>)
    ensures r.Err? <==> (keyFile.Missing? || keyFile.Unreadable? ||
      (TokenFromFile(keyFile, DeepinfraNames).None? && DeepinfraApiToken !in env && DeepinfraToken !in env))
  {
    if keyFile.Missing? || keyFile.Unreadable? then Err(KeyFileError(keyFile))
    else DeepinfraEnvironment(env, TokenFromFile(keyFile, DeepinfraNames))
  }

  /** The part of the DeepInfra check after the key file was read: the token
      it gave, if any, goes into `DEEPINFRA_API_TOKEN`, then the check and the
      fallback to `DEEPINFRA_TOKEN`. Only `DEEPINFRA_API_TOKEN` ever changes. */
  function DeepinfraEnvironment(env: map<string, string>, fileToken: Option<string>): (r: Result<map<string, string>>)
    ensures r.Ok? ==> DeepinfraApiToken in r.value
    ensures r.Ok? ==> forall k :: k != DeepinfraApiToken ==>
      (k in r.value <==> k in env) && (k in env ==> r.value[k] == env[k])
    ensures r.Err? <==> fileToken.None? && DeepinfraApiToken !in env && DeepinfraToken !in env
  {
    var env1 := if fileToken.Some? then env[DeepinfraApiToken := fileToken.value] else env;
    if DeepinfraApiToken !in env1 && DeepinfraToken !in env1 then Err(NotSetDeepinfra)
    else if DeepinfraApiToken !in env1 then Ok(env1[DeepinfraApiToken := env1[DeepinfraToken]])
    else Ok(env1)
  }

  /** A token from the key file wins over anything in the environment. */
  lemma DeepinfraKeyFileWins(env: map<string, string>, lines: seq<string>)
    requires KeyFileToken(lines, DeepinfraNames).Some?
    ensures DeepinfraTokenCheck(env, Lines(lines))
      == Ok(env[DeepinfraApiToken := KeyFileToken(lines, DeepinfraNames).value])
  {
    var t := KeyFileToken(lines, DeepinfraNames);
    assert DeepinfraTokenCheck(env, Lines(lines)) == DeepinfraEnvironment(env, t);
  }

  /** Without a key-file token, `DEEPINFRA_API_TOKEN` keeps its value when set,
      and otherwise takes that of `DEEPINFRA_TOKEN`. */
  lemma DeepinfraEnvironmentFallback(env: map<string, string>)
    ensures DeepinfraApiToken in env ==> DeepinfraEnvironment(env, None) == Ok(env)
    ensures DeepinfraApiToken !in env && DeepinfraToken in env ==>
      DeepinfraEnvironment(env, None) == Ok(env[DeepinfraApiToken := env[DeepinfraToken]])
  {
  }

  /** `check_api_token(key_file)` of the Replicate DeepSeek-OCR wrapper; with
      `NoKeyFile` it is also the `check_api_token()` of the other three
      Replicate wrappers. */
  function ReplicateTokenCheck(env: map<string, string>, keyFile: KeyFileArg): (r: Result<map<string, string>>)
    ensures r.Ok? ==> ReplicateApiToken in r.value
    ensures r.Ok? ==> forall k :: k != ReplicateApiToken ==>
      (k in r.value <==> k in env) && (k in env ==> r.value[k] == env[k])
    ensures r.Err? <==> (keyFile.Missing? || keyFile.Unreadable? ||
      (TokenFromFile(keyFile, [ReplicateApiToken]).None? && ReplicateApiToken !in env))
  {
    if keyFile.Missing? || keyFile.Unreadable? then Err(KeyFileError(keyFile))
    else
      var token := TokenFromFile(keyFile, [ReplicateApiToken]);
      var env1 := if token.Some? then env[ReplicateApiToken := token.value] else env;
      if ReplicateApiToken !in env1 then Err(NotSetReplicate) else Ok(env1)
  }

  /** Without a key file the check changes nothing: it passes exactly when the
      token is set. */
  lemma ReplicateCheckOnly(env: map<string, string>)
    ensures ReplicateTokenCheck(env, NoKeyFile) == if ReplicateApiToken in env then Ok(env) else Err(NotSetReplicate)
  {
  }

  /** With a readable key file, or none, the Replicate check sets the file's
      token, if any, and then asks for the variable. */
  lemma ReplicateTokenSteps(env: map<string, string>, keyFile: KeyFileArg)
    requires !keyFile.Missing? && !keyFile.Unreadable?
    ensures var token := TokenFromFile(keyFile, [ReplicateApiToken]);
      var env1 := if token.Some? then env[ReplicateApiToken := token.value] else env;
      ReplicateTokenCheck(env, keyFile) == if ReplicateApiToken !in env1 then Err(NotSetReplicate) else Ok(env1)
  {
  }

  /** `os.environ`, which `check_api_token` reads and updates in place. */
  class Environ {
    var vars: map<string, string>

    constructor (initial: map<string, string>)
      ensures vars == initial
    {
      vars := initial;
    }

    /** `check_api_token` of the DeepInfra wrapper; `exit` is the message of a
        `sys.exit(1)`, before which the environment is left as it was. */
    method CheckDeepinfraToken(keyFile: KeyFileArg) returns (exit: Option<string>)
      modifies this
      ensures DeepinfraTokenCheck(old(vars), keyFile).Ok? ==>
        exit.None? && vars == DeepinfraTokenCheck(old(vars), keyFile).value
      ensures DeepinfraTokenCheck(old(vars), keyFile).Err? ==>
        exit == Some(DeepinfraTokenCheck(old(vars), keyFile).error) && vars == old(vars)
    {
      ghost var env0 := vars;
      ghost var r := DeepinfraTokenCheck(env0, keyFile);
      var fileToken: Option<string> := None;
      match keyFile {
        case Missing(_) =>
          return Some(KeyFileError(keyFile));
        case Unreadable(_, _) =>
          return Some(KeyFileError(keyFile));
        case Lines(lines) =>
          var read;
          fileToken, read := ScanKeyFile(lines, DeepinfraNames);
          if fileToken.Some? {
            vars := vars[DeepinfraApiToken := fileToken.value];
          }
        case NoKeyFile =>
      }
      assert r == DeepinfraEnvironment(env0, fileToken);
      assert vars == if fileToken.Some? then env0[DeepinfraApiToken := fileToken.value] else env0;
      if DeepinfraApiToken !in vars && DeepinfraToken !in vars {
        assert r == Err(NotSetDeepinfra) && vars == env0;
        return Some(NotSetDeepinfra);
      }
      if DeepinfraApiToken !in vars && DeepinfraToken in vars {
        vars := vars[DeepinfraApiToken := vars[DeepinfraToken]];
      }
      assert r == Ok(vars);
      exit := None;
    }

    /** `check_api_token` of the Replicate wrappers. */
    method CheckReplicateToken(keyFile: KeyFileArg) returns (exit: Option<string>)
      modifies this
      ensures ReplicateTokenCheck(old(vars), keyFile).Ok? ==>
        exit.None? && vars == ReplicateTokenCheck(old(vars), keyFile).value
      ensures ReplicateTokenCheck(old(vars), keyFile).Err? ==>
        exit == Some(ReplicateTokenCheck(old(vars), keyFile).error) && vars == old(vars)
    {
      var token: Option<string> := None;
      match keyFile {
        case Missing(_) =>
          return Some(KeyFileError(keyFile));
        case Unreadable(_, _) =>
          return Some(KeyFileError(keyFile));
        case Lines(lines) =>
          var read;
          token, read := ScanKeyFile(lines, [ReplicateApiToken]);
        case NoKeyFile =>
      }
      ReplicateTokenSteps(vars, keyFile);
      var env := if token.Some? then vars[ReplicateApiToken := token.value] else vars;
      if ReplicateApiToken !in env {
        return Some(NotSetReplicate);
      }
      vars := env;
      exit := None;
    }
  }
}

=== FILE: lucataco.dfy ===
/** The DeepSeek-OCR wrapper for Replicate (imgextractors/lucataco_deepseek_ocr_replicate.py):
    the shortening of long strings for verbose output, the normalisation of
    the service's output into file content, and one run of the script. The
    token check lives in `KeyFile`, the output name in `FileNames`. */
module LucatacoOcr {
  import opened Wrappers
  import opened PyStr
  import opened FileNames
  import opened Runs

  /** The `max_length=1024` default of `truncate_long_string`. */
  const DefaultTruncateLength: nat := 1024

  /** How much of each end a shortened string keeps. */
  const KeptEnd: nat := 64

  const Ellipsis: string := " (...) "

  /** The first 64 characters, or the whole string when it is shorter. */
  function Head(data: string): string {
    data[..Min(KeptEnd, |data|)]
  }

  /** `data[-64:]` (the whole string when it is shorter than 64) */
  function Tail(data: string): string {
    data[|data| - Min(KeptEnd, |data|)..]
  }

  /** `truncate_long_string(data, max_length)` */
  function TruncateLongString(data: string, maxLength: int): string {
    if |data| > maxLength then Head(data) + Ellipsis + Tail(data) else data
  }

  /** With the default limit, a shortened string keeps its first and last 64
      characters and always has 135 characters; anything else is left as it is. */
  lemma TruncateDefault(data: string)
    ensures var r := TruncateLongString(data, DefaultTruncateLength);
      && (|data| <= DefaultTruncateLength ==> r == data)
      && (|data| > DefaultTruncateLength ==>
            |r| == 135 && r[..64] == data[..64] && r[|r| - 64..] == data[|data| - 64..])
  {
    var r := TruncateLongString(data, DefaultTruncateLength);
    if |data| > DefaultTruncateLength {
      assert r == data[..64] + Ellipsis + data[|data| - 64..];
      assert r[..64] == data[..64];
      assert r[|r| - 64..] == data[|data| - 64..];
    }
  }

  /** The result is never longer than the limit allows: within it, or 135. */
  lemma TruncateBound(data: string, maxLength: int)
    ensures |TruncateLongString(data, maxLength)| <= if |data| <= maxLength then |data| else 2 * KeptEnd + |Ellipsis|
  {
  }

  /** The output handling of `extract_with_deepseek_ocr`: a string is the
      content, a non-empty list is joined with newlines, anything else (an
      empty list included) is the unexpected-format exit. */
  function OutputContent(output: ApiOutput): (r: Result<string>)
    ensures r.Ok? <==> output.Text? || (output.Items? && output.items != [])
    ensures output.Text? ==> r == Ok(output.text)
  {
    match output
    case Text(s) => Ok(s)
    case Items(items) =>
      if items != [] then Ok(Join(items, '\n'))
      else Err(UnexpectedType("list"))
    case Record(_) => Err(UnexpectedType("dict"))
    case Other(kind) => Err(UnexpectedType(kind))
  }

  /** The first line of the unexpected-format report, which prints the
      reply's Python type as `<class 'name'>`. */
  function UnexpectedType(kind: string): string {
    "Error: Unexpected output format: <class '" + kind + "'>"
  }

  /** Joining list output loses nothing: items without newlines are recovered
      by splitting the written content at its newlines. */
  lemma ListOutputRoundTrip(items: seq<string>)
    requires items != []
    requires forall i :: 0 <= i < |items| ==> '\n' !in items[i]
    ensures OutputContent(Items(items)).Ok?
    ensures Split(OutputContent(Items(items)).value, '\n') == items
  {
    SplitJoin(items, '\n');
  }

  /** A one-item list is written exactly like the string it holds. */
  lemma SingleItemLikeText(s: string)
    ensures OutputContent(Items([s])) == OutputContent(Text(s))
  {
  }

  const Version: string := "lucataco/deepseek-ocr:deedb3f2ecdf38e90c79e79befd926ba8e95077cfef92ffec06f2f3494f1ce82"

  /** The `api_input` of the call; the image goes as an open file, which the
      model leaves to the service. */
  datatype OcrRequest = OcrRequest(version: string, image: string, taskType: string, resolutionSize: string)

  /** `extract_with_deepseek_ocr`, from the output name on. `readable` says
      whether the input could be opened; `call` is the service. */
  function Extract(input: string, output: Option<string>, task: string, resolution: string,
                   force: bool, existing: set<string>, readable: bool,
                   call: OcrRequest -> Result<ApiOutput>): (r: RunOutcome)
    ensures r.Skipped? <==> ShouldSkip(TaskOutputFilename(input, output, task), force, existing)
    ensures r.Skipped? || r.Wrote? ==> r.name == TaskOutputFilename(input, output, task)
    ensures r.Wrote? ==>
              readable && call(OcrRequest(Version, input, task, resolution)).Ok? &&
              OutputContent(call(OcrRequest(Version, input, task, resolution)).value) == Ok(r.content)
  {
    var name := TaskOutputFilename(input, output, task);
    if ShouldSkip(name, force, existing) then Skipped(name)
    else if !readable then ErrorExit("cannot read " + input)
    else
      match call(OcrRequest(Version, input, task, resolution))
      case Err(e) => ErrorExit(e)
      case Ok(out) =>
        match OutputContent(out)
        case Ok(content) => Wrote(name, content)
        case Err(message) => Exited(message)
  }

  /** A skipped run makes no request. */
  lemma SkipMakesNoRequest(input: string, output: Option<string>, task: string, resolution: string,
                           force: bool, existing: set<string>, readable: bool,
                           call1: OcrRequest -> Result<ApiOutput>, call2: OcrRequest -> Result<ApiOutput>)
    requires ShouldSkip(TaskOutputFilename(input, output, task), force, existing)
    ensures Extract(input, output, task, resolution, force, existing, readable, call1)
         == Extract(input, output, task, resolution, force, existing, readable, call2)
  {
  }

  /** A run that goes ahead writes the reply exactly when the input is readable
      and the service answers with a string or a non-empty list, and then
      writes that content to the output name; otherwise it exits, with the
      service's error or the unexpected-format report. */
  lemma ExtractOutcome(input: string, output: Option<string>, task: string, resolution: string,
                       force: bool, existing: set<string>, readable: bool,
                       call: OcrRequest -> Result<ApiOutput>)
    requires !ShouldSkip(TaskOutputFilename(input, output, task), force, existing)
    ensures var answer := call(OcrRequest(Version, input, task, resolution));
      var r := Extract(input, output, task, resolution, force, existing, readable, call);
      && (r.Wrote? <==> readable && answer.Ok? && OutputContent(answer.value).Ok?)
      && (r.Wrote? ==> r == Wrote(TaskOutputFilename(input, output, task), OutputContent(answer.value).value))
      && (!r.Wrote? ==> r.Exited?)
      && (readable && answer.Err? ==> r == ErrorExit(answer.error))
      && (readable && answer.Ok? && OutputContent(answer.value).Err? ==> r == Exited(OutputContent(answer.value).error))
  {
  }

  /** An empty list from the service is an error exit, never an empty file. */
  lemma EmptyListExits(input: string, output: Option<string>, task: string, resolution: string,
                       existing: set<string>, call: OcrRequest -> Result<ApiOutput>)
    requires call(OcrRequest(Version, input, task, resolution)) == Ok(Items([]))
    ensures Extract(input, output, task, resolution, true, existing, true, call) == Exited(UnexpectedType("list"))
  {
  }
}

=== FILE: marker.dfy ===
/** The Marker PDF-to-Markdown wrapper for Replicate (pdfextractors/cuuupid_marker_replicate.py):
    the output is always `<base>.md`, where `<base>` is `-o` without its
    extension or the normalized input name, and the service answers with a
    dictionary whose `markdown` entry is a URL to fetch. */
module MarkerPdf {
  import opened Wrappers
  import opened PyPath
  import opened FileNames
  import opened Runs

  const MarkdownExtension: string := ".md"

  /** `generate_output_filename(input_file, output)`: a base name without
      extension. A given `-o` loses only its extension; otherwise the base is
      the normalized input name. */
  function BaseName(input: string, output: Option<string>): (r: string)
    ensures Given(output) ==> r + SplitExt(output.value).1 == output.value
    ensures !Given(output) ==> |r| <= DefaultMaxLength && forall i :: 0 <= i < |r| ==> IsNameChar(r[i])
  {
    if Given(output) then SplitExt(output.value).0 else NormalizeFilename(input, DefaultMaxLength)
  }

  /** The file the run writes: the base name with the Markdown extension
      appended. It always ends in `.md`, and a `-o` that already ends in `.md`
      is written as given. */
  function FinalName(input: string, output: Option<string>): (r: string)
    ensures |r| >= |MarkdownExtension| && r[|r| - |MarkdownExtension|..] == MarkdownExtension
    ensures Given(output) && SplitExt(output.value).1 == MarkdownExtension ==> r == output.value
  {
    BaseName(input, output) + MarkdownExtension
  }

  /** `check_existing_file(base_name)`: looks for `<base>.md`. */
  predicate CheckExistingFile(base: string, existing: set<string>) {
    base + MarkdownExtension in existing
  }

  /** The file checked for skipping is the file that would be written. */
  lemma SkipChecksFinalName(input: string, output: Option<string>, existing: set<string>)
    ensures CheckExistingFile(BaseName(input, output), existing) <==> FinalName(input, output) in existing
  {
  }

  /** `-o` keeps its directory and stem but always gets `.md`, whatever its
      own extension: `-o notes.txt` writes `notes.md`. */
  lemma OutputGetsMarkdownExtension(input: string, name: string, ext: string)
    requires !OnlyDots(Basename(name))
    requires ext != [] && ext[0] == '.' && ExtensionTail(ext)
    ensures FinalName(input, Some(name + ext)) == name + MarkdownExtension
  {
    SplitExtAppend(name, ext);
  }

  /** Whenever the base keeps a name, the output's extension is `.md`, and
      passing that output back as `-o` targets the same file. */
  lemma FinalNameStable(input: string, output: Option<string>)
    requires !OnlyDots(Basename(BaseName(input, output)))
    ensures SplitExt(FinalName(input, output)) == (BaseName(input, output), MarkdownExtension)
    ensures FinalName(input, Some(FinalName(input, output))) == FinalName(input, output)
  {
    SplitExtAppend(BaseName(input, output), MarkdownExtension);
  }

  const Version: string := "cuuupid/marker:9c67051309f6d10ca139489f15fcb5ebc4866a3734af537c181fb13bc719d280"

  /** The `input` of the call: the document is passed by its path. */
  datatype MarkerRequest = MarkerRequest(version: string, document: string, parallelFactor: int)

  const ParallelFactor: int := 10

  const UnexpectedFormat: string := "Error: Unexpected output format from the API."

  /** The Markdown URL of the reply: only a dictionary with a `markdown`
      entry has one. */
  function MarkdownUrl(output: ApiOutput): Result<string> {
    if output.Record? && "markdown" in output.fields then Ok(output.fields["markdown"]) else Err(UnexpectedFormat)
  }

  /** `convert_pdf_to_markdown`: skip, call the service, fetch the Markdown
      URL and write it to `<base>.md`. */
  function Convert(input: string, output: Option<string>, force: bool, existing: set<string>,
                   call: MarkerRequest -> Result<ApiOutput>, fetch: string -> Result<string>): (r: RunOutcome)
    ensures r.Skipped? <==> !force && CheckExistingFile(BaseName(input, output), existing)
    ensures r.Skipped? || r.Wrote? ==> r.name == FinalName(input, output)
    ensures r.Wrote? ==>
              var answer := call(MarkerRequest(Version, input, ParallelFactor));
              && answer.Ok? && answer.value.Record? && "markdown" in answer.value.fields
              && fetch(answer.value.fields["markdown"]) == Ok(r.content)
  {
    var base := BaseName(input, output);
    var name := base + MarkdownExtension;
    if !force && CheckExistingFile(base, existing) then Skipped(name)
    else
      match call(MarkerRequest(Version, input, ParallelFactor))
      case Err(e) => ErrorExit(e)
      case Ok(out) =>
        match MarkdownUrl(out)
        case Err(message) => Exited(message)
        case Ok(url) =>
          match fetch(url)
          case Err(e) => ErrorExit(e)
          case Ok(content) => Wrote(name, content)
  }

  /** A run that goes ahead writes exactly when the service answers with a
      dictionary holding `markdown` and that URL downloads; it writes the
      download to `<base>.md`. Any other reply is the unexpected-format exit,
      a failing call or download the error exit. */
  lemma ConvertOutcome(input: string, output: Option<string>, force: bool, existing: set<string>,
                       call: MarkerRequest -> Result<ApiOutput>, fetch: string -> Result<string>)
    requires !ShouldSkip(FinalName(input, output), force, existing)
    ensures var answer := call(MarkerRequest(Version, input, ParallelFactor));
      var r := Convert(input, output, force, existing, call, fetch);
      var hasUrl := answer.Ok? && answer.value.Record? && "markdown" in answer.value.fields;
      && (r.Wrote? <==> hasUrl && fetch(answer.value.fields["markdown"]).Ok?)
      && (r.Wrote? ==> r == Wrote(FinalName(input, output), fetch(answer.value.fields["markdown"]).value))
      && (!r.Wrote? ==> r.Exited?)
      && (answer.Err? ==> r == ErrorExit(answer.error))
      && (answer.Ok? && !hasUrl ==> r == Exited(UnexpectedFormat))
      && (hasUrl && fetch(answer.value.fields["markdown"]).Err? ==>
            r == ErrorExit(fetch(answer.value.fields["markdown"]).error))
  {
  }

  /** Skipping agrees with the shared rule applied to the file written. */
  lemma SkipMatchesWrittenFile(input: string, output: Option<string>, force: bool, existing: set<string>,
                               call: MarkerRequest -> Result<ApiOutput>, fetch: string -> Result<string>)
    ensures Convert(input, output, force, existing, call, fetch).Skipped? <==> ShouldSkip(FinalName(input, output), force, existing)
  {
  }

  /** A skipped run neither calls the service nor fetches anything. */
  lemma SkipMakesNoRequest(input: string, output: Option<string>, force: bool, existing: set<string>,
                           call1: MarkerRequest -> Result<ApiOutput>, fetch1: string -> Result<string>,
                           call2: MarkerRequest -> Result<ApiOutput>, fetch2: string -> Result<string>)
    requires ShouldSkip(FinalName(input, output), force, existing)
    ensures Convert(input, output, force, existing, call1, fetch1) == Convert(input, output, force, existing, call2, fetch2)
  {
  }
}

=== FILE: nougat.dfy ===
/** The Nougat PDF-to-Markdown wrapper for Replicate (pdfextractors/cudanexus_nougat_replicate.py):
    default `.md` output name, the PDF sent as a `data:` URL, and the
    service's answer fetched as a URL. */
module NougatPdf {
  import opened Wrappers
  import opened PyPath
  import opened FileNames
  import opened DataUrls
  import opened Runs

  /** `generate_output_filename(input_filename, output_filename)` */
  function OutputFilename(input: string, output: Option<string>): (r: string)
    ensures Given(output) ==> r == output.value
  {
    OutputOrDefault(input, output, ".md")
  }

  /** The default name is a `.md` file named after the input. */
  lemma DefaultIsMarkdown(input: string)
    requires Basename(input) != ""
    ensures SplitExt(OutputFilename(input, None)) == (NormalizeFilename(input, DefaultMaxLength), ".md")
  {
    DefaultNameSplits(input, ".md");
  }

  const Version: string := "cudanexus/nougat:d0b4e90da423598ff84debc9115bf891dd819843600ad842c0c178e3571f9e76"

  /** The `api_input` of the call: `pdf_file` as a PDF `data:` URL. */
  function PdfFile(payload: string): (r: string)
    ensures ParseDataUrl(r) == Some(("application/pdf", payload))
  {
    ParseDataUrlOfDataUrl("application/pdf", payload);
    DataUrl("application/pdf", payload)
  }

  const UnexpectedFormat: string := "Error: Unexpected output format from the API."

  /** A run's outcome and the lines it wrote to standard error. */
  datatype Conversion = Conversion(outcome: RunOutcome, stderr: seq<string>)

  /** `convert_pdf_to_markdown` as written: after the call, the unexpected-format
      message is printed unconditionally, and the output is then fetched as a
      URL; output that is not a string makes `requests.get` fail. */
  function ConvertAsWritten(input: string, output: Option<string>, force: bool, existing: set<string>,
                            payload: Option<string>, call: string -> Result<ApiOutput>,
                            fetch: string -> Result<string>): (r: Conversion)
    ensures r.outcome.Skipped? <==> ShouldSkip(OutputFilename(input, output), force, existing)
  {
    var name := OutputFilename(input, output);
    if ShouldSkip(name, force, existing) then
      Conversion(Skipped(name), ["SKIPPING: File '" + name + "' already exists."])
    else if payload.None? then Conversion(ErrorExit("cannot read " + input), ["Error: " + ("cannot read " + input)])
    else
      match call(PdfFile(payload.value))
      case Err(e) => Conversion(ErrorExit(e), ["Error: " + e])
      case Ok(out) =>
        var fetched := if out.Text? then fetch(out.text) else Err("invalid URL");
        match fetched
        case Ok(content) => Conversion(Wrote(name, content), [UnexpectedFormat])
        case Err(e) => Conversion(ErrorExit(e), [UnexpectedFormat, "Error: " + e])
  }

  /** As written, a successful conversion still reports an unexpected output
      format: a string URL that fetches reports the error and writes the file. */
  lemma SuccessReportsErrorAsWritten(input: string, payload: string,
                                     call: string -> Result<ApiOutput>, fetch: string -> Result<string>)
    requires call(PdfFile(payload)) == Ok(Text("https://example.com/out.md"))
    requires fetch("https://example.com/out.md") == Ok("# Title")
    ensures var r := ConvertAsWritten(input, None, true, {}, Some(payload), call, fetch);
      r.outcome == Wrote(OutputFilename(input, None), "# Title") && UnexpectedFormat in r.stderr
  {
  }

  /** `convert_pdf_to_markdown` as the message evidently means it: a string URL
      is fetched and written; any other output is the unexpected-format exit. */
  function Convert(input: string, output: Option<string>, force: bool, existing: set<string>,
                   payload: Option<string>, call: string -> Result<ApiOutput>,
                   fetch: string -> Result<string>): (r: Conversion)
    ensures r.outcome.Skipped? <==> ShouldSkip(OutputFilename(input, output), force, existing)
    ensures r.outcome.Skipped? || r.outcome.Wrote? ==> r.outcome.name == OutputFilename(input, output)
    ensures r.outcome.Wrote? ==>
              payload.Some? && call(PdfFile(payload.value)).Ok? && call(PdfFile(payload.value)).value.Text? &&
              fetch(call(PdfFile(payload.value)).value.text) == Ok(r.outcome.content)
  {
    var name := OutputFilename(input, output);
    if ShouldSkip(name, force, existing) then
      Conversion(Skipped(name), ["SKIPPING: File '" + name + "' already exists."])
    else if payload.None? then Conversion(ErrorExit("cannot read " + input), ["Error: " + ("cannot read " + input)])
    else
      match call(PdfFile(payload.value))
      case Err(e) => Conversion(ErrorExit(e), ["Error: " + e])
      case Ok(out) =>
        if !out.Text? then Conversion(Exited(UnexpectedFormat), [UnexpectedFormat])
        else
          match fetch(out.text)
          case Ok(content) => Conversion(Wrote(name, content), [])
          case Err(e) => Conversion(ErrorExit(e), ["Error: " + e])
  }

  /** A corrected run that goes ahead writes exactly when the input was read,
      the service answers with a string, and that URL downloads; it writes the
      download to the output name. A reply that is not a string is the
      unexpected-format exit; a failing call or download is the error exit. */
  lemma ConvertOutcome(input: string, output: Option<string>, force: bool, existing: set<string>,
                       payload: Option<string>, call: string -> Result<ApiOutput>,
                       fetch: string -> Result<string>)
    requires !ShouldSkip(OutputFilename(input, output), force, existing)
    ensures var r := Convert(input, output, force, existing, payload, call, fetch).outcome;
      && (payload.None? ==> r.Exited?)
      && (payload.Some? ==>
            var answer := call(PdfFile(payload.value));
            && (r.Wrote? <==> answer.Ok? && answer.value.Text? && fetch(answer.value.text).Ok?)
            && (r.Wrote? ==> r == Wrote(OutputFilename(input, output), fetch(answer.value.text).value))
            && (!r.Wrote? ==> r.Exited?)
            && (answer.Err? ==> r == ErrorExit(answer.error))
            && (answer.Ok? && !answer.value.Text? ==> r == Exited(UnexpectedFormat))
            && (answer.Ok? && answer.value.Text? && fetch(answer.value.text).Err? ==>
                  r == ErrorExit(fetch(answer.value.text).error)))
  {
  }

  /** The corrected run reports an error only when it exits, and then reports
      exactly the message it exits with; it writes the same file as the run
      as written whenever the latter succeeds. */
  lemma ConvertReportsOnlyRealErrors(input: string, output: Option<string>, force: bool, existing: set<string>,
                                     payload: Option<string>, call: string -> Result<ApiOutput>,
                                     fetch: string -> Result<string>)
    ensures var r := Convert(input, output, force, existing, payload, call, fetch);
      && (r.outcome.Wrote? ==> r.stderr == [])
      && (r.outcome.Exited? ==> r.stderr == [r.outcome.message])
    ensures var w := ConvertAsWritten(input, output, force, existing, payload, call, fetch);
      w.outcome.Wrote? ==> Convert(input, output, force, existing, payload, call, fetch).outcome == w.outcome
  {
    if !ShouldSkip(OutputFilename(input, output), force, existing) && payload.Some? {
      match call(PdfFile(payload.value))
      case Err(e) =>
      case Ok(out) =>
        if out.Text? {
          match fetch(out.text)
          case Ok(content) =>
          case Err(e) => assert ErrorExit(e).message == "Error: " + e;
        }
    }
  }

  /** As written, every run that reaches the service reports the
      unexpected-format message first, whatever the service answered. */
  lemma AsWrittenAlwaysReports(input: string, output: Option<string>, force: bool, existing: set<string>,
                               payload: string, call: string -> Result<ApiOutput>,
                               fetch: string -> Result<string>)
    requires !ShouldSkip(OutputFilename(input, output), force, existing)
    requires call(PdfFile(payload)).Ok?
    ensures var w := ConvertAsWritten(input, output, force, existing, Some(payload), call, fetch);
      |w.stderr| >= 1 && w.stderr[0] == UnexpectedFormat
  {
  }

  /** A skipped run makes no request. */
  lemma SkipMakesNoRequest(input: string, output: Option<string>, force: bool, existing: set<string>,
                           payload: Option<string>, call1: string -> Result<ApiOutput>,
                           call2: string -> Result<ApiOutput>, fetch: string -> Result<string>)
    requires ShouldSkip(OutputFilename(input, output), force, existing)
    ensures Convert(input, output, force, existing, payload, call1, fetch) == Convert(input, output, force, existing, payload, call2, fetch)
  {
  }
}

=== FILE: pdf_pages.dfy ===
/** The PDF page-size example (misc/code_samples/process_pdf_pages_one_by_one_as_image_example.py):
    leveled diagnostics, page counting by ordered fallback over three methods,
    page rendering by ordered fallback over two renderers, and the loop over
    the requested page range. Libraries, subprocesses and files are oracles. */
module PdfPages {
  import opened Wrappers
  import opened PyStr
  import opened Fallback
  import opened PyPath

  // ---------------------------------------------------------------- diagnostics

  const QUIET: int := 0
  const INFO: int := 1
  const VERBOSE: int := 2
  const VERBOSE2: int := 3
  const DEBUG: int := 4

  /** The prefix table of `vprint`; a level outside it gets the empty prefix. */
  function LevelPrefix(level: int): (r: string)
    ensures r != "" <==> INFO <= level <= DEBUG
  {
    if level == INFO then "INFO"
    else if level == VERBOSE then "VERBOSE"
    else if level == VERBOSE2 then "VERBOSE2"
    else if level == DEBUG then "DEBUG"
    else ""
  }

  /** The stderr line `vprint(level, *args)` writes under the configured level:
      the prefix and a colon, then the arguments, separated by spaces. */
  function VPrintLine(configured: int, level: int, args: seq<string>): (r: Option<string>)
    ensures r.Some? <==> configured >= level
    ensures r.Some? ==> LevelPrefix(level) + ":" <= r.value
  {
    if configured >= level then Some(Join([LevelPrefix(level) + ":"] + args, ' ')) else None
  }

  /** The lines a sequence of `vprint` calls writes under one configured level. */
  function EmittedLines(configured: int, calls: seq<(int, seq<string>)>): seq<string>
  {
    if calls == [] then []
    else
      var line := VPrintLine(configured, calls[0].0, calls[0].1);
      (if line.Some? then [line.value] else []) + EmittedLines(configured, calls[1..])
  }

  /** Raising the configured level never suppresses a line a lower level wrote:
      every line written at `low` is written at `high`, as often or more. */
  lemma {:induction false} EmittedLinesMonotone(low: int, high: int, calls: seq<(int, seq<string>)>)
    requires low <= high
    ensures multiset(EmittedLines(low, calls)) <= multiset(EmittedLines(high, calls))
    ensures |EmittedLines(low, calls)| <= |EmittedLines(high, calls)|
  {
    if calls != [] {
      EmittedLinesMonotone(low, high, calls[1..]);
      var l := VPrintLine(low, calls[0].0, calls[0].1);
      var h := VPrintLine(high, calls[0].0, calls[0].1);
      assert l.Some? ==> h == l;
    }
  }

  /** The level `main` configures: `QUIET` under `-q`, otherwise one above the
      number of `-v` flags, capped at `DEBUG`. */
  function ConfiguredLevel(quiet: bool, verboseCount: nat): (level: int)
    ensures quiet ==> level == QUIET
    ensures !quiet ==> INFO <= level <= DEBUG
    ensures !quiet && verboseCount < DEBUG ==> level == verboseCount + 1
    ensures !quiet && verboseCount >= DEBUG ==> level == DEBUG
  {
    if quiet then QUIET else if DEBUG <= verboseCount + 1 then DEBUG else verboseCount + 1
  }

  /** The module-global `verbose_level`, which `main` overwrites once. */
  class Diagnostics {
    var verboseLevel: int

    /** `verbose_level = INFO` at import time. */
    constructor ()
      ensures verboseLevel == INFO
    {
      verboseLevel := INFO;
    }

    /** `main` overwrites the global level once, from `-q` and the `-v` count. */
    method Configure(quiet: bool, verboseCount: nat)
      modifies this
      ensures verboseLevel == ConfiguredLevel(quiet, verboseCount)
    {
      verboseLevel := ConfiguredLevel(quiet, verboseCount);
    }

    /** `vprint(level, *args)` under the current global level. */
    function VPrint(level: int, args: seq<string>): (r: Option<string>)
      reads this
      ensures r.Some? <==> verboseLevel >= level
    {
      VPrintLine(verboseLevel, level, args)
    }
  }

  // ---------------------------------------------------------------- page counting

  /** The answers of the page-count methods on one file, in list order. */
  function PageCounts(methods: seq<string -> Option<int>>, pdf: string): (xs: seq<Option<int>>)
    ensures |xs| == |methods|
    ensures forall i :: 0 <= i < |methods| ==> xs[i] == methods[i](pdf)
  {
    seq(|methods|, i requires 0 <= i < |methods| => methods[i](pdf))
  }

  /** `get_no_of_pages_pdf`: calls the methods in order and stops at the first
      answer that is not `None`; `invoked` counts the calls made. */
  method GetNoOfPagesPdf(methods: seq<string -> Option<int>>, pdf: string)
    returns (pages: Option<int>, invoked: nat)
    ensures pages == FirstSome(PageCounts(methods, pdf))
    ensures invoked == Attempts(PageCounts(methods, pdf))
  {
    ghost var xs := PageCounts(methods, pdf);
    pages := None;
    invoked := 0;
    while invoked < |methods|
      invariant invoked <= |methods|
      invariant forall k :: 0 <= k < invoked ==> xs[k].None?
      invariant pages.None?
    {
      pages := methods[invoked](pdf);
      invoked := invoked + 1;
      if pages.Some? {
        FirstIndexUnique(xs, invoked - 1);
        return;
      }
    }
    FirstIndexUnique(xs, |xs|);
  }

  /** The text between the first and the second `:` of a line that holds one. */
  function AfterFirstColon(line: string): string
    requires ':' in line
  {
    SplitPieces(line, ':');
    Split(line, ':')[1]
  }

  /** The integer between the line's first and second colon, spaces around it
      ignored; `None` when that text is not an integer. */
  function PagesOfLine(line: string): Option<int>
    requires ':' in line
  {
    ParseInt(StripSpace(AfterFirstColon(line)))
  }

  lemma PagesMarkerHasColon(line: string)
    requires Contains(line, "Pages:")
    ensures ':' in line
  {
    ContainsIff(line, "Pages:");
    var i :| OccursAt(line, "Pages:", i);
    assert line[i + 5] == "Pages:"[5];
  }

  /** What the `pdfinfo` method makes of the tool's output lines: the first
      line containing `Pages:` decides, later lines are never looked at. */
  function PagesOfPdfinfoLines(lines: seq<string>): (r: Option<int>)
    ensures (forall i :: 0 <= i < |lines| ==> !Contains(lines[i], "Pages:")) ==> r.None?
  {
    if lines == [] then None
    else if Contains(lines[0], "Pages:") then
      PagesMarkerHasColon(lines[0]);
      PagesOfLine(lines[0])
    else PagesOfPdfinfoLines(lines[1..])
  }

  /** `get_no_of_pages_pdf_with_pdfinfo` on the captured stdout of `pdfinfo`. */
  function PagesOfPdfinfo(stdout: string): Option<int> {
    PagesOfPdfinfoLines(Split(stdout, '\n'))
  }

  /** The loop of `get_no_of_pages_pdf_with_pdfinfo` over the output lines. */
  method ParsePdfinfoOutput(stdout: string) returns (pages: Option<int>)
    ensures pages == PagesOfPdfinfo(stdout)
  {
    var lines := Split(stdout, '\n');
    var i := 0;
    while i < |lines|
      invariant i <= |lines|
      invariant PagesOfPdfinfoLines(lines) == PagesOfPdfinfoLines(lines[i..])
    {
      if Contains(lines[i], "Pages:") {
        PagesMarkerHasColon(lines[i]);
        pages := ParseInt(StripSpace(AfterFirstColon(lines[i])));
        return;
      }
      assert lines[i..][1..] == lines[i + 1..];
      i := i + 1;
    }
    pages := None;
  }

  /** The first output line containing `Pages:` decides the count, whatever
      lines without it come before and whatever lines come after. */
  lemma FirstMarkedLineDecides(before: seq<string>, line: string, after: seq<string>)
    requires forall i :: 0 <= i < |before| ==> !Contains(before[i], "Pages:") && '\n' !in before[i]
    requires forall i :: 0 <= i < |after| ==> '\n' !in after[i]
    requires Contains(line, "Pages:") && '\n' !in line
    ensures ':' in line
    ensures PagesOfPdfinfo(Join(before + [line] + after, '\n')) == PagesOfLine(line)
  {
    PagesMarkerHasColon(line);
    var tail := [line] + after;
    var lines := before + tail;
    assert before + [line] + after == lines;
    forall k | 0 <= k < |lines| ensures '\n' !in lines[k] {
      if k < |before| {
        assert lines[k] == before[k];
      } else {
        assert lines[k] == tail[k - |before|];
      }
    }
    SplitJoin(lines, '\n');
    SkipUnmarked(before, tail);
    assert tail[0] == line;
  }

  /** `pdfinfo`'s usual report line, `Pages:` followed by padding and the
      count, yields the count wherever it stands after lines without `Pages:`. */
  lemma PdfinfoReportsCount(before: seq<string>, padding: string, n: nat, after: seq<string>)
    requires forall i :: 0 <= i < |before| ==> !Contains(before[i], "Pages:") && '\n' !in before[i]
    requires forall i :: 0 <= i < |after| ==> '\n' !in after[i]
    requires forall i :: 0 <= i < |padding| ==> padding[i] == ' '
    ensures PagesOfPdfinfo(Join(before + ["Pages:" + padding + NatToString(n)] + after, '\n')) == Some(n)
  {
    PagesLineValue(padding, n);
    FirstMarkedLineDecides(before, "Pages:" + padding + NatToString(n), after);
  }

  lemma {:induction false} SkipUnmarked(before: seq<string>, rest: seq<string>)
    requires forall i :: 0 <= i < |before| ==> !Contains(before[i], "Pages:")
    ensures PagesOfPdfinfoLines(before + rest) == PagesOfPdfinfoLines(rest)
  {
    if before == [] {
      assert before + rest == rest;
    } else {
      assert (before + rest)[0] == before[0];
      assert (before + rest)[1..] == before[1..] + rest;
      SkipUnmarked(before[1..], rest);
    }
  }

  /** The report line holds one `:`, no newline, and its value parses back to the count. */
  lemma PagesLineValue(padding: string, n: nat)
    requires forall i :: 0 <= i < |padding| ==> padding[i] == ' '
    ensures Contains("Pages:" + padding + NatToString(n), "Pages:")
    ensures '\n' !in "Pages:" + padding + NatToString(n)
    ensures ':' in "Pages:" + padding + NatToString(n)
    ensures PagesOfLine("Pages:" + padding + NatToString(n)) == Some(n)
  {
    var digits := NatToString(n);
    var tail := padding + digits;
    var line := "Pages:" + padding + digits;
    assert line == "Pages:" + tail;
    assert forall k :: 0 <= k < |tail| ==> tail[k] == ' ' || IsDigit(tail[k]) by {
      forall k | 0 <= k < |tail| ensures tail[k] == ' ' || IsDigit(tail[k]) {
        if k >= |padding| { assert tail[k] == digits[k - |padding|]; }
      }
    }
    assert '\n' !in line by {
      forall k | 0 <= k < |line| ensures line[k] != '\n' {
        if k >= 6 { assert line[k] == tail[k - 6]; }
      }
    }
    MarkerLine(tail);
    PaddedStrip(padding, digits);
    assert StripSpace(AfterFirstColon(line)) == digits;
    ParseIntOfString(n);
    assert IntToString(n) == digits;
  }

  /** A line made of `Pages:` and a colon-free rest has the rest after its colon. */
  lemma MarkerLine(rest: string)
    requires ':' !in rest
    ensures Contains("Pages:" + rest, "Pages:")
    ensures ':' in "Pages:" + rest
    ensures AfterFirstColon("Pages:" + rest) == rest
  {
    var line := "Pages:" + rest;
    assert line[5] == ':';
    assert "Pages:" <= line;
    JoinCons("Pages", [rest], ':');
    assert Join(["Pages", rest], ':') == line;
    SplitJoin(["Pages", rest], ':');
  }

  lemma PaddedStrip(padding: string, s: string)
    requires forall i :: 0 <= i < |padding| ==> padding[i] == ' '
    requires s != [] && !IsSpace(s[0]) && !IsSpace(s[|s| - 1])
    ensures StripSpace(padding + s) == s
  {
    var p := padding + s;
    assert p[|padding|..|padding| + |s|] == s;
    forall k | 0 <= k < |padding| ensures IsSpace(p[k]) {
      assert p[k] == padding[k];
    }
    StripUnique(p, s, |padding|, IsSpace);
  }

  /** The three page-count methods in the order of `get_no_of_pages_pdf_ALL`:
      PyPDF2, pypdf, then `pdfinfo`, whose captured output is `None` when the
      subprocess itself failed (the method then returns `None`). */
  function DefaultPageCounters(pyPdf2: string -> Option<int>, pypdf: string -> Option<int>,
                               pdfinfo: string -> Option<string>): (r: seq<string -> Option<int>>)
    ensures |r| == 3 && r[0] == pyPdf2 && r[1] == pypdf
    ensures forall pdf :: pdfinfo(pdf).None? ==> r[2](pdf).None?
    ensures forall pdf :: pdfinfo(pdf).Some? ==> r[2](pdf) == PagesOfPdfinfo(pdfinfo(pdf).value)
  {
    [pyPdf2, pypdf, (pdf: string) => if pdfinfo(pdf).Some? then PagesOfPdfinfo(pdfinfo(pdf).value) else None]
  }

  /** With the default list, PyPDF2's answer wins when it has one and nothing
      else runs; `pdfinfo` runs only after both libraries gave `None`. */
  lemma DefaultCounterOrder(pyPdf2: string -> Option<int>, pypdf: string -> Option<int>,
                            pdfinfo: string -> Option<string>, pdf: string)
    ensures var xs := PageCounts(DefaultPageCounters(pyPdf2, pypdf, pdfinfo), pdf);
      && (pyPdf2(pdf).Some? ==> FirstSome(xs) == pyPdf2(pdf) && Attempts(xs) == 1)
      && (pyPdf2(pdf).None? && pypdf(pdf).Some? ==> FirstSome(xs) == pypdf(pdf) && Attempts(xs) == 2)
      && (pyPdf2(pdf).None? && pypdf(pdf).None? ==> Attempts(xs) == 3)
  {
    var xs := PageCounts(DefaultPageCounters(pyPdf2, pypdf, pdfinfo), pdf);
    if pyPdf2(pdf).Some? {
      FirstIndexUnique(xs, 0);
    } else if pypdf(pdf).Some? {
      FirstIndexUnique(xs, 1);
    }
  }

  // ---------------------------------------------------------------- page rendering

  /** What one renderer call does: returns `True`, returns `False`, or raises
      an exception that is not caught by the fallback loop. */
  datatype RenderAttempt = Produced | Declined | Raised(error: string)

  /** The arguments of a renderer call. */
  datatype RenderRequest = RenderRequest(pdf: string, page: int, tmpPng: string, dpi: int)

  /** `None` for an attempt that lets the loop go on, the loop's outcome otherwise. */
  function Decisive(a: RenderAttempt): Option<Result<bool>> {
    match a
    case Produced => Some(Ok(true))
    case Declined => None
    case Raised(e) => Some(Err(e))
  }

  /** What each renderer's attempt means for the loop, in list order. */
  function RenderAnswers(renderers: seq<RenderRequest -> RenderAttempt>, req: RenderRequest): (xs: seq<Option<Result<bool>>>)
    ensures |xs| == |renderers|
    ensures forall i :: 0 <= i < |renderers| ==> xs[i] == Decisive(renderers[i](req))
  {
    seq(|renderers|, i requires 0 <= i < |renderers| => Decisive(renderers[i](req)))
  }

  /** `pdf_page_as_png_image`: `True` from the first renderer that produces the
      image, an exception from the first that raises, `False` when all decline. */
  function RenderPage(renderers: seq<RenderRequest -> RenderAttempt>, req: RenderRequest): (r: Result<bool>)
    ensures r.Err? ==> exists i :: 0 <= i < |renderers| && renderers[i](req) == Raised(r.error)
                                   && forall k :: 0 <= k < i ==> renderers[k](req) == Declined
  {
    var xs := RenderAnswers(renderers, req);
    var first := FirstSome(xs);
    if first.Some? then
      var i := FirstIndex(xs);
      assert first.value.Err? ==> renderers[i](req) == Raised(first.value.error) by {
        assert Decisive(renderers[i](req)) == first;
      }
      assert forall k :: 0 <= k < i ==> renderers[k](req) == Declined by {
        forall k | 0 <= k < i ensures renderers[k](req) == Declined {
          assert Decisive(renderers[k](req)) == xs[k];
        }
      }
      first.value
    else Ok(false)
  }

  /** The result is `True` exactly when some renderer produces the image and
      every renderer before it declined; an empty list gives `False`. */
  lemma RenderPageTrueIff(renderers: seq<RenderRequest -> RenderAttempt>, req: RenderRequest)
    ensures RenderPage(renderers, req) == Ok(true) <==>
      exists i :: 0 <= i < |renderers| && renderers[i](req) == Produced
        && forall k :: 0 <= k < i ==> renderers[k](req) == Declined
    ensures RenderPage(renderers, req) == Ok(false) <==>
      forall k :: 0 <= k < |renderers| ==> renderers[k](req) == Declined
    ensures |renderers| == 0 ==> RenderPage(renderers, req) == Ok(false)
  {
    var xs := RenderAnswers(renderers, req);
    if exists i :: 0 <= i < |renderers| && renderers[i](req) == Produced
        && forall k :: 0 <= k < i ==> renderers[k](req) == Declined {
      var i :| 0 <= i < |renderers| && renderers[i](req) == Produced
        && forall k :: 0 <= k < i ==> renderers[k](req) == Declined;
      FirstIndexUnique(xs, i);
    }
  }

  /** The loop of `pdf_page_as_png_image`; `invoked` counts the renderer calls. */
  method PdfPageAsPngImage(renderers: seq<RenderRequest -> RenderAttempt>, req: RenderRequest)
    returns (r: Result<bool>, invoked: nat)
    ensures r == RenderPage(renderers, req)
    ensures invoked == Attempts(RenderAnswers(renderers, req))
  {
    ghost var xs := RenderAnswers(renderers, req);
    invoked := 0;
    while invoked < |renderers|
      invariant invoked <= |renderers|
      invariant forall k :: 0 <= k < invoked ==> xs[k].None?
    {
      var attempt := renderers[invoked](req);
      invoked := invoked + 1;
      match attempt {
        case Produced =>
          FirstIndexUnique(xs, invoked - 1);
          return Ok(true), invoked;
        case Raised(e) =>
          FirstIndexUnique(xs, invoked - 1);
          return Err(e), invoked;
        case Declined =>
      }
    }
    FirstIndexUnique(xs, |xs|);
    r := Ok(false);
  }

  /** How an external tool run ends: with an exit status, or without starting
      because the binary is not installed (`FileNotFoundError`). */
  datatype ToolRun = Exited(status: int) | NotInstalled

  /** `pdf_page_as_png_image_with_imagemagick` as written: a non-zero exit is a
      `CalledProcessError` and declines, a missing binary raises. */
  function ImagemagickAttempt(run: ToolRun): (r: RenderAttempt)
    ensures r == Produced <==> run == Exited(0)
    ensures r.Raised? <==> run.NotInstalled?
  {
    match run
    case Exited(status) => if status == 0 then Produced else Declined
    case NotInstalled => Raised("FileNotFoundError: magick")
  }

  /** The exception `os.rename` raises when the file it is asked to move does not exist. */
  const RenameFailed: string := "FileNotFoundError: rename"

  /** `pdf_page_as_png_image_with_pdftoppm`: a non-zero exit declines; a missing
      binary, or a rename whose source file is not there, raises. */
  function PdftoppmAttempt(run: ToolRun, renamed: bool): (r: RenderAttempt)
    ensures r == Produced <==> run == Exited(0) && renamed
    ensures r == Declined <==> run.Exited? && run.status != 0
    ensures r == Raised(RenameFailed) <==> run == Exited(0) && !renamed
  {
    match run
    case Exited(status) =>
      if status != 0 then Declined else if renamed then Produced else Raised(RenameFailed)
    case NotInstalled => Raised("FileNotFoundError: pdftoppm")
  }

  /** `digits` padded on the left with zeros to `width` characters. */
  function ZeroPad(digits: string, width: nat): (r: string)
    ensures |r| == if |digits| >= width then |digits| else width
    ensures r[|r| - |digits|..] == digits
    ensures forall k :: 0 <= k < |r| - |digits| ==> r[k] == '0'
  {
    if |digits| >= width then digits else seq(width - |digits|, _ => '0') + digits
  }

  /** The file `pdftoppm -png` writes for page `page` of a document of
      `docPages` pages under `prefix`: `<prefix>-<page>.png`, the page number
      padded with zeros to as many digits as the page count has. */
  function PdftoppmWrites(prefix: string, page: nat, docPages: nat): string {
    prefix + "-" + ZeroPad(NatToString(page), |NatToString(docPages)|) + ".png"
  }

  /** `tmp_png.rsplit('.', 1)[0]`, the output prefix handed to `pdftoppm`. */
  function PdftoppmPrefix(tmpPng: string): (r: string)
    ensures r <= tmpPng
  {
    var d := LastIndexOf(tmpPng, '.');
    if d >= 0 then tmpPng[..d] else tmpPng
  }

  /** The file the pdftoppm renderer renames to `tmp_png`. */
  function PdftoppmOutput(tmpPng: string): string {
    PdftoppmPrefix(tmpPng) + "-1.png"
  }

  /** For the `.png` temp file, the prefix is the name without `.png`, dots
      earlier in the name notwithstanding, and the renamed file sits beside it. */
  lemma PdftoppmPrefixOfPng(stem: string)
    ensures PdftoppmPrefix(stem + ".png") == stem
    ensures PdftoppmOutput(stem + ".png") == stem + "-1.png"
  {
    var t := stem + ".png";
    LastIndexOfUnique(t, '.', |stem|);
    assert t[..|stem|] == stem;
  }

  /** Whether the file the script renames is the one `pdftoppm` wrote for the
      request, in a document of `docPages` pages. */
  predicate RenameFinds(req: RenderRequest, docPages: nat) {
    req.page >= 0 && PdftoppmWrites(PdftoppmPrefix(req.tmpPng), req.page, docPages) == PdftoppmOutput(req.tmpPng)
  }

  /** As written, the renamed file `<prefix>-1.png` is the one `pdftoppm`
      wrote only for page 1 of a document of fewer than ten pages. */
  lemma {:induction false} PdftoppmRenameFindsOnlyPageOne(stem: string, page: nat, docPages: nat)
    requires 1 <= page <= docPages
    ensures PdftoppmWrites(stem, page, docPages) == stem + "-1.png" <==> page == 1 && docPages < 10
  {
    var d, w := NatToString(page), |NatToString(docPages)|;
    var p := ZeroPad(d, w);
    var name := PdftoppmWrites(stem, page, docPages);
    assert name == stem + "-" + p + ".png";
    NatToStringSingleDigit(page);
    NatToStringSingleDigit(docPages);
    if page == 1 && docPages < 10 {
      assert d == "1";
      assert name == stem + "-1.png";
    }
    if name == stem + "-1.png" {
      assert |p| == 1;
      assert name[|stem| + 1..|stem| + 2] == p;
      assert p == "1";
      assert w <= 1 && |d| == 1;
      assert p[|p| - |d|..] == d;
      assert d == [DigitChar(page)];
    }
  }

  /** A number is written with one digit exactly when it is below ten. */
  lemma NatToStringSingleDigit(n: nat)
    ensures |NatToString(n)| == 1 <==> n < 10
    ensures n < 10 ==> NatToString(n) == [DigitChar(n)]
  {
    if n >= 10 {
      assert NatToString(n) == NatToString(n / 10) + [DigitChar(n % 10)];
    }
  }

  /** `pdf_page_as_png_image_ALL`, given how each tool behaves on a request
      and the page count of the document `pdftoppm` reads. */
  function DefaultRenderers(magick: RenderRequest -> ToolRun, pdftoppm: RenderRequest -> ToolRun, docPages: nat)
    : (r: seq<RenderRequest -> RenderAttempt>)
    ensures |r| == 2
    ensures forall req :: r[0](req) == ImagemagickAttempt(magick(req))
    ensures forall req :: r[1](req) == PdftoppmAttempt(pdftoppm(req), RenameFinds(req, docPages))
  {
    [(req: RenderRequest) => ImagemagickAttempt(magick(req)),
     (req: RenderRequest) => PdftoppmAttempt(pdftoppm(req), RenameFinds(req, docPages))]
  }

  /** As written, a machine without ImageMagick never reaches `pdftoppm`: the
      `FileNotFoundError` escapes the fallback loop, even when `pdftoppm` would
      have produced the page. */
  lemma MissingImagemagickAborts(magick: RenderRequest -> ToolRun, pdftoppm: RenderRequest -> ToolRun,
                                 docPages: nat, req: RenderRequest)
    requires magick(req) == NotInstalled
    ensures RenderPage(DefaultRenderers(magick, pdftoppm, docPages), req).Err?
    ensures Attempts(RenderAnswers(DefaultRenderers(magick, pdftoppm, docPages), req)) == 1
  {
    FirstIndexUnique(RenderAnswers(DefaultRenderers(magick, pdftoppm, docPages), req), 0);
  }

  /** As written, the rename finds its file for the temporary `<stem>.png`
      only on page 1 of a document of fewer than ten pages. */
  lemma RenameFindsOnlyPageOne(pdf: string, stem: string, dpi: int, docPages: nat, page: nat)
    requires 1 <= page <= docPages
    ensures RenameFinds(RenderRequest(pdf, page, stem + ".png", dpi), docPages) <==> page == 1 && docPages < 10
  {
    PdftoppmPrefixOfPng(stem);
    PdftoppmRenameFindsOnlyPageOne(stem, page, docPages);
  }

  /** As written, where ImageMagick declines a request and `pdftoppm` succeeds
      on it, the page renders exactly when the rename finds its file, and
      otherwise raises on the rename. */
  lemma DeclinedMagickFallsToPdftoppm(magick: RenderRequest -> ToolRun, pdftoppm: RenderRequest -> ToolRun,
                                      docPages: nat, req: RenderRequest)
    requires magick(req) == Exited(1) && pdftoppm(req) == Exited(0)
    ensures RenderPage(DefaultRenderers(magick, pdftoppm, docPages), req)
      == if RenameFinds(req, docPages) then Ok(true) else Err(RenameFailed)
  {
    var rs := DefaultRenderers(magick, pdftoppm, docPages);
    var xs := RenderAnswers(rs, req);
    assert xs[0] == None;
    if RenameFinds(req, docPages) {
      assert xs[1] == Some(Ok(true));
    } else {
      assert xs[1] == Some(Err(RenameFailed));
    }
    FirstIndexUnique(xs, 1);
  }

  /** As written, where ImageMagick declines and `pdftoppm` succeeds on every
      page, a run over a document of two or more pages raises on the rename:
      at page 1 when the document has ten pages or more, otherwise at page 2
      after page 1 was reported. */
  lemma PdftoppmRunStops(magick: RenderRequest -> ToolRun, pdftoppm: RenderRequest -> ToolRun,
                         pdf: string, stem: string, dpi: int, docPages: nat, copy: bool)
    requires forall req :: magick(req) == Exited(1)
    requires forall req :: pdftoppm(req) == Exited(0)
    requires 2 <= docPages
    ensures var run := VisitPages(1, docPages, PageRender(DefaultRenderers(magick, pdftoppm, docPages), pdf, stem + ".png", dpi), copy);
      && run.error == Some(RenameFailed)
      && |run.reports| == (if docPages < 10 then 1 else 0)
  {
    var rs := DefaultRenderers(magick, pdftoppm, docPages);
    var render := PageRender(rs, pdf, stem + ".png", dpi);
    assert render(1) == if docPages < 10 then Ok(true) else Err(RenameFailed) by {
      var req := RenderRequest(pdf, 1, stem + ".png", dpi);
      RenameFindsOnlyPageOne(pdf, stem, dpi, docPages, 1);
      DeclinedMagickFallsToPdftoppm(magick, pdftoppm, docPages, req);
    }
    VisitPagesStep(1, docPages, render, copy);
    if docPages < 10 {
      assert render(2) == Err(RenameFailed) by {
        var req := RenderRequest(pdf, 2, stem + ".png", dpi);
        RenameFindsOnlyPageOne(pdf, stem, dpi, docPages, 2);
        DeclinedMagickFallsToPdftoppm(magick, pdftoppm, docPages, req);
      }
      VisitPagesStep(2, docPages, render, copy);
    }
  }

  /** The renderers as the fallback design intends them: a tool that is missing
      or whose output cannot be renamed declines, so the next one is tried. */
  function ImagemagickAttemptFixed(run: ToolRun): RenderAttempt {
    match run
    case Exited(status) => if status == 0 then Produced else Declined
    case NotInstalled => Declined
  }

  /** The intended pdftoppm renderer renames the file `pdftoppm` wrote for the
      requested page, `PdftoppmWrites`, so a successful run always produces. */
  function PdftoppmAttemptFixed(run: ToolRun): RenderAttempt {
    if run == Exited(0) then Produced else Declined
  }

  function Renderers(magick: RenderRequest -> ToolRun, pdftoppm: RenderRequest -> ToolRun)
    : seq<RenderRequest -> RenderAttempt>
  {
    [(req: RenderRequest) => ImagemagickAttemptFixed(magick(req)),
     (req: RenderRequest) => PdftoppmAttemptFixed(pdftoppm(req))]
  }

  /** With the intended renderers, a page is rendered exactly when either tool
      produces it, and rendering never raises. */
  lemma RenderersFallBack(magick: RenderRequest -> ToolRun, pdftoppm: RenderRequest -> ToolRun, req: RenderRequest)
    ensures RenderPage(Renderers(magick, pdftoppm), req) == Ok(magick(req) == Exited(0) || pdftoppm(req) == Exited(0))
  {
    var rs := Renderers(magick, pdftoppm);
    var xs := RenderAnswers(rs, req);
    if magick(req) == Exited(0) {
      FirstIndexUnique(xs, 0);
    } else if pdftoppm(req) == Exited(0) {
      FirstIndexUnique(xs, 1);
    } else {
      FirstIndexUnique(xs, 2);
    }
  }

  // ---------------------------------------------------------------- the page loop

  /** One printed line of the report: the page converted (its size is printed)
      or "conversion failed"; `copied` when the temp file went to the output
      directory. */
  datatype PageReport = PageReport(page: int, converted: bool, copied: bool)

  /** The report lines printed, and the exception that ended the run early, if any. */
  datatype PageRun = PageRun(reports: seq<PageReport>, error: Option<string>)

  /** The first page to convert: the one asked for, page 1 when none (or 0) is given. */
  function FirstPage(first: Option<int>): (r: int)
    ensures r != 0
    ensures r == 1 || (first.Some? && r == first.value)
  {
    if first.None? || first.value == 0 then 1 else first.value
  }

  /** The last page to convert: the one asked for, the document's last when none (or 0) is given. */
  function LastPage(last: Option<int>, pages: int): (r: int)
    ensures r == pages || (last.Some? && r == last.value && r != 0)
    ensures last.Some? && last.value != 0 ==> r == last.value
  {
    if last.None? || last.value == 0 then pages else last.value
  }

  /** `pdf_page_as_png_image(pdf_filename, page_no, tmp_png, dpi)` for each page
      number, the other arguments being those of the whole run. */
  function PageRender(renderers: seq<RenderRequest -> RenderAttempt>, pdf: string, tmpPng: string, dpi: int)
    : int -> Result<bool>
  {
    page => RenderPage(renderers, RenderRequest(pdf, page, tmpPng, dpi))
  }

  /** Pages `page` to `last` in ascending order, `render` giving each page's
      rendering result; a raising renderer ends the run. */
  function VisitPages(page: int, last: int, render: int -> Result<bool>, copy: bool): (r: PageRun)
    decreases if page <= last then last - page + 1 else 0
  {
    if page > last then PageRun([], None)
    else
      match render(page)
      case Err(e) => PageRun([], Some(e))
      case Ok(converted) =>
        var rest := VisitPages(page + 1, last, render, copy);
        PageRun([PageReport(page, converted, copy)] + rest.reports, rest.error)
  }

  /** `filesize_of_each_page_image_export_as_pdf`, from the page count on. */
  function PageRunOf(count: Option<int>, first: Option<int>, last: Option<int>, outputDir: Option<string>,
                     renderers: seq<RenderRequest -> RenderAttempt>, pdf: string, tmpPng: string, dpi: int)
    : (run: PageRun)
    ensures count.None? ==> run.reports == [] && run.error.Some?
  {
    if count.None? then PageRun([], Some("Could not determine page count for " + pdf))
    else
      var copy := outputDir.Some? && outputDir.value != "";
      VisitPages(FirstPage(first), LastPage(last, count.value), PageRender(renderers, pdf, tmpPng, dpi), copy)
  }

  /** `filesize_of_each_page_image_export_as_pdf`: counts the pages, then
      renders each requested page into the one temp file and reports it. */
  method FilesizeOfEachPage(counters: seq<string -> Option<int>>, renderers: seq<RenderRequest -> RenderAttempt>,
                            pdf: string, first: Option<int>, last: Option<int>, outputDir: Option<string>,
                            tmpPng: string, dpi: int)
    returns (run: PageRun)
    ensures run == PageRunOf(FirstSome(PageCounts(counters, pdf)), first, last, outputDir, renderers, pdf, tmpPng, dpi)
  {
    var count, _ := GetNoOfPagesPdf(counters, pdf);
    if count.None? {
      return PageRun([], Some("Could not determine page count for " + pdf));
    }
    var copy := outputDir.Some? && outputDir.value != "";
    run := ConvertPages(FirstPage(first), LastPage(last, count.value), renderers, pdf, tmpPng, dpi, copy);
  }

  /** The `for page in range(first_page, last_page + 1)` loop of
      `filesize_of_each_page_image_export_as_pdf`. */
  method ConvertPages(first: int, last: int, renderers: seq<RenderRequest -> RenderAttempt>,
                      pdf: string, tmpPng: string, dpi: int, copy: bool)
    returns (run: PageRun)
    ensures run == VisitPages(first, last, PageRender(renderers, pdf, tmpPng, dpi), copy)
  {
    ghost var render := PageRender(renderers, pdf, tmpPng, dpi);
    ghost var total := VisitPages(first, last, render, copy);
    var page := first;
    var reports := [];
    while page <= last
      invariant total.reports == reports + VisitPages(page, last, render, copy).reports
      invariant total.error == VisitPages(page, last, render, copy).error
      decreases last - page + 1
    {
      var converted, _ := PdfPageAsPngImage(renderers, RenderRequest(pdf, page, tmpPng, dpi));
      assert converted == render(page);
      ConvertStep(page, last, render, copy, reports, total);
      if converted.Err? {
        return PageRun(reports, Some(converted.error));
      }
      reports := reports + [PageReport(page, converted.value, copy)];
      page := page + 1;
    }
    assert reports + [] == reports;
    run := PageRun(reports, None);
  }

  /** One turn of the page loop: a raise ends the run with the reports so far;
      otherwise the page's report joins them and the loop goes on. */
  lemma ConvertStep(page: int, last: int, render: int -> Result<bool>, copy: bool,
                    reports: seq<PageReport>, total: PageRun)
    requires page <= last
    requires total.reports == reports + VisitPages(page, last, render, copy).reports
    requires total.error == VisitPages(page, last, render, copy).error
    ensures render(page).Err? ==> total == PageRun(reports, Some(render(page).error))
    ensures render(page).Ok? ==>
      && total.reports == (reports + [PageReport(page, render(page).value, copy)]) + VisitPages(page + 1, last, render, copy).reports
      && total.error == VisitPages(page + 1, last, render, copy).error
  {
    VisitPagesStep(page, last, render, copy);
    if render(page).Err? {
      assert reports + [] == reports;
    }
  }

  lemma VisitPagesStep(page: int, last: int, render: int -> Result<bool>, copy: bool)
    requires page <= last
    ensures var here := VisitPages(page, last, render, copy);
      var next := VisitPages(page + 1, last, render, copy);
      match render(page)
      case Err(e) => here == PageRun([], Some(e))
      case Ok(c) => here.reports == [PageReport(page, c, copy)] + next.reports && here.error == next.error
  {
  }

  /** Pages are reported in ascending order from the first requested page,
      each marked copied exactly when an output directory was given. */
  lemma {:induction false} VisitPagesAscending(page: int, last: int, render: int -> Result<bool>, copy: bool, i: int)
    requires 0 <= i < |VisitPages(page, last, render, copy).reports|
    ensures var r := VisitPages(page, last, render, copy).reports[i];
      && r.page == page + i && page + i <= last && r.copied == copy
      && r.converted == (render(page + i) == Ok(true))
    decreases if page <= last then last - page + 1 else 0
  {
    var here := VisitPages(page, last, render, copy);
    assert page <= last;
    VisitPagesStep(page, last, render, copy);
    var next := VisitPages(page + 1, last, render, copy);
    assert render(page).Ok?;
    assert here.reports == [PageReport(page, render(page).value, copy)] + next.reports;
    if i > 0 {
      assert here.reports[i] == next.reports[i - 1];
      VisitPagesAscending(page + 1, last, render, copy, i - 1);
    }
  }

  /** A run ends either after the last page of the range, having reported
      every page of it, or at the first page whose rendering raised. */
  lemma {:induction false} VisitPagesCovers(page: int, last: int, render: int -> Result<bool>, copy: bool)
    ensures var run := VisitPages(page, last, render, copy);
      && (run.error.None? ==> |run.reports| == if page <= last then last - page + 1 else 0)
      && (run.error.Some? ==> page + |run.reports| <= last && render(page + |run.reports|) == Err(run.error.value))
    decreases if page <= last then last - page + 1 else 0
  {
    if page <= last {
      VisitPagesStep(page, last, render, copy);
      if render(page).Ok? {
        VisitPagesCovers(page + 1, last, render, copy);
      }
    }
  }

  /** With the intended renderers, where `pdftoppm` succeeds on every page, a
      run converts and reports every requested page and raises nothing. */
  lemma PdftoppmRunConvertsAll(magick: RenderRequest -> ToolRun, pdftoppm: RenderRequest -> ToolRun,
                               pdf: string, tmpPng: string, dpi: int, first: int, last: int, copy: bool)
    requires forall req :: pdftoppm(req) == Exited(0)
    ensures var run := VisitPages(first, last, PageRender(Renderers(magick, pdftoppm), pdf, tmpPng, dpi), copy);
      && run.error.None?
      && |run.reports| == (if first <= last then last - first + 1 else 0)
      && forall i :: 0 <= i < |run.reports| ==> run.reports[i].converted
  {
    var render := PageRender(Renderers(magick, pdftoppm), pdf, tmpPng, dpi);
    forall page | first <= page <= last
      ensures render(page) == Ok(true)
    {
      RenderersFallBack(magick, pdftoppm, RenderRequest(pdf, page, tmpPng, dpi));
    }
    var run := VisitPages(first, last, render, copy);
    VisitPagesCovers(first, last, render, copy);
    forall i | 0 <= i < |run.reports|
      ensures run.reports[i].converted
    {
      VisitPagesAscending(first, last, render, copy, i);
    }
  }
}

=== FILE: pypath.dfy ===
/** `os.path.basename` and `os.path.splitext` for POSIX paths, where `/` is the
    only separator and `.` the only extension separator. */
module PyPath {
  import opened PyStr

  /** `LastIndexOf` is the only index with its defining property. */
  lemma LastIndexOfUnique(s: string, c: char, i: int)
    requires -1 <= i < |s|
    requires i >= 0 ==> s[i] == c
    requires forall k :: i < k < |s| ==> s[k] != c
    ensures LastIndexOf(s, c) == i
  {
  }

  /** Cutting a string after its last `c` keeps that `c` the last one. */
  lemma LastIndexOfPrefix(s: string, c: char, j: int)
    requires LastIndexOf(s, c) < j <= |s|
    ensures LastIndexOf(s[..j], c) == LastIndexOf(s, c)
  {
    LastIndexOfUnique(s[..j], c, LastIndexOf(s, c));
  }

  /** Dropping a prefix shifts the last `c`, or loses it when it lay in the prefix. */
  lemma LastIndexOfSuffix(s: string, c: char, j: int)
    requires 0 <= j <= |s|
    ensures LastIndexOf(s[j..], c) == if LastIndexOf(s, c) >= j then LastIndexOf(s, c) - j else -1
  {
    var i := LastIndexOf(s, c);
    LastIndexOfUnique(s[j..], c, if i >= j then i - j else -1);
  }

  /** `os.path.basename(p)`: everything after the last `/`. */
  function Basename(p: string): (r: string)
    ensures '/' !in r
    ensures |r| <= |p| && r == p[|p| - |r|..]
    ensures |r| < |p| ==> p[|p| - |r| - 1] == '/'
  {
    p[LastIndexOf(p, '/') + 1..]
  }

  /** `s` is made of dots only (the empty string included). */
  predicate OnlyDots(s: string) {
    s == [] || (s[0] == '.' && OnlyDots(s[1..]))
  }

  /** `os.path.splitext(p)`: the extension starts at the last `.` of the last
      path component, unless nothing but dots precedes that `.` inside the
      component (so `.bashrc` and `..x` have no extension). */
  function SplitExt(p: string): (r: (string, string))
    ensures r.0 + r.1 == p
  {
    var sep := LastIndexOf(p, '/');
    var dot := LastIndexOf(p, '.');
    if dot > sep && HasName(p, sep, dot) then
      SplitAt(p, dot);
      (p[..dot], p[dot..])
    else (p, "")
  }

  /** The two sides of any cut of `p` concatenate back to `p`. */
  lemma SplitAt(p: string, i: int)
    requires 0 <= i <= |p|
    ensures p[..i] + p[i..] == p
  {
  }

  /** An extension is a `.` followed by neither `.` nor `/`. */
  lemma SplitExtShape(p: string)
    ensures SplitExt(p).1 != [] ==> SplitExt(p).1[0] == '.' && ExtensionTail(SplitExt(p).1)
  {
    var sep := LastIndexOf(p, '/');
    var dot := LastIndexOf(p, '.');
    var ext := SplitExt(p).1;
    if ext != [] {
      assert ext == p[dot..];
      forall k | 0 <= k < |ext| ensures ext[k] != '/' && (k > 0 ==> ext[k] != '.') {
        assert ext[k] == p[dot + k];
      }
    }
  }

  /** Something other than dots lies between the last `/` and the last `.`. */
  predicate HasName(p: string, sep: int, dot: int)
    requires -1 <= sep < dot <= |p|
  {
    !OnlyDots(p[sep + 1..dot])
  }

  /** After its leading `.`, an extension holds neither `.` nor `/`. */
  predicate ExtensionTail(ext: string) {
    forall k :: 0 <= k < |ext| ==> ext[k] != '/' && (k > 0 ==> ext[k] != '.')
  }

  /** When an extension is split off, the component left in front of it still
      has a character that is not a dot. */
  lemma SplitExtKeepsName(p: string)
    requires SplitExt(p).1 != []
    ensures !OnlyDots(Basename(SplitExt(p).0))
  {
    var sep := LastIndexOf(p, '/');
    var dot := LastIndexOf(p, '.');
    LastIndexOfPrefix(p, '/', dot);
    assert Basename(p[..dot]) == p[sep + 1..dot];
  }

  /** The extension of a path is the extension of its last component. */
  lemma SplitExtOfBasename(p: string)
    ensures SplitExt(Basename(p)).1 == SplitExt(p).1
  {
    var sep := LastIndexOf(p, '/');
    var dot := LastIndexOf(p, '.');
    var b := Basename(p);
    assert b == p[sep + 1..];
    LastIndexOfSuffix(p, '/', sep + 1);
    LastIndexOfSuffix(p, '.', sep + 1);
    assert LastIndexOf(b, '/') == -1;
    if dot > sep {
      var d := dot - sep - 1;
      assert LastIndexOf(b, '.') == d;
      assert b[0..d] == p[sep + 1..dot];
      assert HasName(b, -1, d) == HasName(p, sep, dot);
      assert b[d..] == p[dot..];
    } else {
      assert LastIndexOf(b, '.') == -1;
    }
  }

  /** A name without `/` and without `.` is its own basename and has no extension. */
  lemma PlainName(s: string)
    requires '/' !in s && '.' !in s
    ensures Basename(s) == s
    ensures SplitExt(s) == (s, "")
  {
    LastIndexOfUnique(s, '/', -1);
    LastIndexOfUnique(s, '.', -1);
  }

  /** A name followed by an extension splits back into the two, provided the
      name has no `/`, no `.`, and is not empty. */
  lemma SplitExtOfJoin(stem: string, ext: string)
    requires stem != [] && '/' !in stem && '.' !in stem
    requires ext != [] && ext[0] == '.' && ExtensionTail(ext)
    ensures SplitExt(stem + ext) == (stem, ext)
  {
    var p := stem + ext;
    LastIndexOfUnique(p, '/', -1);
    LastIndexOfUnique(p, '.', |stem|);
    assert p[0..|stem|] == stem && stem[0] != '.';
    assert p[..|stem|] == stem && p[|stem|..] == ext;
  }

  /** An extension holds no `/`, so appending it keeps the last `/`. */
  lemma AppendKeepsLastSlash(base: string, ext: string)
    requires ExtensionTail(ext)
    ensures LastIndexOf(base + ext, '/') == LastIndexOf(base, '/')
  {
    var p := base + ext;
    var sep := LastIndexOf(base, '/');
    forall k | sep < k < |p| ensures p[k] != '/' {
      if k < |base| {
        assert p[k] == base[k];
      } else {
        assert p[k] == ext[k - |base|];
      }
    }
    LastIndexOfUnique(p, '/', sep);
  }

  /** An extension holds a `.` only at its head, which becomes the last `.`. */
  lemma AppendLastDot(base: string, ext: string)
    requires ext != [] && ext[0] == '.' && ExtensionTail(ext)
    ensures LastIndexOf(base + ext, '.') == |base|
  {
    var p := base + ext;
    forall k | |base| < k < |p| ensures p[k] != '.' {
      assert p[k] == ext[k - |base|];
    }
    assert p[|base|] == ext[0];
    LastIndexOfUnique(p, '.', |base|);
  }

  /** Appending an extension to a path whose last component has something
      other than dots splits back into the path and the extension. */
  lemma SplitExtAppend(base: string, ext: string)
    requires !OnlyDots(Basename(base))
    requires ext != [] && ext[0] == '.' && ExtensionTail(ext)
    ensures SplitExt(base + ext) == (base, ext)
  {
    var p := base + ext;
    var n := |base|;
    var sep := LastIndexOf(base, '/');
    AppendKeepsLastSlash(base, ext);
    AppendLastDot(base, ext);
    assert p[sep + 1..n] == base[sep + 1..] == Basename(base);
    assert HasName(p, sep, n);
    assert p[..n] == base && p[n..] == ext;
  }

  /** A leading directory does not change the basename. */
  lemma BasenameUnderDirectory(dir: string, name: string)
    ensures Basename(dir + "/" + name) == Basename(name)
  {
    var p := dir + "/" + name;
    var i := LastIndexOf(name, '/');
    var j := |dir| + 1 + i;
    assert p[|dir| + 1..] == name;
    assert p[j] == '/' by {
      if i < 0 {
        assert p[|dir|] == '/';
      } else {
        assert p[j] == name[i];
      }
    }
    forall k | j < k < |p| ensures p[k] != '/' {
      assert p[k] == name[k - |dir| - 1];
    }
    LastIndexOfUnique(p, '/', j);
    assert p[j + 1..] == name[i + 1..];
  }
}

=== FILE: pystr.dfy ===
/** The parts of Python's `str` that the scripts rely on: `strip`, `startswith`,
    `in`, `split`, `join`, `lower`, `isalnum` and `int(...)`, as functions on
    `seq<char>`. Letters and digits are those of ASCII. */
module PyStr {
  import opened Wrappers

  /** `str.isspace()` for one character (every code point Python counts). */
  predicate IsSpace(c: char) {
    || ('\t' <= c <= '\r')
    || ('\U{1C}' <= c <= ' ')
    || c == '\U{85}' || c == '\U{A0}' || c == '\U{1680}'
    || ('\U{2000}' <= c <= '\U{200A}')
    || c == '\U{2028}' || c == '\U{2029}' || c == '\U{202F}' || c == '\U{205F}' || c == '\U{3000}'
  }

  predicate IsDigit(c: char) { '0' <= c <= '9' }

  predicate IsAsciiAlnum(c: char) {
    IsDigit(c) || 'a' <= c <= 'z' || 'A' <= c <= 'Z'
  }

  /** `str.lower()` on one character of ASCII; other characters are left alone. */
  function Lower(c: char): (r: char)
    ensures 'A' <= c <= 'Z' ==> 'a' <= r <= 'z'
    ensures !('A' <= c <= 'Z') ==> r == c
    ensures IsAsciiAlnum(r) <==> IsAsciiAlnum(c)
  {
    if 'A' <= c <= 'Z' then (c as int + 32) as char else c
  }

  predicate IsUpper(c: char) {
    'A' <= c <= 'Z'
  }

  /** `s.lower()` on ASCII: capitals move to their small letters, every other
      character stays where and what it was, and no capital is left. */
  function LowerStr(s: string): (r: string)
    ensures |r| == |s|
    ensures forall i :: 0 <= i < |s| && !IsUpper(s[i]) ==> r[i] == s[i]
    ensures forall i :: 0 <= i < |s| && IsUpper(s[i]) ==> r[i] as int == s[i] as int + 32
    ensures forall i :: 0 <= i < |r| ==> !IsUpper(r[i])
  {
    seq(|s|, i requires 0 <= i < |s| => Lower(s[i]))
  }

  /** Lowering twice is lowering once. */
  lemma LowerStrIdempotent(s: string)
    ensures LowerStr(LowerStr(s)) == LowerStr(s)
  {
  }

  /** A string is its own lower case exactly when it holds no capital. */
  lemma LowerStrFixed(s: string)
    ensures LowerStr(s) == s <==> forall i :: 0 <= i < |s| ==> !IsUpper(s[i])
  {
  }

  // ---------------------------------------------------------------- strip

  /** Where the run of dropped characters starting at `i` ends. */
  function LeadEnd(s: string, drop: char -> bool, i: nat): (j: nat)
    requires i <= |s|
    ensures i <= j <= |s|
    ensures forall k :: i <= k < j ==> drop(s[k])
    ensures j < |s| ==> !drop(s[j])
    decreases |s| - i
  {
    if i < |s| && drop(s[i]) then LeadEnd(s, drop, i + 1) else i
  }

  /** Where the run of dropped characters ending at `hi` starts, looking no
      further back than `lo`. */
  function TrailStart(s: string, drop: char -> bool, lo: nat, hi: nat): (e: nat)
    requires lo <= hi <= |s|
    ensures lo <= e <= hi
    ensures forall k :: e <= k < hi ==> drop(s[k])
    ensures e > lo ==> !drop(s[e - 1])
    decreases hi
  {
    if hi > lo && drop(s[hi - 1]) then TrailStart(s, drop, lo, hi - 1) else hi
  }

  /** `s.strip(...)`: a contiguous piece of `s` whose ends are kept characters,
      everything cut off on either side being a dropped character. */
  function Strip(s: string, drop: char -> bool): (r: string)
    ensures CutAt(s, r, LeadEnd(s, drop, 0), drop)
    ensures r != [] ==> !drop(r[0]) && !drop(r[|r| - 1])
  {
    var a := LeadEnd(s, drop, 0);
    s[a..TrailStart(s, drop, a, |s|)]
  }

  /** `r` is the piece of `s` starting at `i`, and every character cut off
      before or after it is one that `drop` selects. */
  ghost predicate CutAt(s: string, r: string, i: int, drop: char -> bool) {
    && 0 <= i <= |s| - |r| && r == s[i..i + |r|]
    && (forall k :: 0 <= k < i ==> drop(s[k]))
    && (forall k :: i + |r| <= k < |s| ==> drop(s[k]))
  }

  /** `s.strip()`: the piece of `s` left once the whitespace on both ends is cut. */
  function StripSpace(s: string): (r: string)
    ensures |r| <= |s|
    ensures r != [] ==> !IsSpace(r[0]) && !IsSpace(r[|r| - 1])
  {
    Strip(s, IsSpace)
  }

  /** The characters `s.strip(c)` drops. */
  function Is(c: char): char -> bool {
    x => x == c
  }

  /** `s.strip(c)` for a single character `c`: the piece of `s` left once the
      runs of `c` on both ends are cut. */
  function StripChar(s: string, c: char): (r: string)
    ensures |r| <= |s|
    ensures r != [] ==> r[0] != c && r[|r| - 1] != c
  {
    Strip(s, Is(c))
  }

  /** A string that neither starts nor ends with a dropped character is its own strip. */
  lemma StripKeeps(s: string, drop: char -> bool)
    requires s != [] ==> !drop(s[0]) && !drop(s[|s| - 1])
    ensures Strip(s, drop) == s
  {
    assert LeadEnd(s, drop, 0) == 0;
    assert TrailStart(s, drop, 0, |s|) == |s|;
  }

  /** `strip` is determined by its shape: a non-empty piece of `s` whose ends
      are kept and around which only dropped characters lie is the strip. */
  lemma StripUnique(s: string, r: string, i: int, drop: char -> bool)
    requires r != [] && !drop(r[0]) && !drop(r[|r| - 1])
    requires CutAt(s, r, i, drop)
    ensures Strip(s, drop) == r
  {
    CutsAgree(s, r, i, Strip(s, drop), LeadEnd(s, drop, 0), drop);
  }

  /** Two cuts of `s` whose ends are kept characters are the same piece. */
  lemma CutsAgree(s: string, r: string, i: int, q: string, j: int, drop: char -> bool)
    requires r != [] && !drop(r[0]) && !drop(r[|r| - 1]) && CutAt(s, r, i, drop)
    requires q != [] ==> !drop(q[0]) && !drop(q[|q| - 1])
    requires CutAt(s, q, j, drop)
    ensures q == r
  {
    var n := |r|;
    assert !drop(s[i]) && !drop(s[i + n - 1]) by {
      assert s[i] == r[0];
      assert s[i + n - 1] == r[n - 1];
    }
    if q != [] {
      var m := |q|;
      assert !drop(s[j]) && !drop(s[j + m - 1]) by {
        assert s[j] == q[0];
        assert s[j + m - 1] == q[m - 1];
      }
      assert j <= i < j + m;
      assert i <= j < i + n;
      assert j + m <= i + n;
      assert i + n <= j + m;
    }
  }

  /** Stripping twice is stripping once. */
  lemma StripIdempotent(s: string, drop: char -> bool)
    ensures Strip(Strip(s, drop), drop) == Strip(s, drop)
  {
    StripKeeps(Strip(s, drop), drop);
  }

  // ---------------------------------------------------------------- search

  /** `sub in s` */
  predicate Contains(s: string, sub: string)
    decreases |s|
  {
    sub <= s || (s != [] && Contains(s[1..], sub))
  }

  /** `sub in s` holds exactly when `sub` occurs at some position of `s`. */
  lemma ContainsIff(s: string, sub: string)
    ensures Contains(s, sub) <==> exists i :: OccursAt(s, sub, i)
  {
    if Contains(s, sub) {
      var i := ContainsAt(s, sub);
    }
    if exists i :: OccursAt(s, sub, i) {
      var i :| OccursAt(s, sub, i);
      OccursContains(s, sub, i);
    }
  }

  /** A position where a contained `sub` occurs. */
  lemma {:induction false} ContainsAt(s: string, sub: string) returns (i: int)
    requires Contains(s, sub)
    ensures OccursAt(s, sub, i)
    decreases |s|
  {
    if sub <= s {
      i := 0;
      assert s[0..|sub|] == sub;
    } else {
      var j := ContainsAt(s[1..], sub);
      i := j + 1;
      ShiftedSlice(s, i, |sub|);
    }
  }

  /** An occurrence of `sub` makes `sub in s` true. */
  lemma {:induction false} OccursContains(s: string, sub: string, i: int)
    requires OccursAt(s, sub, i)
    ensures Contains(s, sub)
    decreases |s|
  {
    if i == 0 {
      assert s[..|sub|] == sub;
    } else {
      ShiftedSlice(s, i, |sub|);
      OccursContains(s[1..], sub, i - 1);
    }
  }

  /** Dropping the first character shifts every slice by one. */
  lemma ShiftedSlice(s: string, i: int, n: nat)
    requires 1 <= i && i + n <= |s|
    ensures s[1..][i - 1..i - 1 + n] == s[i..i + n]
  {
  }

  /** `sub` occurs in `s` at index `i`. */
  ghost predicate OccursAt(s: string, sub: string, i: int) {
    0 <= i <= |s| - |sub| && s[i..i + |sub|] == sub
  }

  /** Index of the first `c` in `s`, or `|s|` when there is none. */
  function IndexOf(s: string, c: char): (i: nat)
    ensures i <= |s|
    ensures i < |s| ==> s[i] == c
    ensures forall k :: 0 <= k < i ==> s[k] != c
    decreases |s|
  {
    if s == [] then 0 else if s[0] == c then 0 else 1 + IndexOf(s[1..], c)
  }

  /** `s.rfind(c)`: index of the last `c` in `s`, or -1. */
  function LastIndexOf(s: string, c: char): (i: int)
    ensures -1 <= i < |s|
    ensures i >= 0 ==> s[i] == c
    ensures forall k :: i < k < |s| ==> s[k] != c
    decreases |s|
  {
    if s == [] then -1 else if s[|s| - 1] == c then |s| - 1 else LastIndexOf(s[..|s| - 1], c)
  }

  // ---------------------------------------------------------------- split and join

  /** `s.split(sep)` for a one-character separator. */
  function Split(s: string, sep: char): (parts: seq<string>)
    ensures |parts| >= 1
    decreases |s|
  {
    var i := IndexOf(s, sep);
    if i == |s| then [s] else [s[..i]] + Split(s[i + 1..], sep)
  }

  /** No piece of a split holds the separator, and there is more than one piece
      exactly when the separator occurs. */
  lemma {:induction false} SplitPieces(s: string, sep: char)
    ensures forall k :: 0 <= k < |Split(s, sep)| ==> sep !in Split(s, sep)[k]
    ensures |Split(s, sep)| == 1 <==> sep !in s
    decreases |s|
  {
    var i := IndexOf(s, sep);
    if i < |s| {
      var b := s[i + 1..];
      SplitPieces(b, sep);
      assert Split(s, sep) == [s[..i]] + Split(b, sep);
    }
  }

  /** `sep.join(parts)`: the pieces in order with `sep` between neighbours. */
  function Join(parts: seq<string>, sep: char): string
  {
    if parts == [] then "" else if |parts| == 1 then parts[0] else parts[0] + [sep] + Join(parts[1..], sep)
  }

  /** Joining the pieces of a split gives the string back. */
  lemma {:induction false} JoinSplit(s: string, sep: char)
    ensures Join(Split(s, sep), sep) == s
    decreases |s|
  {
    var i := IndexOf(s, sep);
    if i < |s| {
      var a, b := s[..i], s[i + 1..];
      assert Split(s, sep) == [a] + Split(b, sep);
      JoinSplit(b, sep);
      JoinCons(a, Split(b, sep), sep);
      assert Join(Split(s, sep), sep) == a + [sep] + b;
      AroundIndex(s, i);
    } else {
      assert Split(s, sep) == [s];
    }
  }

  /** A string is the part before index `i`, the character at `i`, and the rest. */
  lemma AroundIndex(s: string, i: nat)
    requires i < |s|
    ensures s == s[..i] + [s[i]] + s[i + 1..]
  {
  }

  lemma JoinCons(a: string, parts: seq<string>, sep: char)
    requires parts != []
    ensures Join([a] + parts, sep) == a + [sep] + Join(parts, sep)
  {
    assert ([a] + parts)[1..] == parts;
  }

  /** `s.replace(a, b)` for single characters. */
  function Replace(s: string, a: char, b: char): (r: string)
    ensures |r| == |s|
  {
    seq(|s|, i requires 0 <= i < |s| => if s[i] == a then b else s[i])
  }

  /** Splitting on `a` and joining with `b` replaces every `a` by `b`. */
  lemma {:induction false} JoinSplitReplace(s: string, a: char, b: char)
    ensures Join(Split(s, a), b) == Replace(s, a, b)
    decreases |s|
  {
    var i := IndexOf(s, a);
    ReplaceAround(s, i, a, b);
    if i < |s| {
      var head, tail := s[..i], s[i + 1..];
      var pieces := Split(tail, a);
      assert Split(s, a) == [head] + pieces;
      JoinSplitReplace(tail, a, b);
      JoinCons(head, pieces, b);
      assert Join([head] + pieces, b) == head + [b] + Replace(tail, a, b);
    }
  }

  /** Replacing around the first `a`: the part before it has no `a` to replace. */
  lemma ReplaceAround(s: string, i: nat, a: char, b: char)
    requires i == IndexOf(s, a)
    ensures i == |s| ==> Replace(s, a, b) == s
    ensures i < |s| ==> Replace(s, a, b) == s[..i] + [b] + Replace(s[i + 1..], a, b)
  {
    var r := Replace(s, a, b);
    if i < |s| {
      var head, tail := s[..i], s[i + 1..];
      var t := Replace(tail, a, b);
      forall k | 0 <= k < |s| ensures r[k] == (head + [b] + t)[k] {
        if k < i {
          assert s[k] == head[k];
        } else if k > i {
          assert s[k] == tail[k - i - 1];
        }
      }
    }
  }

  /** Splitting a join of separator-free pieces gives the pieces back. */
  lemma {:induction false} SplitJoin(parts: seq<string>, sep: char)
    requires |parts| >= 1
    requires forall k :: 0 <= k < |parts| ==> sep !in parts[k]
    ensures Split(Join(parts, sep), sep) == parts
  {
    if |parts| == 1 {
      SplitPieces(parts[0], sep);
    }
    if |parts| > 1 {
      var s := Join(parts, sep);
      var rest := Join(parts[1..], sep);
      assert s == parts[0] + [sep] + rest;
      assert IndexOf(s, sep) == |parts[0]| by {
        assert s[|parts[0]|] == sep;
        forall k | 0 <= k < |parts[0]| ensures s[k] != sep {
          assert s[k] == parts[0][k];
        }
      }
      assert s[..|parts[0]|] == parts[0];
      assert s[|parts[0]| + 1..] == rest;
      SplitJoin(parts[1..], sep);
    }
  }

  // ---------------------------------------------------------------- int(...)

  function DigitValue(c: char): (d: nat)
    requires IsDigit(c)
    ensures d < 10
  {
    (c as int) - ('0' as int)
  }

  function DigitChar(d: nat): (c: char)
    requires d < 10
    ensures IsDigit(c) && DigitValue(c) == d
  {
    ('0' as int + d) as char
  }

  /** The digits of a Python integer literal in base 10: decimal digits, with
      single underscores allowed between two digits (`1_000`). */
  function ParseDigits(s: string): (r: Option<nat>)
    ensures r.Some? ==> DigitGroups(s)
    decreases |s|
  {
    if s == [] || !IsDigit(s[|s| - 1]) then None
    else
      var d := DigitValue(s[|s| - 1]);
      var rest := s[..|s| - 1];
      if rest == [] then Some(d)
      else
        var body := if rest[|rest| - 1] == '_' then rest[..|rest| - 1] else rest;
        match ParseDigits(body)
        case None => None
        case Some(v) =>
          assert DigitGroups(s) by {
            var m := |body|;
            assert m == |s| - 1 || (m == |s| - 2 && s[|s| - 2] == '_');
            assert body == s[..m] && DigitGroups(body);
            assert IsDigit(body[m - 1]);
            forall i | 0 <= i < |s|
              ensures IsDigit(s[i]) || (s[i] == '_' && 0 < i < |s| - 1 && IsDigit(s[i - 1]) && IsDigit(s[i + 1]))
            {
              if i < m {
                assert s[i] == body[i];
                if !IsDigit(s[i]) {
                  assert IsDigit(body[i]) || (body[i] == '_' && 0 < i < m - 1 && IsDigit(body[i - 1]) && IsDigit(body[i + 1]));
                  assert s[i - 1] == body[i - 1] && s[i + 1] == body[i + 1];
                }
              } else if i == m && m == |s| - 2 {
                assert s[i - 1] == body[m - 1];
              }
            }
          }
          Some(v * 10 + d)
  }

  /** Decimal digits in groups: every character is a digit, or an `_` with a
      digit on each side, so the text starts and ends with a digit. */
  predicate DigitGroups(d: string) {
    && d != []
    && forall i {:trigger d[i]} :: 0 <= i < |d| ==>
         IsDigit(d[i]) || (d[i] == '_' && 0 < i < |d| - 1 && IsDigit(d[i - 1]) && IsDigit(d[i + 1]))
  }

  /** The text `int()` accepts once stripped: an optional sign, then digits in
      groups separated by single underscores. */
  predicate IntLiteral(t: string) {
    t != [] && DigitGroups(if t[0] == '+' || t[0] == '-' then t[1..] else t)
  }

  /** `int(s)` for a `str` argument: surrounding white space, an optional sign,
      then digits; anything else is a `ValueError`, modelled as `None`. */
  function ParseInt(s: string): (r: Option<int>)
    ensures r.Some? ==> IntLiteral(StripSpace(s))
  {
    var t := StripSpace(s);
    if t != [] && (t[0] == '+' || t[0] == '-') then
      match ParseDigits(t[1..])
      case None => None
      case Some(v) =>
        var n: int := if t[0] == '-' then -(v as int) else v;
        Some(n)
    else
      match ParseDigits(t)
      case None => None
      case Some(v) => Some(v)
  }

  /** Two underscores in a row are refused, as Python's `int("1__2")` is. */
  lemma DoubledUnderscoreRefused()
    ensures ParseInt("1__2").None?
  {
    var t := "1__2";
    assert !DigitGroups(t) by {
      assert t[1] == '_' && t[2] == '_';
    }
    assert !IntLiteral(t);
    StripDigits(t);
  }

  /** Decimal rendering of a natural number, as `str(n)` gives it. */
  function NatToString(n: nat): (s: string)
    ensures s != [] && IsDigit(s[0]) && IsDigit(s[|s| - 1])
    ensures forall i :: 0 <= i < |s| ==> IsDigit(s[i])
  {
    if n < 10 then [DigitChar(n)] else NatToString(n / 10) + [DigitChar(n % 10)]
  }

  /** `str(n)` */
  function IntToString(n: int): string {
    if n < 0 then "-" + NatToString(-n) else NatToString(n)
  }

  lemma {:induction false} ParseDigitsOfNat(n: nat)
    ensures ParseDigits(NatToString(n)) == Some(n)
  {
    if n >= 10 {
      var s := NatToString(n);
      ParseDigitsOfNat(n / 10);
      assert s[..|s| - 1] == NatToString(n / 10);
    }
  }

  /** `int(str(n)) == n` */
  lemma ParseIntOfString(n: int)
    ensures ParseInt(IntToString(n)) == Some(n)
  {
    if n < 0 {
      ParseIntOfNegative(n);
    } else {
      ParseIntOfNat(n);
    }
  }

  /** A string that starts and ends with a digit is its own `strip()`. */
  lemma StripDigits(s: string)
    requires s != [] && IsDigit(s[0]) && IsDigit(s[|s| - 1])
    ensures StripSpace(s) == s
  {
    StripKeeps(s, IsSpace);
  }

  lemma ParseIntOfNat(n: int)
    requires n >= 0
    ensures ParseInt(IntToString(n)) == Some(n)
  {
    var s := NatToString(n);
    assert IntToString(n) == s;
    StripDigits(s);
    ParseDigitsOfNat(n);
  }

  lemma ParseIntOfNegative(n: int)
    requires n < 0
    ensures ParseInt(IntToString(n)) == Some(n)
  {
    var digits := NatToString(-n);
    var s := "-" + digits;
    assert IntToString(n) == s;
    assert s[|s| - 1] == digits[|digits| - 1];
    StripKeeps(s, IsSpace);
    ParseDigitsOfNat(-n);
    assert s[1..] == digits;
    assert StripSpace(s)[0] == '-' && ParseDigits(StripSpace(s)[1..]) == Some(-n);
  }
}

=== FILE: runs.dfy ===
/** What one run of an OCR or PDF wrapper ends in, and the shapes of service
    output the wrappers inspect. Every wrapper computes its output name first,
    skips when that file exists and `--force` is absent, and otherwise writes
    the service's text or exits with status 1. */
module Runs {
  /** `Skipped`: the output already existed; `Wrote`: `content` went into the
      file `name`; `Exited`: the script printed `message` and exited with 1. */
  datatype RunOutcome = Skipped(name: string) | Wrote(name: string, content: string) | Exited(message: string)

  /** A run is skipped when its output file exists and `--force` was not given. */
  predicate ShouldSkip(name: string, force: bool, existing: set<string>): (r: bool)
    ensures r ==> name in existing
    ensures force ==> !r
  {
    !force && name in existing
  }

  /** The Python value a service call returns: a string, a list of strings, a
      dictionary with string values, or anything else (`kind` names its type). */
  datatype ApiOutput = Text(text: string) | Items(items: seq<string>) | Record(fields: map<string, string>) | Other(kind: string)

  /** The `except Exception as e` handler of every wrapper. */
  function ErrorExit(reason: string): RunOutcome {
    Exited("Error: " + reason)
  }
}

=== FILE: surya.dfy ===
/** The OCR-Surya wrapper for Replicate (imgextractors/cudanexus_ocr_surya_replicate.py):
    default `.txt` output name, the image sent as a JPEG `data:` URL, and only
    a dictionary with a `text` entry accepted as output. */
module SuryaOcr {
  import opened Wrappers
  import opened PyPath
  import opened FileNames
  import opened DataUrls
  import opened Runs

  /** `generate_output_filename(input_filename, output_filename)` */
  function OutputFilename(input: string, output: Option<string>): (r: string)
    ensures Given(output) ==> r == output.value
  {
    OutputOrDefault(input, output, ".txt")
  }

  /** The default name is a `.txt` file named after the input. */
  lemma DefaultIsText(input: string)
    requires Basename(input) != ""
    ensures SplitExt(OutputFilename(input, None)) == (NormalizeFilename(input, DefaultMaxLength), ".txt")
  {
    DefaultNameSplits(input, ".txt");
  }

  const Version: string := "cudanexus/ocr-surya:7ab5bedee2cd1f0c82b2df6718d19bf0b473f738f9db062f122e47e1467f96ce"

  /** The `api_input` of the call. */
  datatype SuryaRequest = SuryaRequest(version: string, image: string, action: string)

  /** The request for a payload: the image always goes as `image/jpeg`,
      whatever the input's own type. */
  function Request(payload: string): (r: SuryaRequest)
    ensures ParseDataUrl(r.image) == Some(("image/jpeg", payload))
  {
    ParseDataUrlOfDataUrl("image/jpeg", payload);
    SuryaRequest(Version, DataUrl("image/jpeg", payload), "Run OCR")
  }

  const UnexpectedFormat: string := "Error: Unexpected output format from the API."

  /** The content of the reply: only a dictionary with a `text` entry has one. */
  function TextOf(output: ApiOutput): Result<string> {
    if output.Record? && "text" in output.fields then Ok(output.fields["text"]) else Err(UnexpectedFormat)
  }

  /** `extract_text_from_image`, from the output name on. `payload` is the
      base64 text of the input, `None` when reading it failed. */
  function Extract(input: string, output: Option<string>, force: bool, existing: set<string>,
                   payload: Option<string>, call: SuryaRequest -> Result<ApiOutput>): (r: RunOutcome)
    ensures r.Skipped? <==> ShouldSkip(OutputFilename(input, output), force, existing)
    ensures r.Skipped? || r.Wrote? ==> r.name == OutputFilename(input, output)
    ensures r.Wrote? ==> payload.Some?
    ensures r.Wrote? && payload.Some? ==>
              var answer := call(Request(payload.value));
              && answer.Ok? && answer.value.Record? && "text" in answer.value.fields
              && r.content == answer.value.fields["text"]
  {
    var name := OutputFilename(input, output);
    if ShouldSkip(name, force, existing) then Skipped(name)
    else if payload.None? then ErrorExit("cannot read " + input)
    else
      match call(Request(payload.value))
      case Err(e) => ErrorExit(e)
      case Ok(out) =>
        match TextOf(out)
        case Ok(content) => Wrote(name, content)
        case Err(message) => Exited(message)
  }

  /** A skipped run makes no request. */
  lemma SkipMakesNoRequest(input: string, output: Option<string>, force: bool, existing: set<string>,
                           payload: Option<string>, call1: SuryaRequest -> Result<ApiOutput>,
                           call2: SuryaRequest -> Result<ApiOutput>)
    requires ShouldSkip(OutputFilename(input, output), force, existing)
    ensures Extract(input, output, force, existing, payload, call1) == Extract(input, output, force, existing, payload, call2)
  {
  }

  /** A run that goes ahead writes exactly when the input was read and the
      service answers with a dictionary holding `text`, and then writes that
      entry to the output name. A dictionary without `text` is the
      unexpected-format exit, a failing call the error exit. */
  lemma ExtractOutcome(input: string, output: Option<string>, force: bool, existing: set<string>,
                       payload: Option<string>, call: SuryaRequest -> Result<ApiOutput>)
    requires !ShouldSkip(OutputFilename(input, output), force, existing)
    ensures var r := Extract(input, output, force, existing, payload, call);
      && (payload.None? ==> r.Exited?)
      && (payload.Some? ==>
            var answer := call(Request(payload.value));
            && (r.Wrote? <==> answer.Ok? && answer.value.Record? && "text" in answer.value.fields)
            && (r.Wrote? ==> r == Wrote(OutputFilename(input, output), answer.value.fields["text"]))
            && (!r.Wrote? ==> r.Exited?)
            && (answer.Err? ==> r == ErrorExit(answer.error))
            && (answer.Ok? && answer.value.Record? && "text" !in answer.value.fields ==> r == Exited(UnexpectedFormat)))
  {
  }

  /** Output that is a plain string or a list is refused, even when it holds text. */
  lemma OnlyRecordsAccepted(input: string, output: Option<string>, existing: set<string>,
                            payload: string, call: SuryaRequest -> Result<ApiOutput>)
    requires call(Request(payload)).Ok? && !call(Request(payload)).value.Record?
    ensures Extract(input, output, true, existing, Some(payload), call) == Exited(UnexpectedFormat)
  {
  }
}

=== FILE: wrappers.dfy ===
/** Optional values, and results that carry either a value or the message of an
    error exit (`sys.exit(1)` after printing to stderr) or a raised exception. */
module Wrappers {

  datatype Option<+T> = None | Some(value: T)

  datatype Result<+T> = Ok(value: T) | Err(error: string)
}
